=== FILE: README.md ===
# AI calling dashboard — a Dafny model of its call lifecycle, billing and validators

The system is a web dashboard that keeps a list of sales leads, called *candidates*. It
places outbound calls to them through a voice-AI provider, charges one credit per call, and
reconciles call results coming back from the provider. This project models the core of that
system as pure Dafny functions of the form (state, input, now) → (state', response), and
proves properties of them.

The modules follow the program's structure:

- `Text`, `Http`: the JavaScript string operations the code relies on, and the status-plus-body response shape. The string operations are `trim`, case mapping, `split`/`join`, `parseInt`-style digits, `filter` and truthiness.
- `Candidates`: the in-memory candidate store and the call queue and history views on it. Status changes go through `updateStatus`, which merges the caller's fields and then stamps the call times. Also the import, export and clear of all data.
- `Config`, `DataRoute`, `Settings`: the saved configuration, the `/api/data` actions and the `/api/settings` route.
- `Credits`, `CreditsRoute`: the per-e-mail credit ledger, in memory and in the database, with its floor check. Also the `/api/credits` route.
- `Users`: registration and the sign-in callbacks (`authorize`, `redirect`, `jwt`, `session`).
- `Phone`, `ParseInt`: phone formatting, validation and display; the import's phone normaliser; `parseInt` as used on candidate ids.
- `Calls`: the `/api/calls` route. This covers queueing, start, end, the status check, polling sync with the provider and bulk import of the provider's call logs, including the import's match rules.
- `Webhook`: the provider's webhook. It checks the shared secret, then handles call started, call ended, `take_notes` and `collect_candidate_info`.
- `Campaigns`, `CampaignsSection`: the campaigns route and the campaigns section of the dashboard. The section covers form validation, industry templates, the optimistic insert, selection, the script preview and the calling dialog.
- `Assistants`, `AssistantTab`, `ScriptCache`: the assistants route, the assistant configuration merge, and the time-limited script cache.
- `History`, `Stats`, `Account`, `Leads`, `Dashboard`: the display helpers. These are outcome badges, durations, success rate, initials, lead tag filter and phone dedupe, the sync toast and the CSV export.
- `Dialing`: the debit-before-dial sequence shared by the dashboard page and the calling dialog.

Everything the code gets from outside is an input:

- the clock, as a `now` timestamp text;
- the password hash, as a function;
- the URL origin parser, as a function;
- locale date formatting, as a function;
- the provider's answers, as plain records, including a request that throws;
- whether a database is configured;
- each database query's failure, as a flag or outcome, except the failures listed under "## Left out". A select whose error the code ignores reads as one that found no row.

The database tables are sequences in row order. A `limit(1)` query gives the first matching row.

## Behaviour taken from the code

The model follows what the code does, including these behaviours:

- The bulk import tries the phone first, then the metadata candidate id, then the stored call id (`Calls.FindImportMatch`).
- The webhook tries the call id and then the raw phone. The phone comparison is not normalised (`Webhook.FormattedPhoneMissesRow`).
- The webhook ignores select errors, so a failed select by call id falls through to the phone fallback (`Webhook.FailedIdSelectUsesPhone`).
- The import's normaliser keeps a leading `+`, so "+1 (415) 555-0100" does not match a stored "4155550100" (`Calls.CountryCodeBlocksMatch`).
- `completed` is not terminal. A late call-started event puts a completed row back to `calling` (`Webhook.StartAfterEndReopens`).
- Repeated `take_notes` events append the note again (`Webhook.TakeNotesTwice`). A repeated call-ended event changes nothing more (`Webhook.CallEndedTwice`).
- A consumed credit is never refunded when the provider refuses the call (`Dialing.DialCostsOneCredit`).
- `updateStatus` stamps the end time itself, so the end time the provider reported during sync and import is overwritten with the local time (`Candidates.UpdateStatusStamps`, `Calls.SyncedRowFields`).
- When the balance update fails, the ledger's fallback debits without re-checking the floor, so a balance can go below zero (`Credits.UpdateErrorGoesNegative`).
- Ids of the in-memory stores are "length + 1", so an id can be reused after a delete. This holds for candidates and campaigns (`Campaigns.IdReusedAfterDelete`).
- The campaign duplicate check ignores letter case in memory but not in the database (`Campaigns.DatabaseCheckIsCaseSensitive`).

## Model

| member | source | states |
|---|---|---|
| Candidates.ApplyMerge | lib/supabase.ts:243-247 | building `updateStatus`'s partial object by spreading and then applying it equals applying the parts one after the other |
| Candidates.ApplyTwice | lib/supabase.ts:144 | spreading the same updates over a record a second time changes nothing more |
| Candidates.Apply | lib/supabase.ts:144 | spreading updates keeps the id and creation time, changes nothing when empty, and takes the status when given |
| Candidates.Json | lib/supabase.ts:152-157 | a JSON body has no `undefined` keys; the contact fields and status pass unchanged, as does a defined note; a body without `undefined` keys passes whole |
| Candidates.JsonNeverClears | lib/supabase.ts:152-157 | a database update travels as JSON and loses its `undefined` keys, so it cannot clear a stored `call_notes`, `vapi_call_id` or `call_result` |
| Candidates.IndexOf | lib/supabase.ts:142 | `findIndex` gives -1 exactly when no record has the id, and otherwise the first record with it |
| Candidates.GetById | lib/supabase.ts:80-82 | the lookup is null exactly when no record has the id; a record it finds has that id and is stored |
| Candidates.Create | lib/supabase.ts:95-105 | the new record goes last, with id = store length + 1, both timestamps = now, and the caller's name, phone and status |
| Candidates.CreateMany | lib/supabase.ts:117-127 | the inputs are appended in order, input k getting id = length + k + 1 and both timestamps |
| Candidates.CreateManyIds | lib/supabase.ts:117-127 | the new records' ids are all above the old length and strictly increasing |
| Candidates.CreateAfterDeleteRepeatsId | lib/supabase.ts:95-105 | ids count positions: after deleting record 1 of two, a new record gets id 2, which the survivor already has |
| Candidates.Update | lib/supabase.ts:140-149 | the first record with the id becomes record ⊕ updates with `updated_at` = now, in place; an unknown id returns null and changes nothing |
| Candidates.UpdateOthersUnchanged | lib/supabase.ts:142-146 | every record with another id is left exactly as it was |
| Candidates.Delete | lib/supabase.ts:167-171 | every record with the id is removed and every other record is kept |
| Candidates.DeleteMany | lib/supabase.ts:181-185 | exactly the records whose id is listed are removed |
| Candidates.GetByStatus | lib/supabase.ts:195-201 | exactly the stored records with that status |
| Candidates.GetByStatusOrder | lib/supabase.ts:199 | the view keeps store order: the view of a concatenation is the concatenation of the views |
| Candidates.GetQueue | lib/supabase.ts:221-226 | exactly the pending records |
| Candidates.GetHistory | lib/supabase.ts:278-283 | exactly the completed records |
| Candidates.AddToQueue | lib/supabase.ts:228-239 | every input is appended with status "pending", `added_at` = now, its own name and phone, and ids length+1, length+2, … |
| Candidates.AddToQueueJoinsQueue | lib/supabase.ts:228-239 | afterwards the queue is the old queue followed by the records just added |
| Candidates.ClearQueue | lib/supabase.ts:261-265 | exactly the pending records are removed |
| Candidates.ClearQueueKeepsHistory | lib/supabase.ts:261-283 | after clearing, the queue is empty and the history is unchanged |
| Candidates.UpdateStatus | lib/supabase.ts:241-259 | null exactly when the id is unknown; otherwise the record keeps the id and gets `updated_at` = now |
| Candidates.UpdateStatusStamps | lib/supabase.ts:243-256 | the caller's extra fields win over `status`; then `call_start_time` (for "calling") or `call_end_time` (for "completed") is set to now, overriding any value the caller gave; the other fields come from the spread |
| Candidates.StatusPatch | lib/supabase.ts:243-256 | the status is the extra fields' status or else the one given; "calling" stamps the start time and "completed" the end time now, and otherwise the extra fields' times pass; notes and call id come from the extra fields |
| Candidates.AddToHistory | lib/supabase.ts:285-297 | the record is spread back with status "completed" and end time now; a record without `call_result` keeps the stored one; an unknown id gives null |
| Candidates.DbWrite | lib/supabase.ts:152-157 | a database update reaches every row with that id, as the JSON body, and no other row |
| Candidates.DbWriteTwice | lib/supabase.ts:152-157 | writing the same body twice is the same as writing it once |
| Candidates.DbUpdate | lib/supabase.ts:152-157 | the database update stamps `updated_at` on the rows with the id and leaves every other row alone |
| Candidates.DbUpdateStatus | lib/supabase.ts:241-259 | on the database path the row gets the status (unless the extra fields carry one) and the start or end time now |
| Config.SaveConfig | lib/supabase.ts:318-327 | without a database the saved configuration carries the caller's settings with id 1 and both timestamps = now, is what `configApi.get` then returns, and the candidates are untouched |
| Config.ExportData | lib/supabase.ts:542-553 | the export holds every candidate, the current configuration and the export time |
| Config.ImportData | lib/supabase.ts:555-571 | an array of candidates replaces the store (an empty array empties it), a missing or non-array value keeps it; a configuration is saved with id 1, a missing one keeps the old |
| Config.ClearAllData | lib/supabase.ts:573-577 | afterwards there are no candidates and no configuration |
| Config.ExportImportRoundTrip | lib/supabase.ts:542-571 | importing an export restores its candidates and its configuration up to id and timestamps, into any store |
| Credits.MemoryInit | lib/supabase.ts:436-439 | the in-memory balance is the stored one or 2 for an unknown email, and it is written back |
| Credits.GetOrInit | lib/supabase.ts:433-491 | an empty email is refused; otherwise a balance is granted, only that email's entries change, and the balance is what one of the two ledgers now holds: the stored row, a new row of 2 when there was none, or the in-memory fallback when the database faults |
| Credits.MemoryConsume | lib/supabase.ts:530-535 | the fallback debit is refused when the in-memory balance (2 for an unknown email) is below the amount, and otherwise writes back and returns balance - amount |
| Credits.Consume | lib/supabase.ts:493-537 | an empty email is refused; only that email's balances change; the only refusal is INSUFFICIENT_CREDITS; in memory a debit is refused exactly when the balance is below the amount, and then nothing changes |
| Credits.ConsumeKeepsFloor | lib/supabase.ts:493-537 | with non-negative balances and amount, no balance ever goes below zero, except through the update-error fallback |
| Credits.UpdateErrorGoesNegative | lib/supabase.ts:518-523 | the update-error fallback debits the in-memory balance without checking it: a database balance of 2 and a memory balance of 0 give -1 |
| Credits.InsufficientChangesNothing | lib/supabase.ts:496-500 | a refused in-memory debit changes no balance |
| Credits.DefaultAllowsTwoCalls | lib/supabase.ts:431 | a new email can make two one-credit debits and the third is refused |
| CreditsRoute.Get | app/api/credits/route.ts:4-19 | a missing or empty email is a 400 "email required"; otherwise 200 with the `getOrInit` balance |
| CreditsRoute.Post | app/api/credits/route.ts:21-45 | an unparseable body is a 500 carrying the parse error's message, or "failed" without one, with nothing changed; no email a 400; an action other than "consume" a 400 "invalid action"; a debit answers 200 with the new balance or 402 INSUFFICIENT_CREDITS; no other status occurs |
| CreditsRoute.DefaultAmountIsOne | app/api/credits/route.ts:26 | a consume request without an amount debits exactly one credit |
| CreditsRoute.PaymentRequiredChangesNothing | app/api/credits/route.ts:33-36 | a 402 answer in memory leaves every balance as it was |
| Users.LocalPart | app/api/auth/register/route.ts:27 | `email.split("@")[0]` is the longest prefix of the email without an '@': it stops exactly at the first '@' or runs to the end |
| Users.SplitFirst | app/api/auth/register/route.ts:27 | the first piece of any split is a prefix of the text ending at the first separator |
| Users.GetByEmail | lib/supabase.ts:367-370 | null exactly when no user has that email; a user it finds has that email and is stored |
| Users.Create | lib/supabase.ts:382-392 | the user is appended with id = length + 1 and both timestamps = now |
| Users.VerifyPassword | lib/supabase.ts:404-418 | a user comes back exactly when one has that email and the stored hash is the hash of the password |
| Users.Register | app/api/auth/register/route.ts:4-50 | a request that throws before any check is a 500 carrying the error's message, or "Registration failed" without one, with nothing changed; a missing email or password a 400; a known email a 409 with nothing changed; otherwise exactly one user is appended, with the hashed password and the name defaulting to the email's local part, is findable by its email, and the credit balance is initialised; no other status occurs |
| Users.FindAppend | lib/supabase.ts:367-370 | a user appended behind users with other emails is the one found for its email |
| Users.RegisterTwiceConflicts | app/api/auth/register/route.ts:13-17 | registering one email twice succeeds the first time, and the second time answers 409 and changes nothing |
| Users.Authorize | lib/auth.config.ts:13-32 | the email is trimmed; empty credentials give null; a user is signed in exactly when the password verifies, with id = the user id as text (or the email) and name = the user's name (or the email's local part) |
| Users.RegisterThenAuthorize | lib/auth.config.ts:13-32 | a freshly registered user signs in with the same email and password and gets the id the store assigned |
| Users.Redirect | lib/auth.config.ts:38-53 | a path is made absolute on the base url; an absolute url on the same origin is kept; anything else, an unparseable url included, goes to the dashboard; the result always stays on the base url's origin |
| Users.Jwt | lib/auth.config.ts:54-60 | a sign-in copies email and name into the token; otherwise the token is kept |
| Users.Session | lib/auth.config.ts:61-68 | a token's email and name are copied into the session; without a token the session is kept |
| Users.SignInReachesSession | lib/auth.config.ts:54-68 | after sign-in the session carries exactly the signed-in user's email and name |
| DataRoute.Get | app/api/data/route.ts:4-36 | the action defaults to "export" and returns every candidate; "candidates" lists them; any other action is a 400 |
| DataRoute.Post | app/api/data/route.ts:38-121 | a non-200 answer changes nothing; only 200, 400 and 500 occur; "clear_all" empties both stores; "delete_candidates" succeeds exactly for a non-empty id array and then removes exactly the listed ids, keeping the configuration |
| DataRoute.MissingPayloadRejected | app/api/data/route.ts:44-102 | a missing import, candidate or candidates payload, or an empty id list, is a 400 |
| DataRoute.SaveAppends | app/api/data/route.ts:74-86 | "save_candidates" appends the candidates behind the existing ones |
| Settings.Get | app/api/settings/route.ts:9-45 | no session email is exactly the 401 case; otherwise the caller's stored settings, or `{}` when none are stored or a database is configured |
| Settings.Post | app/api/settings/route.ts:47-87 | no session email is a 401 with nothing stored; an unreadable body is a 500 "Failed to save settings" with nothing stored; a settings object is a 200 where, without a database, the body's keys win over the stored ones, the stored keys the body lacks survive, no other key appears, and other users' settings are untouched |
| Settings.PostThenGet | app/api/settings/route.ts:9-72 | every key saved is read back with the value saved |
| Phone.Digits | lib/phone-utils.ts:3 | `replace(/\D/g, '')` keeps only ASCII digits and never lengthens the text |
| Phone.DigitsAppend | lib/phone-utils.ts:3 | stripping non-digits from a concatenation strips each part |
| Phone.DigitsOfDigits | lib/phone-utils.ts:3 | a string of digits is left as it is |
| Phone.FormatPhoneNumber | lib/phone-utils.ts:1-11 | "" stays ""; a '+'-prefixed input is kept as typed; otherwise, on the digit string d: 12 digits give "+" + d, 11 digits starting "0" give the code + d without the 0, 10 digits give the code + d, 11 digits starting "1" give "+" + d, anything else gives the code + d |
| Phone.FormatPrefixed | lib/phone-utils.ts:1-11 | with a '+'-prefixed country code every non-empty input comes out '+'-prefixed |
| Phone.FormatIdempotent | lib/phone-utils.ts:1-11 | formatting an already formatted number changes nothing |
| Phone.ValidatePhoneNumber | lib/phone-utils.ts:13-24 | the formatted value is always returned; it is valid, and then carries no error, exactly when it is '+', a digit 1-9 and only digits, 7 to 15 after the '+' |
| Phone.TenDigitsValidate | lib/phone-utils.ts:7 | every ten-digit input validates, as "+91" followed by the same digits |
| Phone.FormatPhoneForDisplay | lib/phone-utils.ts:26-37 | a "+91" number with ten more characters shows as "+91 DDDDD DDDDD", a "+1" number with ten more as "+1 (DDD) DDD-DDDD", anything else as the formatted value |
| Phone.DisplayKeepsDigits | lib/phone-utils.ts:26-37 | display formatting only inserts separators: the digits shown are exactly those of the formatted number |
| Phone.DigitsNone | lib/phone-utils.ts:3 | text without digits contributes nothing |
| Phone.DigitsInsert | lib/phone-utils.ts:30-34 | inserting separators without digits keeps the digit string |
| Phone.DisplayKeepsDigitsIndia | lib/phone-utils.ts:28-31 | the "+91" layout keeps the digits of the formatted number |
| Phone.DisplayKeepsDigitsNorthAmerica | lib/phone-utils.ts:32-35 | the "+1" layout keeps the digits of the formatted number |
| Phone.NormalizeForMatch | app/api/calls/route.ts:370 | the import's normaliser keeps only digits and '+', every one of them, and never lengthens the text |
| Phone.NormalizeIdempotent | app/api/calls/route.ts:370 | normalising twice is normalising once |
| ParseInt.DigitValue | app/api/calls/route.ts:382 | a digit's value is below its base, and in base 10 exactly the ASCII digits have one |
| ParseInt.DigitRun | app/api/calls/route.ts:382 | `parseInt` reads the longest prefix of digits: every character of it is a digit and the next one is not |
| ParseInt.SplitSign | app/api/calls/route.ts:382 | an optional leading sign gives the factor 1 or -1 and is consumed |
| ParseInt.ParseUnsigned | app/api/calls/route.ts:382 | the result is NaN exactly when no digit of the base follows the optional "0x" prefix |
| ParseInt.ParseInt | app/api/calls/route.ts:382 | `parseInt` is NaN exactly when, after leading white space and a sign, no digit follows |
| ParseInt.RunValueDecimal | app/api/calls/route.ts:382 | a run of decimal digits reads as its decimal value |
| ParseInt.DigitRunAll | app/api/calls/route.ts:382 | a string of digits is read completely |
| ParseInt.ParseUnsignedDecimal | app/api/calls/route.ts:382 | a decimal numeral reads as its value |
| ParseInt.TrimStartNoSpace | app/api/calls/route.ts:382 | text starting with a non-space character has no white space to skip |
| ParseInt.ParseIntToString | app/api/calls/route.ts:382 | `parseInt(String(n))` is n for every integer, so the candidate id written into the call metadata reads back |
| ParseInt.ParseIntExamples | app/api/calls/route.ts:382 | trailing junk is ignored ("12abc" is 12), "0x" switches to base 16 ("0x1F" is 31), text without leading digits is NaN |
| ScriptCache.DefaultConfig | lib/script-cache.ts:20-35 | the built-in configuration is hybrid calling with the "adam" voice at speed and pitch 1, 15-minute calls, two retries and 30 s between calls |
| ScriptCache.GetConfig | lib/script-cache.ts:8-18 | a cache younger than five minutes answers alone; otherwise a stored configuration is cached with the clock reading and returned, a missing one gives the default without caching, and a failed lookup gives the stale copy or the default |
| ScriptCache.Refresh | lib/script-cache.ts:19 | a refresh forgets the cache, so a failed lookup gives the default even when something was cached |
| ScriptCache.RefreshConsultsStore | lib/script-cache.ts:19 | after a refresh the stored configuration is what is returned and cached, whatever was cached before |
| ScriptCache.FreshIgnoresStore | lib/script-cache.ts:10 | within five minutes of a fetch the answer is the cached copy and does not depend on the store |
| ScriptCache.StaleServedOnFailure | lib/script-cache.ts:15-16 | after five minutes a failing lookup still serves the stale copy; only an empty cache falls back to the default |
| ScriptCache.BackwardsClockStaysFresh | lib/script-cache.ts:10 | a clock reading before the fetch time counts as fresh, since the age is negative |
| Calls.Notes | app/api/calls/route.ts:240 | notes exist exactly for a truthy transcript and are its first 500 characters, all of it when shorter |
| Calls.CallResult | app/api/calls/route.ts:239 | the result is never empty: the summary when there is one, otherwise text beginning "Call ended: " |
| Calls.CallType | app/api/calls/route.ts:246 | the provider's type when given, otherwise "outbound" exactly when the call has a customer number and "web" when not |
| Calls.SyncEvaluation | app/api/calls/route.ts:248 | the provider's evaluation when given, otherwise "pass" exactly for a customer hang-up and nothing for any other reason |
| Calls.SyncPatch | app/api/calls/route.ts:238-252 | the sync step writes a non-empty result and the provider's end time, or now without one; it sets no status, call id, start time, `updated_at` or contact field itself, leaving those to `updateStatus` |
| Calls.SyncedRowFields | app/api/calls/route.ts:238-252 | a synced row is "completed" with the sync's time as end time (the provider's `endedAt` is overridden), the result and type always written, and notes and evaluation written only when the call has them |
| Calls.CustomerPhone | app/api/calls/route.ts:366-367 | the phone used for matching is the customer number when there is one, and is never empty |
| Calls.PhoneMatchesIffNormalEqual | app/api/calls/route.ts:373-378 | the three phone tests together accept exactly the pairs whose normalised forms are equal |
| Calls.NormalizeAppend | app/api/calls/route.ts:370 | normalising a concatenation normalises each part |
| Calls.FormattingDoesNotBlockMatch | app/api/calls/route.ts:373-378 | a space, bracket, dash or dot written into a stored phone does not block a match |
| Calls.CountryCodeBlocksMatch | app/api/calls/route.ts:373-378 | a stored "+1" followed by the digits does not match the bare digits |
| Calls.FindImportMatch | app/api/calls/route.ts:372-391 | the first candidate whose phone passes one of the three phone tests wins whenever one exists; failing that, the first candidate whose id is the parsed metadata id; failing that, the first candidate storing the same call id; no match means no candidate passes any of the three tests |
| Calls.Get | app/api/calls/route.ts:8-31 | "history" lists the completed records; any other or missing type lists the queue with its length |
| Calls.FindQueued | app/api/calls/route.ts:57-58 | the candidate found is pending and has the requested id; none is found exactly when no pending record has it |
| Calls.PostQueue | app/api/calls/route.ts:33-98 | a non-200 answer changes nothing; start and end succeed exactly when the candidate is in the pending queue and otherwise answer 404; adding needs an array; clearing leaves the store `clearQueue` leaves; an unknown action is a 400 |
| Calls.StartCallMarksCalling | app/api/calls/route.ts:56-66 | starting a queued call marks that record "calling" with start time now, in place |
| Calls.EndCallIgnoresCalling | app/api/calls/route.ts:74-80 | ending looks only in the pending queue: a record already "calling" gets 404 and is left as it was |
| Calls.EndCallCompletes | app/api/calls/route.ts:74-91 | ending a queued call moves it to the history with end time now and the request's notes; an absent result clears the stored one |
| Calls.CheckCallStatus | app/api/calls/route.ts:100-169 | no call id is a 400; a provider error passes its status on; a failed lookup is a 500; a live call answers "Call is still in progress" and changes nothing; for an ended call, no database or a failed query is a 500 and no row holding the call id a 404 "Candidate not found", all with nothing changed; otherwise the first row holding the call id is completed with the provider's result and the answer is 200; a table change happens in no other case |
| Calls.CheckCompletesRow | app/api/calls/route.ts:120-163 | a check of an ended call with a database completes the first row holding the call id: a 200, status "completed", end time now, the row shows in the history, and rows with other ids are untouched |
| Calls.CheckPatch | app/api/calls/route.ts:144-147 | the status check writes only the result and the notes; the result is the summary when there is one and is never empty |
| Calls.SyncOne | app/api/calls/route.ts:219-259 | one step of sync completes at most one row, keeps the table's length, and changes nothing when it counts nothing |
| Calls.SyncLoop | app/api/calls/route.ts:216-260 | the loop keeps the table's length and counts at most one update per row walked |
| Calls.SyncCalls | app/api/calls/route.ts:171-272 | a missing database or provider key is a 500; a missing call-id column a 400; a failure changes nothing; the table keeps its length |
| Calls.SyncExpected | app/api/calls/route.ts:184-260 | the table a sync should leave has the table's length |
| Calls.SyncExpectedRows | app/api/calls/route.ts:219-255 | in the expected table every due row, one "calling" with a call id the provider reports ended, is the synced row, and every other row is unchanged |
| Calls.WatchedRows | app/api/calls/route.ts:184-205 | the rows sync walks are exactly the "calling" rows with a call id, in table order |
| Calls.SyncLoopExact | app/api/calls/route.ts:216-260 | walking the watched rows of a table with unique ids gives the expected table and the number of due rows |
| Calls.SyncCompletesDueRows | app/api/calls/route.ts:171-267 | on a table with unique ids a successful sync completes exactly the due rows, leaves every other row as it was, reports that many updates, and reports the number of calling rows as checked |
| Calls.ImportLoop | app/api/calls/route.ts:353-424 | the import loop only ever completes rows, keeping every row's id and place; it counts one match for each ended call with a phone that finds a candidate in the snapshot, and one update for each match whose candidate was not yet completed or had no call id |
| Calls.ImportMatch | app/api/calls/route.ts:358-391 | a call finds a candidate only when it has ended and has a usable phone, and the candidate is one of the snapshot's |
| Calls.ImportSkipsUnended | app/api/calls/route.ts:361-363 | a call that has not ended is skipped: it changes no row and counts nothing |
| Calls.ImportPatch | app/api/calls/route.ts:393-411 | the import writes the call id, "completed" and the provider's evaluation, and otherwise the same result, notes and end time as the sync step |
| Calls.MetaIdValue | app/api/calls/route.ts:381-385 | a missing or zero metadata id gives no id; a number gives itself; a text gives an id only when it is not empty |
| Calls.MetaTextReadsBack | app/api/calls/route.ts:381-385 | a candidate id written as text in the metadata reads back as that id |
| Calls.LogCalls | app/api/calls/route.ts:322 | an array answer is the call list, even an empty one; an object answer gives its `calls` field when present and otherwise its `data` field; there is no list exactly when an object has neither |
| Calls.ImportCalls | app/api/calls/route.ts:274-438 | the import only ever completes rows; a failure changes nothing; an unavailable /logs endpoint with a JSON error body answers 200 with its details and status, while a request that throws or a body that is not JSON is a 500 "Failed to import calls"; the created count is always 0; updates never exceed matches; after a full run, matched and updated are the loop's counts over the call list against the table, and callsFound is the list's length |
| Calls.ImportOneCall | app/api/calls/route.ts:358-419 | an ended call with a usable phone that finds a candidate completes that candidate's row with end time now, records the provider's call id on it, and counts one match |
| Calls.ImportCountsPerCall | app/api/calls/route.ts:414-418 | the updated count is read from the snapshot taken before the loop, so two logs of one call for a pending candidate count two updates |
| Webhook.ExtractToken | app/api/vapi-webhook/route.ts:9 | the token is a suffix of the header; the header changes only when it starts with "Bearer" in any letter case followed by white space |
| Webhook.NoHeaderRefused | app/api/vapi-webhook/route.ts:6-13 | with a secret configured, a request without an authorization header is refused; without one, every request is let in |
| Webhook.BearerSecretAccepted | app/api/vapi-webhook/route.ts:6-13 | "Bearer " followed by the secret is accepted whenever the secret does not start with white space |
| Webhook.LeadingSpaceSecretRejected | app/api/vapi-webhook/route.ts:9-10 | a secret starting with white space can never be presented after "Bearer ", since the pattern swallows that white space |
| Webhook.LowerBearer | app/api/vapi-webhook/route.ts:9 | the `i` flag makes "Bearer" match its lower-case form |
| Webhook.RowByCallId | app/api/vapi-webhook/route.ts:70-74 | the row found carries the call id and is stored; none is found exactly when no row carries it |
| Webhook.CallStarted | app/api/vapi-webhook/route.ts:54-89 | with a database, a call id that a row carries and a select that does not fail, that row becomes "calling" with start time now and its `updated_at` untouched, and every other row is unchanged; otherwise, a failed select included, nothing changes |
| Webhook.CallingRowByPhone | app/api/vapi-webhook/route.ts:137-142 | the row found is "calling" and has exactly that stored phone; none is found exactly when no such row exists |
| Webhook.FormattedPhoneMissesRow | app/api/vapi-webhook/route.ts:134-142 | the phone fallback compares the raw text, so a number written with one separator more than the stored one finds no row |
| Webhook.CallEnded | app/api/vapi-webhook/route.ts:91-165 | without a database or call id nothing changes; a row carrying the call id gets the ended fields when the select by call id succeeds; when no row carries it or that select fails, the phone fallback runs: a phone in the event whose select succeeds and finds a "calling" row gives that row the ended fields and the call id, and otherwise nothing changes |
| Webhook.EndByPhone | app/api/vapi-webhook/route.ts:134-158 | a failed select, no phone, or no "calling" row with that exact phone changes nothing; otherwise that row gets the ended fields and the call id |
| Webhook.FailedIdSelectUsesPhone | app/api/vapi-webhook/route.ts:109-142 | when the select by call id fails, the phone fallback completes a calling row with the event's phone, although another row holds the call id |
| Webhook.EndedPatch | app/api/vapi-webhook/route.ts:118-127 | the ended write sets "completed", end and call time now, and a non-empty result; it carries the first 500 characters of a transcript as notes, and without a transcript leaves the notes alone |
| Webhook.CallEndedCompletes | app/api/vapi-webhook/route.ts:115-128 | the row found by id is "completed", with end and call time now, the summary or "Completed" as result, and the first 500 characters of a transcript as notes, keeping the old notes otherwise |
| Webhook.CallEndedByPhoneRecordsId | app/api/vapi-webhook/route.ts:134-158 | the phone fallback writes the call id onto the row it completes, so later events for that call find the row by id |
| Webhook.CallEndedTwice | app/api/vapi-webhook/route.ts:115-128 | a repeated call-ended event for a row found by id changes nothing more |
| Webhook.FindFirst | app/api/vapi-webhook/route.ts:70-74 | `limit(1)` returns the first row in table order that meets the test |
| Webhook.StartAfterEndReopens | app/api/vapi-webhook/route.ts:24-30 | events are not ordered: a late call-started event puts a completed row back to "calling" |
| Webhook.NoteText | app/api/vapi-webhook/route.ts:306 | every note starts "Q: " |
| Webhook.AppendNote | app/api/vapi-webhook/route.ts:303-311 | a note is appended after a blank line to existing notes and stands alone otherwise |
| Webhook.TakeNotes | app/api/vapi-webhook/route.ts:278-320 | without a database, a call id, or a row carrying it, or when the select fails, nothing changes; otherwise every row with the found row's id gets the note appended to the found row's notes and `updated_at` now, with every other field kept, and every other row is unchanged; the table keeps its length |
| Webhook.TakeNotesRow | app/api/vapi-webhook/route.ts:295-319 | on a table with unique ids the row found gets the note appended and `updated_at` now with its other fields kept, every other row is unchanged, ids stay unique, and the row is still the one found by its call id |
| Webhook.TakeNotesTwice | app/api/vapi-webhook/route.ts:301-319 | nothing deduplicates notes: a repeated `take_notes` appends the same note again |
| Webhook.InfoPatch | app/api/vapi-webhook/route.ts:227-259 | `updated_at` is always written; name, email, phone and position are written exactly when their value is truthy; notes exactly when there is additional information; status and call id never. Applied to any row, it gives that row with each truthy field taken, the "Additional Info" note appended to the stored notes, and `updated_at` now |
| Webhook.CollectInfo | app/api/vapi-webhook/route.ts:210-276 | without a database, a call id, or a row carrying it, or when the select fails, nothing changes; otherwise the rows with the found row's id get the truthy fields and the note appended to the found row's notes, and every other row is unchanged |
| Webhook.CollectInfoKeepsOnEmpty | app/api/vapi-webhook/route.ts:231-239 | an empty name or email never clears the stored one, and the status and call id are never touched |
| Webhook.Handle | app/api/vapi-webhook/route.ts:24-45 | with the request's select failures passed through, a call-started event is the start handler, a call-ended event the end handler; a function call with parameters goes to `take_notes` or `collect_candidate_info` by name and leaves the table for any other name; a function call without a name-and-parameters record, and every other event kind, changes nothing |
| Webhook.Post | app/api/vapi-webhook/route.ts:4-52 | an unauthorised request is a 401 and a body that is not JSON a 400, both with nothing changed; every parsed body answers 200 `{ ok: true }`; a parsed event is handled by `Handle`, a `null` body changes nothing; the table keeps its length |
| Webhook.PostTakeNotesReachesRow | app/api/vapi-webhook/route.ts:4-52 | an authorised `take_notes` event whose call id finds a row on a table with unique ids answers 200, appends the note to that row and stamps it now, and leaves every other row unchanged |
| Campaigns.ValidationErrors | app/api/campaigns/route.ts:73-86 | a field is reported exactly when it is missing: name or opening script absent or only white space, industry or goal absent or empty; the body is valid exactly when none is reported |
| Campaigns.NewCampaign | app/api/campaigns/route.ts:94-103 | the name is kept as typed; tone localisation and cadence are on only when sent as true, compliance check and quality are on unless sent as false |
| Campaigns.Get | app/api/campaigns/route.ts:22-48 | without a database, or when the query fails, the in-memory list is answered; otherwise the table |
| Campaigns.StoreLocally | app/api/campaigns/route.ts:137-151 | the new campaign is appended to the in-memory list with id = list length + 1 and answered with status 200; the table is untouched |
| Campaigns.Post | app/api/campaigns/route.ts:58-232 | an unreadable body gives 500 and invalid fields 422, with no change; the in-memory path refuses (409) exactly a name equal to a listed one after lower-casing and trimming; the database path refuses exactly a stored name equal to the trimmed one, unless that query throws; every success stores exactly one campaign |
| Campaigns.CreateTwiceConflicts | app/api/campaigns/route.ts:106-115 | in memory, a second create under the same name up to letter case and surrounding white space is refused with 409 |
| Campaigns.DatabaseCheckIsCaseSensitive | app/api/campaigns/route.ts:107-123 | "Sales" against "sales" is a duplicate in memory but not in the database check |
| Campaigns.Delete | app/api/campaigns/route.ts:234-274 | missing, non-array or empty ids give 400 with no change; a success keeps exactly the campaigns whose id is not listed, in the store in use; a failed database delete gives 500 with no change |
| Campaigns.IdReusedAfterDelete | app/api/campaigns/route.ts:139-141 | after deleting campaign 1 of [1, 2], the next created campaign also gets id 2 |
| Campaigns.DeleteFirstOfTwo | app/api/campaigns/route.ts:248-250 | deleting id 1 from the campaigns with ids 1 and 2 leaves the second |
| CampaignsSection.ValidateForm | components/CampaignsSection.tsx:206-224 | a field is flagged, with its message, exactly when the name or script is blank or the industry or goal is not picked |
| CampaignsSection.CampaignData | components/CampaignsSection.tsx:254-263 | the body posted carries the trimmed name and script and the picked industry and goal |
| CampaignsSection.FormAgreesWithRoute | components/CampaignsSection.tsx:206-224 | the browser flags exactly the fields the route would reject in the body the form sends, so a form that passes is never refused with 422 |
| CampaignsSection.FieldAgrees | components/CampaignsSection.tsx:209-220 | field by field, the form's check and the route's check of the posted body agree |
| CampaignsSection.IndustryChange | components/CampaignsSection.tsx:226-232 | the industry is set and its error cleared; an industry with a template replaces the script with it, any other value leaves the script alone; name and goal are kept |
| CampaignsSection.PickingIndustryFillsScript | components/CampaignsSection.tsx:226-232 | every listed industry has a template, and picking it leaves neither the industry nor the script to complain about |
| CampaignsSection.TemplatesStartWithGreeting | components/CampaignsSection.tsx:56-81 | every template opens with a greeting, so it is not blank |
| CampaignsSection.NotBlankFromFirst | components/CampaignsSection.tsx:218 | a text whose first character is not white space does not trim to nothing |
| CampaignsSection.Optimistic | components/CampaignsSection.tsx:265-272 | the provisional campaign, with the temporary id and the trimmed data, goes in front of the unchanged list |
| CampaignsSection.Settle | components/CampaignsSection.tsx:284-340 | a failure or an exception drops the provisional entry and keeps the rest; a success puts the stored campaign first and drops the provisional entry; a success without a campaign leaves the list as it is |
| CampaignsSection.CreateSettles | components/CampaignsSection.tsx:246-349 | a failed create restores the list it started from; a created campaign ends up in front of that list; a success without a campaign leaves the provisional entry in front |
| CampaignsSection.CreateCampaign | components/CampaignsSection.tsx:246-349 | an invalid form leaves the list as it is; a rejected or failed create leaves only campaigns of the old list, without the temporary one; a created campaign is first |
| CampaignsSection.SelectAll | components/CampaignsSection.tsx:150-156 | select-all selects exactly the ids of the listed campaigns that have one; clearing selects nothing |
| CampaignsSection.DeleteSelected | components/CampaignsSection.tsx:170-204 | an empty selection sends nothing; a reported success clears the selection and none of the selected ids remains in the store in use; a failure keeps the selection and the store |
| CampaignsSection.DeleteAllSelected | components/CampaignsSection.tsx:150-190 | in memory, selecting all and deleting leaves only campaigns without an id, and the selection empty |
| CampaignsSection.WordRun | components/CampaignsSection.tsx:945 | the longest prefix of word characters `[A-Za-z0-9_]` |
| CampaignsSection.MatchAt | components/CampaignsSection.tsx:945 | a match at the front is "{{", a non-empty word and "}}" |
| CampaignsSection.SubstituteIdentity | components/CampaignsSection.tsx:945-954 | writing each placeholder back as it stands gives the script back, so the preview only changes placeholders |
| CampaignsSection.ItselfStep | components/CampaignsSection.tsx:945 | one placeholder written back as itself, followed by an unchanged rest, leaves the script unchanged |
| CampaignsSection.Substitute | components/CampaignsSection.tsx:945 | a script without "{{" comes out of the replacement as it is |
| CampaignsSection.Preview | components/CampaignsSection.tsx:945-954 | the corrected preview shows the prompt "Enter your opening script to see a preview..." for an empty script, and a non-empty script without "{{" as it is |
| CampaignsSection.PreviewAsWritten | components/CampaignsSection.tsx:945-954 | the preview as written shows the same prompt for an empty script, and a non-empty script without "{{" as it is |
| CampaignsSection.PreviewSource | components/CampaignsSection.tsx:351 | the previewed text is the script when it is non-empty, else the prompt, which holds no placeholder |
| CampaignsSection.LonePlaceholder | components/CampaignsSection.tsx:945 | a lone placeholder becomes the callback's text for its name |
| CampaignsSection.WordRunOf | components/CampaignsSection.tsx:945 | a word followed by a non-word character is matched whole |
| CampaignsSection.Replacement | components/CampaignsSection.tsx:946-953 | a sample name gives its sample value; any other name gives the name in brackets |
| CampaignsSection.InheritedPlaceholderAsWritten | components/CampaignsSection.tsx:953 | as written, a placeholder named like an inherited object property, such as "{{constructor}}", is shown as that property's text and not as the name in brackets |
| CampaignsSection.NotASample | components/CampaignsSection.tsx:946-952 | no inherited property name is one of the five sample names |
| CampaignsSection.PreviewPlaceholder | components/CampaignsSection.tsx:945-954 | with own entries only, a placeholder shows its sample, or otherwise its name in brackets, inherited names included |
| CampaignsSection.StartCall | components/CampaignsSection.tsx:423-519 | without leads, without an assistant, or with the index past the leads, nothing is sent and nothing changes; otherwise any dial names the lead at the index and the selected assistant |
| CampaignsSection.NextLead | components/CampaignsSection.tsx:528-542 | the index moves on by one only while it is before the last lead, so it stays within the leads |
| CampaignsSection.AdvanceStops | components/CampaignsSection.tsx:528-542 | from the first lead, n presses of "next" end on lead min(n, count - 1) |
| CampaignsSection.AdvanceFrom | components/CampaignsSection.tsx:528-542 | from any lead, n presses of "next" end on lead min(index + n, count - 1) |
| CampaignsSection.StartNeverPastLeads | components/CampaignsSection.tsx:528-542 | while the leads stay the same, a start after any number of "next" presses never answers "all leads called" |
| Assistants.ToClient | app/api/assistants/route.ts:19-30 | id and timestamps are kept; the name is the provider's when truthy, else "Unnamed Assistant"; the description is the provider's when truthy, else the name, else "AI calling assistant"; the status is "active" exactly for an active assistant and "idle" otherwise; the script is the instructions, else the model's system message, else "" |
| Assistants.Items | app/api/assistants/route.ts:58-68 | an array is used as it is; an object's `data` list wins, then its `assistants` list; an object with neither becomes a one-element list exactly when it has an id, and an empty one otherwise |
| Assistants.WrappedListSame | app/api/assistants/route.ts:58-66 | a list under `data`, or under `assistants` without `data`, maps to the same assistants as the bare array |
| Assistants.Get | app/api/assistants/route.ts:33-83 | no key is a 500 "Service not configured"; a provider error with a JSON body passes its status and message on; a request that throws, or an error body that is not JSON, is a 500 "Failed to fetch assistants"; otherwise 200 with every item mapped, in order |
| Assistants.Payload | app/api/assistants/route.ts:105-113 | the first message goes out as given and the script goes out as `instructions`, each only when present |
| Assistants.Patch | app/api/assistants/route.ts:86-153 | no key is a 500 "Service not configured" and an unreadable body a 500 "Failed to update assistant"; no id a 400; no field to change a 400 "No fields to update"; a provider error with a JSON body passes its status and message on, and a request that throws or an error body that is not JSON is a 500 "Failed to update assistant"; an update answers 200 with the provider's record mapped, and only then |
| Assistants.PatchRoundTrip | app/api/assistants/route.ts:105-145 | when the provider applies the update, the dashboard reads back the non-empty script and first message it sent and keeps whatever it did not send |
| AssistantTab.FirstTruthy | components/AssistantTab.tsx:120-125 | an `||` chain yields nothing or a non-empty text |
| AssistantTab.ModelInstructions | components/AssistantTab.tsx:114-125 | the instructions found in the model are nothing or non-empty |
| AssistantTab.ModelInstructionsFirstTruthy | components/AssistantTab.tsx:114-125 | the model chain is the first non-empty of the system message, a leading system message's content, prompt, instructions and system prompt |
| AssistantTab.ResolveIsFirstPresent | components/AssistantTab.tsx:131-138 | the resolved instructions are the first top-level field that is present, an empty one included; only when none is present does the first non-empty model field count |
| AssistantTab.ResolveInstructions | components/AssistantTab.tsx:131-138 | a present `instructions` field wins; nothing is resolved only when all six fields are missing |
| AssistantTab.OrNumber | components/AssistantTab.tsx:161-165 | a number falls back when it is 0 or missing and is kept otherwise |
| AssistantTab.Merge | components/AssistantTab.tsx:147-166 | the language is kept; the instructions are the resolved ones or ""; a present first message wins, "" included; the first-message mode is never empty and defaults to "assistant-speaks-first"; each of the four numbers is the provider's when present and non-zero, else the current one; name and background sound are the provider's when truthy, voice and transcription when present, else the current ones; a present model replaces the current settings and a missing one keeps them |
| AssistantTab.EmptyAssistantKeepsConfig | components/AssistantTab.tsx:147-166 | an assistant record with no fields keeps every current setting except the instructions, which become "", and an empty first-message mode, which becomes "assistant-speaks-first" |
| AssistantTab.MergeIdempotent | components/AssistantTab.tsx:147-166 | loading the same assistant twice gives what loading it once gave |
| AssistantTab.CompleteAssistantReplaces | components/AssistantTab.tsx:147-166 | an assistant that sets every field leaves nothing of the current configuration but its language |
| AssistantTab.ZeroKeepsCurrent | components/AssistantTab.tsx:161-164 | a 0 from the provider for the call length or the silence timeout does not reach the configuration |
| AssistantTab.ChangeLanguage | components/AssistantTab.tsx:219-268 | "hi" selects the Hindi voice, Hindi transcription and Hindi prompt; any other language the "adam" voice, "multi" transcription and English prompt; nothing else changes |
| AssistantTab.LastLanguageWins | components/AssistantTab.tsx:219-268 | only the last language choice matters |
| History.JsRem | components/HistoryTab.tsx:75 | JavaScript's `%` agrees with the mathematical remainder on non-negative numbers and keeps the dividend's sign on negative ones |
| History.FormatDuration | components/HistoryTab.tsx:72-77 | a missing or zero duration shows "-" |
| History.DurationReadsBack | components/CallHistorySection.tsx:36-41 | a positive duration is shown as whole minutes and remaining seconds, and the text reads back as the same number of seconds |
| History.CapitalizeAll | components/HistoryTab.tsx:83 | every word is capitalised and none is dropped |
| History.FormatEndedReason | components/HistoryTab.tsx:79-85 | a missing or empty reason shows "-" |
| History.EndedReasonReadsBack | components/HistoryTab.tsx:79-85 | formatting a reason only turns dashes into spaces and changes letter case: it keeps the length, and in lower case it is the reason with its dashes read as spaces |
| History.FormatCallType | components/HistoryTab.tsx:87-90 | a missing type shows "-"; otherwise only the first letter is upper-cased |
| History.Dashes | components/HistoryTab.tsx:81-84 | every dash becomes a space and every other character stays |
| History.JoinSplitDashes | components/HistoryTab.tsx:81-84 | splitting at dashes and joining with spaces replaces each dash with a space |
| History.LowerAppend | components/HistoryTab.tsx:83 | lower-casing a concatenation lower-cases each part |
| History.LowerCapitalize | components/HistoryTab.tsx:83 | capitalising a word changes nothing but letter case |
| History.LowerJoinCapitalized | components/HistoryTab.tsx:81-84 | capitalising the words before joining changes nothing but letter case |
| History.EndedReasonColor | components/HistoryTab.tsx:92-97 | a reason containing "customer-ended" or "completed" is default; failing that, one containing "not-answer" or "timeout" is destructive; anything else is secondary |
| History.EvaluationColor | components/HistoryTab.tsx:99-104 | "pass" in any letter case is default, "fail" is destructive, anything else is secondary |
| History.OutcomeBadge | components/CallHistorySection.tsx:43-62 | an evaluation is shown upper-cased, default exactly for "pass" and never secondary; without one the badge reads "Completed", "Failed" or "Unknown" |
| History.BadgeAgreesWithReasonColor | components/CallHistorySection.tsx:53-61 | without an evaluation the section's badge has the colour the history tab gives the reason, and reads "Completed" exactly when default and "Failed" exactly when destructive |
| History.BadgeAndEvaluationColor | components/CallHistorySection.tsx:44-52 | the two views agree on "pass" and "fail" only; any other evaluation is red in the section and neutral in the tab |
| History.ToggleRow | components/HistoryTab.tsx:29-41 | the row's membership in the expanded set flips and no other row's does; details are fetched exactly when a row opens that is neither cached nor loading |
| History.ToggleTwice | components/HistoryTab.tsx:29-41 | toggling a row twice restores the expanded set and never fetches twice |
| History.SearchHistory | components/CallHistorySection.tsx:26-34 | exactly the calls whose name, result or assistant name contains the query in any letter case, or whose phone contains it as typed, in their original order |
| History.SearchHistoryAppend | components/CallHistorySection.tsx:26-34 | the search keeps the history's order: searching a concatenation gives the results of each part, one after the other |
| History.SearchHistoryOne | components/CallHistorySection.tsx:26-34 | a one-call history gives that call exactly when it matches the query, and nothing otherwise |
| History.SearchIgnoresCase | components/CallHistorySection.tsx:28-32 | a query and its lower-case form find the same call, whenever the phone test does not tell them apart |
| History.EmptySearchKeepsAll | components/CallHistorySection.tsx:26-34 | an empty search shows the whole history, in order |
| History.ContainsEmpty | components/CallHistorySection.tsx:29-32 | every text contains the empty text |
| Stats.CompletedCalls | components/DashboardSection.tsx:18-20 | the count is the number of records that are completed or passed, the length of the history filtered by that test; so it is at most the length, 0 exactly when no record qualifies, and the length exactly when all do |
| Stats.CompletedCallsAppend | components/DashboardSection.tsx:18-20 | the count over two histories is the sum of their counts |
| Stats.RoundDiv | components/DashboardSection.tsx:22 | `Math.round(a / b)` is the integer nearest to a / b, halves rounding up |
| Stats.RoundBounds | components/DashboardSection.tsx:22-25 | rounding a quotient that lies between two integers stays between them |
| Stats.SuccessRate | components/DashboardSection.tsx:18-22 | the rate is the completed share in whole percent, rounded to nearest, always between 0 and 100, 0 without calls or completions, and 100 when every call completed |
| Stats.TotalDurationAppend | components/DashboardSection.tsx:24 | the total over two lists is the sum of their totals |
| Stats.TotalDuration | components/DashboardSection.tsx:24 | the total of non-negative durations is non-negative, and a single call's total is its duration |
| Stats.TotalDurationBounds | components/DashboardSection.tsx:24 | with every duration between lo and hi, the total lies between n·lo and n·hi |
| Stats.AverageDuration | components/DashboardSection.tsx:25 | the average is the total over the number of calls, rounded to nearest, and 0 without calls |
| Stats.AverageWithinRange | components/DashboardSection.tsx:24-25 | the average of durations that all lie between lo and hi lies between them too |
| Stats.TotalDurationText | components/DashboardSection.tsx:96-98 | the total is shown as minutes and seconds, the same text as the history's duration format, and "0m 0s" for no time at all |
| Account.CutFrom | components/AccountMenu.tsx:28 | the scan stops at the first place where "@" and at least one more character run to the end of the text without a line break |
| Account.StripDomain | components/AccountMenu.tsx:28 | `replace(/@.+$/, "")` keeps a prefix of the text; it keeps all of it exactly when the pattern matches nowhere, and otherwise stops where it first matches |
| Account.Initials | components/AccountMenu.tsx:26-32 | one or two characters: "?" without words, otherwise the upper-cased first letter of the first word of the name (else of the e-mail address without its domain), plus that of the second word exactly when there is one |
| Account.InitialsOf | components/AccountMenu.tsx:29-31 | the initials of a word list: "?" for none, the first word's letter upper-cased, and the second's exactly when there is a second word |
| Account.TakeWordAll | components/AccountMenu.tsx:28 | a run without white space is read as one word |
| Account.OneWord | components/AccountMenu.tsx:28 | a non-empty run without white space splits into itself alone |
| Account.EmailInitial | components/AccountMenu.tsx:26-32 | without a name the initial is the upper-cased first letter of the e-mail address's local part |
| Account.Render | components/AccountMenu.tsx:34-44 | the sign-in link to "/login" shows exactly when there is no e-mail address; otherwise the menu with at least one initial |
| Leads.TrimAll | components/LeadsSection.tsx:53 | every piece is trimmed and none is dropped |
| Leads.Distinct | components/LeadsSection.tsx:48-55 | `Array.from(new Set(…))` holds exactly the same elements, each once, and is no longer than the input |
| Leads.DistinctOrder | components/LeadsSection.tsx:48-55 | the set keeps insertion order: of two elements of the result, the earlier one first occurs earlier in the input |
| Leads.DistinctSnocOld | components/LeadsSection.tsx:48-55 | adding an element the set already holds changes nothing |
| Leads.FirstAt | components/LeadsSection.tsx:48-55 | the position where an element first occurs holds it, and no earlier position does |
| Leads.DistinctOfDistinct | components/LeadsSection.tsx:48-55 | a list without repeats passes through a set unchanged |
| Leads.AllTags | components/LeadsSection.tsx:48-55 | the tag list holds exactly the trimmed comma-separated pieces of every non-empty position, each once, in the order the pieces first occur across the leads |
| Leads.Pieces | components/LeadsSection.tsx:50-53 | a text is a piece exactly when it is a trimmed comma-separated piece of some lead's non-empty position |
| Leads.PiecesAppend | components/LeadsSection.tsx:50-53 | the pieces of two lead lists are the pieces of the first followed by those of the second |
| Leads.PiecesSnoc | components/LeadsSection.tsx:50-53 | a lead added last contributes its own pieces after all earlier ones |
| Leads.NewLeadTags | components/LeadsSection.tsx:99 | every tag of a new lead is non-empty, has no comma, and is one of the trimmed comma-separated pieces typed; and every non-blank piece typed is among the tags |
| Leads.NewLeadTagsCons | components/LeadsSection.tsx:99 | the tags keep the typed order: a first piece contributes its trimmed text, unless blank, ahead of the tags of the rest |
| Leads.NewLeadTagsOfJoin | components/LeadsSection.tsx:99 | tags that are non-empty, trimmed and comma-free, joined with ", ", are read back exactly |
| Leads.TrimInside | components/LeadsSection.tsx:53 | trimming adds no character |
| Leads.TagsRoundTrip | components/LeadsSection.tsx:53 | plain tags joined with ", " and split again on ',' with trimming come back unchanged |
| Leads.TagsRoundTripStep | components/LeadsSection.tsx:53 | the same round trip for two or more tags |
| Leads.RebuildTags | components/LeadsSection.tsx:53 | trimming the pieces after a ", " rebuilds the tags |
| Leads.SplitAfterComma | components/LeadsSection.tsx:53 | splitting "a, rest" on ',' gives "a", then the pieces of rest with a space in front of the first |
| Leads.FilterLeads | components/LeadsSection.tsx:58-69 | exactly the leads whose name or e-mail contains the search in any letter case, or whose phone contains it as typed, and whose position contains the tag unless the tag is "all", in their original order |
| Leads.FilterLeadsAppend | components/LeadsSection.tsx:58-69 | filtering keeps the list's order: filtering a concatenation gives the kept leads of each part, one after the other |
| Leads.FilterLeadsOne | components/LeadsSection.tsx:58-69 | a one-lead list keeps that lead exactly when it is shown |
| Leads.ShownIgnoresCase | components/LeadsSection.tsx:60-66 | a search and its lower-case form show the same lead, whenever the phone test does not tell them apart |
| Leads.NoFilterShowsAll | components/LeadsSection.tsx:58-69 | with no search text and the tag "all" every lead is shown, in order |
| Leads.Phones | components/LeadsSection.tsx:75 | the phone numbers of the leads, in order |
| Leads.PhoneIndex | components/LeadsSection.tsx:75 | the first position holding the phone number, or the length exactly when none does |
| Leads.LastWith | components/LeadsSection.tsx:75 | a last lead with the phone number exists exactly when some lead has that number |
| Leads.Dedupe | components/LeadsSection.tsx:72-78 | one lead per phone number, in the order the numbers first appear, each being the last lead with that number |
| Leads.InsertStep | components/LeadsSection.tsx:75 | one `map.set` keeps the numbers in first-appearance order and each entry the last lead with its number |
| Leads.InsertExisting | components/LeadsSection.tsx:75 | setting a known number replaces its entry in place |
| Leads.InsertNew | components/LeadsSection.tsx:75 | setting a new number appends its entry |
| Leads.Insert | components/LeadsSection.tsx:75 | `map.set` leaves the lead in the map; a new number appends it; a known number keeps the length and the set of numbers; entries with other numbers stay where they are |
| Leads.DistinctSnocNew | components/LeadsSection.tsx:75 | a new element goes last in the distinct list |
| Leads.LastWithSnoc | components/LeadsSection.tsx:75 | the last lead with a number is the newest one when it has that number |
| Leads.Prune | components/LeadsSection.tsx:81-96 | the kept selection is exactly the selected ids still displayed, and is the same selection when all of them still are |
| Leads.SelectAll | components/LeadsSection.tsx:110-116 | ticking selects exactly the displayed ids; unticking clears the selection |
| Leads.SelectLead | components/LeadsSection.tsx:118-128 | the lead's id is selected exactly when ticked, and no other id changes; the campaigns section's `handleSelectCampaign` (components/CampaignsSection.tsx:158-168) is the same toggle |
| Leads.IdsCount | components/LeadsSection.tsx:170 | a list has no more distinct ids than leads, and as many exactly when its ids are unique |
| Leads.IdsSnoc | components/LeadsSection.tsx:170 | the ids of a list are those of all but the last lead plus the last lead's |
| Leads.UniqueSnoc | components/LeadsSection.tsx:170 | a list has unique ids exactly when all but its last lead do and the last id is new |
| Leads.SelectAllTicksBox | components/LeadsSection.tsx:110-116 | after select-all the box shows ticked exactly when leads are displayed and their ids are distinct; two displayed leads sharing an id keep it unticked |
| Dialing.PlaceCall | app/dashboard/page.tsx:128-203 | without an e-mail address nothing is sent; the debit goes first; a failed debit stops there with nothing changed but the ledger, reporting "no credits" exactly for INSUFFICIENT_CREDITS; after a granted debit the start and the dial are both sent, the lead is started in the queue, and the call is placed exactly when the provider dials |
| Dialing.DialOnlyAfterDebit | app/dashboard/page.tsx:143-181 | a dial request is only ever the third request, after a debit the ledger granted and the start request |
| Dialing.NoCreditNoDial | app/dashboard/page.tsx:147-156 | on the in-memory ledger a user without a credit left is never dialled, and nothing changes |
| Dialing.DialCostsOneCredit | app/dashboard/page.tsx:143-181 | on the in-memory ledger every dial costs exactly one credit, which is kept even when the provider refuses the call |
| Dialing.DialMarksCalling | app/dashboard/page.tsx:169-172 | a granted debit marks a queued lead "calling" before the dial is sent |
| Dialing.DialNamesLead | app/dashboard/page.tsx:174-181 | the dial request carries the lead's phone, name and id and the chosen assistant |
| Dashboard.LeadCandidate | app/dashboard/page.tsx:98-107 | the candidate sent keeps the form's name, e-mail and phone, is "pending", and carries no call data |
| Dashboard.AddLead | app/dashboard/page.tsx:93-126 | adding a lead appends exactly one "pending" candidate with the form's name and phone and the next id, and keeps everything else |
| Dashboard.AddedTagsReachTagFilter | app/dashboard/page.tsx:104 | tags joined with ", " into `position` come back, in order, among the pieces the leads section builds its tag filter from |
| Dashboard.JoinStartsWithFirst | app/dashboard/page.tsx:104 | a joined text starts with its first part |
| Dashboard.StartCall | app/dashboard/page.tsx:128-203 | the page's dial request names the lead and no assistant; without an e-mail address nothing is sent |
| Dashboard.SyncFromProvider | app/dashboard/page.tsx:205-225 | the import runs first and the sync then runs on the table the import left; without a database both answer 500 and nothing changes |
| Dashboard.ImportLine | app/dashboard/page.tsx:231-239 | a successful import reports its matched and updated counts; a failure gives a line exactly when it carries an error text |
| Dashboard.SyncLine | app/dashboard/page.tsx:241-245 | a successful sync reports its updated count; a failure gives a line exactly when it carries an error text |
| Dashboard.SyncToast | app/dashboard/page.tsx:247-255 | the toast shows the import line and then the sync line, each only when present, joined by a newline, and a default text when neither is |
| Dashboard.SyncToastLines | app/dashboard/page.tsx:230-255 | splitting the toast text at newlines gives back exactly its lines, import first, as long as no error text spans lines |
| Dashboard.NumberOneLine | app/dashboard/page.tsx:232 | a number's text has no line break |
| Dashboard.ImportLineOneLine | app/dashboard/page.tsx:231-239 | the import line has no line break when the error has none |
| Dashboard.ErrorLineOneLine | app/dashboard/page.tsx:233-238 | an import error line has no line break when the error and the status have none |
| Dashboard.StatusOneLine | app/dashboard/page.tsx:235 | the status text has no line break |
| Dashboard.SyncLineOneLine | app/dashboard/page.tsx:241-245 | the sync line has no line break when the error has none |
| Dashboard.ExportOutcome | app/dashboard/page.tsx:281-292 | an evaluation is exported upper-cased; otherwise the outcome is "Completed", "Failed" or "Unknown" |
| Dashboard.ExportOutcomeIsBadgeText | app/dashboard/page.tsx:281-292 | the export and the call-history section label every call alike |
| Dashboard.ExportRow | app/dashboard/page.tsx:293-300 | six cells in header order: the name or "-", the phone as displayed, the outcome, the duration text, the assistant name or "Unknown", and the start time formatted or "-" |
| Dashboard.QuotesCollide | app/dashboard/page.tsx:305 | with inner quotes written as they are, the one-cell row `a","b` and the two-cell row `a`,`b` produce the same line |
| Dashboard.LineAsWritten | app/dashboard/page.tsx:305 | the page's line, each cell in quotes as it stands, agrees with the corrected line whenever no cell holds a quote |
| Dashboard.EscapeNoQuote | app/dashboard/page.tsx:305 | doubling quotes leaves a cell without quotes as it is |
| Dashboard.Escape | app/dashboard/page.tsx:305 | escaping never shortens a cell and adds no new character (the corrected export, with RFC 4180 quoting; see Findings) |
| Dashboard.Quoted | app/dashboard/page.tsx:305 | every cell of the row is quoted and none is dropped (the corrected export, with RFC 4180 quoting; see Findings) |
| Dashboard.ReadQuoted | app/dashboard/page.tsx:305 | reading a quoted field always consumes input (the corrected export, with RFC 4180 quoting; see Findings) |
| Dashboard.ReadEscaped | app/dashboard/page.tsx:305 | an escaped cell followed by its closing quote reads back as the cell (the corrected export, with RFC 4180 quoting; see Findings) |
| Dashboard.LineReadsBack | app/dashboard/page.tsx:305 | every exported line reads back as its row of cells (the corrected export, with RFC 4180 quoting; see Findings) |
| Dashboard.LineOneLine | app/dashboard/page.tsx:305 | cells without line breaks give a line without line breaks (the corrected export, with RFC 4180 quoting; see Findings) |
| Dashboard.JoinOneLine | app/dashboard/page.tsx:303-306 | joining texts without line breaks gives a text without line breaks |
| Dashboard.ExportReadsBack | app/dashboard/page.tsx:266-306 | the first line of the export is the header; when no cell spans lines, each further line reads back as the row of the call at that place (the corrected export, with RFC 4180 quoting; see Findings) |
| Dashboard.ExportCsv | app/dashboard/page.tsx:266-306 | the corrected export starts with the header line |
| Dashboard.HeaderLine | app/dashboard/page.tsx:269 | the header line is "Lead,Number,Outcome,Duration,Agent,Time" |
| Text.Lower | app/api/campaigns/route.ts:108 | lower-casing keeps the length and maps each character on its own |
| Text.TrimIdempotent | app/api/campaigns/route.ts:108 | trimming an already trimmed name changes nothing |
| Text.TrimEmptyIffBlank | app/api/campaigns/route.ts:74-83 | `!s.trim()` holds exactly when every character is white space |
| Text.Split | components/LeadsSection.tsx:53 | splitting at a character gives at least one piece, and no piece contains it |
| Text.JoinSplit | components/LeadsSection.tsx:53 | joining the pieces of a split with the separator gives the text back |
| Text.SplitJoin | components/LeadsSection.tsx:53 | pieces without the separator, joined and split again, come back as they were |
| Text.NatToString | app/api/campaigns/route.ts:253 | a count is written as a non-empty run of decimal digits |
| Text.ParseNatToString | app/api/campaigns/route.ts:253 | reading a written count back as decimal gives the count |

## Left out

- Database-backed versions of add to queue, start, end and clear queue: only their in-memory paths are modelled; the database is modelled where the core reconciles against it (sync, import, status check, webhook, campaigns, credits).
- The `calls`, `call_notes` and `follow_ups` tables, the `schedule_follow_up` function call and the call-analysis events of the webhook: their writes do not touch candidates or credits.
- The webhook's `GET` health answer and the `vapi-call` and `vapi-assistant` routes: they forward to the provider, whose answers are inputs here.
- Concurrency: two simultaneous debits of one ledger row are not modelled; every request runs alone.
- Floating point: slider settings, `call_cost` and durations are integers; `Math.round` is exact rounding of a rational, halves up.
- Campaigns.Get: the database list is returned in table order, not sorted by creation time.
- Candidates.DbUpdateStatus: always succeeds. The database update in lib/supabase.ts:158-161 throws on a query error, and the model has no failing update.
- Calls.SyncLoop: a row whose update throws is caught and skipped without counting (app/api/calls/route.ts:255-258). The model always writes and counts it, so its counts are those of a run where every update succeeds.
- Calls.ImportLoop: a call whose update throws is caught and skipped without counting a match or an update (app/api/calls/route.ts:420-423). The model always writes and counts it, so its counts are those of a run where every update succeeds.
- Calls.ImportCalls, Calls.SyncCalls, Calls.SyncCompletesDueRows: their matched and updated counts rest on the same assumption that every row update succeeds.
- Users.GetByEmail, Users.Create, Users.Register: only the in-memory user list is modelled. The `users` table path (lib/supabase.ts:372-379, 394-401) is not: its ids are assigned by the database, and its query errors throw.
- Calls.Notes: counts characters, where JavaScript's `substring(0, 500)` counts UTF-16 code units. A character outside the Basic Multilingual Plane is one character here and two units there, so for such transcripts the model keeps more text than the source and never splits a surrogate pair.
- Webhook.EndedPatch: the same unit difference as Calls.Notes for its 500-character transcript cut.
- Account.Initials: takes the first character of a word, where the source's `[0]` takes the first UTF-16 code unit; for a word starting outside the Basic Multilingual Plane the source yields a lone surrogate and the model the whole character.
- Query errors that `.single()` raises for zero or several rows, and paging of the provider's call logs beyond the first batch.
- Cryptography and URL parsing: the password hash and the redirect origin are functions passed in.
- Locale formatting of dates and times is a function passed in; case mapping covers ASCII letters only.
- `JSON.stringify` of free-form provider fields is taken as a given text.
- Toasts, dialogs, loading flags, scrolling and other React state that only affects the screen.
- The server's 422 field errors copied back into the campaign form and the 409 name error shown under the name field.
- The exact text of an inherited JavaScript function is engine-specific; the model fixes one text per inherited name.

## Findings

| source | as written | input that shows it | evidently intended | confidence | as-written member | corrected member |
|---|---|---|---|---|---|---|
| app/dashboard/page.tsx:303-306 | every cell is wrapped in double quotes without doubling the quotes inside it | the one-cell row `a","b` and the two-cell row `a`, `b` produce the same line `"a","b"` | inner quotes doubled as section 2 of RFC 4180 requires, so every line reads back as its row | medium, not executed | Dashboard.QuotesCollide | Dashboard.ExportReadsBack |
| components/CampaignsSection.tsx:945-954 | the sample lookup `samples[varName]` also finds properties every object inherits | the script `{{constructor}}` previews as the source text of a function | only the five sample names are filled in; any other placeholder shows as `[name]` | medium, not executed | CampaignsSection.InheritedPlaceholderAsWritten | CampaignsSection.PreviewPlaceholder |

=== FILE: account.dfy ===
/** The account menu: the initials shown for the signed-in user, or the sign-in link. */
module Account {
  import opened Text

  /** The characters `.` does not match in a JavaScript regular expression. */
  predicate IsLineEnd(c: char) {
    c == '\n' || c == '\r' || c == '\U{2028}' || c == '\U{2029}'
  }

  /** Where `/@.+$/` can match: an '@' followed by at least one character and no line end
      up to the end of the string. */
  predicate IsCut(s: string, i: int) {
    0 <= i && i + 1 < |s| && s[i] == '@' && forall j :: i < j < |s| ==> !IsLineEnd(s[j])
  }

  /** The first position from `i` on where the pattern matches, or `|s|`. */
  function CutFrom(s: string, i: nat): (r: nat)
    requires i <= |s|
    ensures i <= r <= |s|
    ensures r < |s| ==> IsCut(s, r)
    ensures forall j :: i <= j < r ==> !IsCut(s, j)
    decreases |s| - i
  {
    if i == |s| then |s| else if IsCut(s, i) then i else CutFrom(s, i + 1)
  }

  /** `s.replace(/@.+$/, "")`: the text before the leftmost match, or all of it. */
  function StripDomain(s: string): (r: string)
    ensures r <= s
    ensures (r == s) <==> forall j :: 0 <= j < |s| ==> !IsCut(s, j)
    ensures r != s ==> IsCut(s, |r|)
  {
    var i := CutFrom(s, 0);
    assert i < |s| ==> s[..i] != s;
    s[..i]
  }

  /** `initials`: the upper-cased first letters of the first two words of the name (else
      the e-mail address), with any "@domain" tail cut off; "?" when there is no word. */
  function Initials(name: Option<string>, email: Option<string>): (r: string)
    ensures 1 <= |r| <= 2
    ensures var words := Words(Shown(name, email));
      (|words| == 0 ==> r == "?") &&
      (|words| > 0 ==> r[0] == UpperChar(words[0][0])) &&
      (|r| == 2 <==> |words| > 1) &&
      (|words| > 1 ==> r[1] == UpperChar(words[1][0]))
  {
    InitialsOf(Words(Shown(name, email)))
  }

  /** The text the initials are taken from: the name, else the e-mail address, else "?",
      with any "@domain" tail cut off. */
  function Shown(name: Option<string>, email: Option<string>): string {
    StripDomain(OrElse(name, OrElse(email, "?")))
  }

  function InitialsOf(parts: seq<string>): (r: string)
    requires forall k :: 0 <= k < |parts| ==> |parts[k]| > 0 && IsWord(parts[k])
    ensures 1 <= |r| <= 2
    ensures |parts| == 0 ==> r == "?"
    ensures |parts| > 0 ==> r[0] == UpperChar(parts[0][0])
    ensures |r| == 2 <==> |parts| > 1
    ensures |parts| > 1 ==> r[1] == UpperChar(parts[1][0])
  {
    var first := if |parts| > 0 then [parts[0][0]] else "?";
    var second := if |parts| > 1 then [parts[1][0]] else "";
    Upper(first + second)
  }

  lemma {:induction false} TakeWordAll(w: string)
    requires forall j :: 0 <= j < |w| ==> !IsSpace(w[j])
    ensures TakeWord(w) == w
    decreases |w|
  {
    if |w| > 0 {
      TakeWordAll(w[1..]);
      assert [w[0]] + w[1..] == w;
    }
  }

  /** A non-empty run without white space is one word. */
  lemma OneWord(w: string)
    requires w != "" && forall j :: 0 <= j < |w| ==> !IsSpace(w[j])
    ensures Words(w) == [w]
  {
    TakeWordAll(w);
    assert w[|w|..] == "";
  }

  /** Without a name, the initial is the upper-cased first letter of the e-mail address's
      local part. */
  lemma EmailInitial(local: string, domain: string)
    requires local != "" && '@' !in local && forall j :: 0 <= j < |local| ==> !IsSpace(local[j])
    requires domain != "" && forall j :: 0 <= j < |domain| ==> !IsLineEnd(domain[j])
    ensures Initials(None, Some(local + "@" + domain)) == [UpperChar(local[0])]
  {
    var e := local + "@" + domain;
    assert OrElse(None, OrElse(Some(e), "?")) == e;
    StripAtSign(local, domain);
    OneWord(local);
    var r := Initials(None, Some(e));
    assert |r| == 1;
  }

  /** The "@domain" tail is cut at the first '@'. */
  lemma StripAtSign(local: string, domain: string)
    requires '@' !in local
    requires domain != "" && forall j :: 0 <= j < |domain| ==> !IsLineEnd(domain[j])
    ensures StripDomain(local + "@" + domain) == local
  {
    var e := local + "@" + domain;
    assert IsCut(e, |local|);
    forall j | 0 <= j < |local| ensures !IsCut(e, j) {
      assert e[j] == local[j];
    }
    assert e[..|local|] == local;
  }

  /** What the menu renders: the sign-in link without an e-mail address, else the menu. */
  datatype View = SignInLink(href: string) | Menu(initials: string)

  function Render(name: Option<string>, email: Option<string>): (r: View)
    ensures r.SignInLink? <==> !Truthy(email)
    ensures r.SignInLink? ==> r.href == "/login"
    ensures r.Menu? ==> |r.initials| >= 1
  {
    if !Truthy(email) then SignInLink("/login") else Menu(Initials(name, email))
  }
}

=== FILE: assistant_tab.dfy ===
/** The assistant tab: resolving an assistant's instructions from the many places the
    provider may keep them, merging a loaded assistant into the edited configuration, and
    switching the language. Sliders with fractional values are kept as integers. */
module AssistantTab {
  import opened Text

  datatype ModelSettings = ModelSettings(provider: string, model: string, temperature: int, maxTokens: int)
  datatype Voice = Voice(provider: string, voiceId: string, speed: int, pitch: int)
  datatype Transcription = Transcription(provider: string, model: string, language: string)

  /** The configuration the tab edits. */
  datatype Settings = Settings(
    name: string,
    language: string,
    model: ModelSettings,
    voice: Voice,
    transcription: Transcription,
    instructions: string,
    firstMessage: Option<string>,
    firstMessageMode: Option<string>,
    maxDurationSeconds: int,
    interruptionThreshold: int,
    backgroundSound: string,
    silenceTimeoutSeconds: int,
    responseDelaySeconds: int)

  /** One of `model.messages`; `None` is a missing or null field. */
  datatype ModelMessage = ModelMessage(role: Option<string>, content: Option<string>)

  /** The provider's `model` object: its settings and the fields that may hold a prompt. */
  datatype ProviderModel = ProviderModel(
    settings: ModelSettings,
    systemMessage: Option<string>,
    messages: Option<seq<ModelMessage>>,
    prompt: Option<string>,
    instructions: Option<string>,
    systemPrompt: Option<string>)

  /** An assistant as the provider returns it; `None` is a missing or null field. */
  datatype ProviderAssistant = ProviderAssistant(
    name: Option<string>,
    model: Option<ProviderModel>,
    voice: Option<Voice>,
    transcription: Option<Transcription>,
    instructions: Option<string>,
    systemMessage: Option<string>,
    prompt: Option<string>,
    systemPrompt: Option<string>,
    message: Option<string>,
    script: Option<string>,
    firstMessage: Option<string>,
    firstMessageMode: Option<string>,
    messageMode: Option<string>,
    maxDurationSeconds: Option<int>,
    interruptionThreshold: Option<int>,
    backgroundSound: Option<string>,
    silenceTimeoutSeconds: Option<int>,
    responseDelaySeconds: Option<int>)

  // ------------------------------------------------------------------ instructions

  /** The first entry that is present and not "" (a chain of `||`). */
  function FirstTruthy(options: seq<Option<string>>): (r: Option<string>)
    ensures r.None? || Truthy(r)
  {
    match Find(options, (o: Option<string>) => Truthy(o))
    case None => None
    case Some(o) => o
  }

  /** The first entry that is present, "" included (a chain of `!== undefined && !== null`). */
  function FirstPresent(options: seq<Option<string>>): Option<string> {
    match Find(options, (o: Option<string>) => o.Some?)
    case None => None
    case Some(o) => o
  }

  /** The content of the first model message when its role is "system". */
  function SystemMessageContent(m: ProviderModel): Option<string> {
    if m.messages.Some? && |m.messages.value| > 0 && m.messages.value[0].role == Some("system")
    then m.messages.value[0].content else None
  }

  /** `modelInstructions`, written as the `||` chain of the tab. */
  function ModelInstructions(model: Option<ProviderModel>): (r: Option<string>)
    ensures r.None? || Truthy(r)
  {
    if model.None? then None
    else
      var m := model.value;
      var chain := OrOpt(m.systemMessage, OrOpt(SystemMessageContent(m), OrOpt(m.prompt, OrOpt(m.instructions, m.systemPrompt))));
      if Truthy(chain) then chain else None
  }

  /** `vapiInstructions`, written as the nested conditional of the tab. */
  function ResolveInstructions(v: ProviderAssistant): (r: Option<string>)
    ensures v.instructions.Some? ==> r == v.instructions
    ensures r.None? ==> v.instructions.None? && v.systemMessage.None? && v.prompt.None? &&
                        v.systemPrompt.None? && v.message.None? && v.script.None?
  {
    if v.instructions.Some? then v.instructions
    else if v.systemMessage.Some? then v.systemMessage
    else if v.prompt.Some? then v.prompt
    else if v.systemPrompt.Some? then v.systemPrompt
    else if v.message.Some? then v.message
    else if v.script.Some? then v.script
    else ModelInstructions(v.model)
  }

  /** The model fields in the order the tab consults them. */
  function ModelSources(m: ProviderModel): seq<Option<string>> {
    [m.systemMessage, SystemMessageContent(m), m.prompt, m.instructions, m.systemPrompt]
  }

  /** The top-level fields in the order the tab consults them. */
  function TopSources(v: ProviderAssistant): seq<Option<string>> {
    [v.instructions, v.systemMessage, v.prompt, v.systemPrompt, v.message, v.script]
  }

  /** The model chain is the first non-empty model field. */
  lemma ModelInstructionsFirstTruthy(m: ProviderModel)
    ensures ModelInstructions(Some(m)) == FirstTruthy(ModelSources(m))
  {
    var f := (o: Option<string>) => Truthy(o);
    var none: seq<Option<string>> := [];
    var t4 := [m.systemPrompt] + none;
    var t3 := [m.instructions] + t4;
    var t2 := [m.prompt] + t3;
    var t1 := [SystemMessageContent(m)] + t2;
    assert ModelSources(m) == [m.systemMessage] + t1;
    FindCons(m.systemMessage, t1, f);
    FindCons(SystemMessageContent(m), t2, f);
    FindCons(m.prompt, t3, f);
    FindCons(m.instructions, t4, f);
    FindCons(m.systemPrompt, none, f);
  }

  /** The resolved instructions are the first top-level field that is present (an empty
      one included); only when none is does the first non-empty model field count. */
  lemma ResolveIsFirstPresent(v: ProviderAssistant)
    ensures FirstPresent(TopSources(v)).Some? ==> ResolveInstructions(v) == FirstPresent(TopSources(v))
    ensures FirstPresent(TopSources(v)).None? ==> ResolveInstructions(v) == ModelInstructions(v.model)
  {
    var f := (o: Option<string>) => o.Some?;
    var none: seq<Option<string>> := [];
    var t5 := [v.script] + none;
    var t4 := [v.message] + t5;
    var t3 := [v.systemPrompt] + t4;
    var t2 := [v.prompt] + t3;
    var t1 := [v.systemMessage] + t2;
    assert TopSources(v) == [v.instructions] + t1;
    FindCons(v.instructions, t1, f);
    FindCons(v.systemMessage, t2, f);
    FindCons(v.prompt, t3, f);
    FindCons(v.systemPrompt, t4, f);
    FindCons(v.message, t5, f);
    FindCons(v.script, none, f);
  }

  // ------------------------------------------------------------------ merge

  /** `x || fallback` on a number: 0 and a missing value fall back. */
  function OrNumber(o: Option<int>, fallback: int): (r: int)
    ensures o.Some? && o.value != 0 ==> r == o.value
    ensures (o.None? || o.value == 0) ==> r == fallback
  {
    if o.Some? && o.value != 0 then o.value else fallback
  }

  /** `loadAssistantFromVapi`: the loaded assistant over the current configuration. */
  function Merge(config: Settings, v: ProviderAssistant): (r: Settings)
    ensures r.language == config.language
    ensures r.instructions == GetOr(ResolveInstructions(v), "")
    ensures r.firstMessage == (if v.firstMessage.Some? then v.firstMessage else config.firstMessage)
    ensures Truthy(r.firstMessageMode)
    ensures Truthy(v.firstMessageMode) ==> r.firstMessageMode == v.firstMessageMode
    ensures !Truthy(v.firstMessageMode) && !Truthy(v.messageMode) && !Truthy(config.firstMessageMode) ==>
              r.firstMessageMode == Some("assistant-speaks-first")
    ensures r.maxDurationSeconds == OrNumber(v.maxDurationSeconds, config.maxDurationSeconds)
    ensures r.interruptionThreshold == OrNumber(v.interruptionThreshold, config.interruptionThreshold)
    ensures r.silenceTimeoutSeconds == OrNumber(v.silenceTimeoutSeconds, config.silenceTimeoutSeconds)
    ensures r.responseDelaySeconds == OrNumber(v.responseDelaySeconds, config.responseDelaySeconds)
    ensures r.name == OrElse(v.name, config.name)
    ensures r.backgroundSound == OrElse(v.backgroundSound, config.backgroundSound)
    ensures r.voice == GetOr(v.voice, config.voice)
    ensures r.transcription == GetOr(v.transcription, config.transcription)
    ensures v.model.Some? ==> r.model == v.model.value.settings
    ensures v.model.None? ==> r.model == config.model
  {
    Settings(
      OrElse(v.name, config.name),
      config.language,
      if v.model.Some? then v.model.value.settings else config.model,
      GetOr(v.voice, config.voice),
      GetOr(v.transcription, config.transcription),
      GetOr(ResolveInstructions(v), ""),
      if v.firstMessage.Some? then v.firstMessage else config.firstMessage,
      OrOpt(v.firstMessageMode, OrOpt(v.messageMode, OrOpt(config.firstMessageMode, Some("assistant-speaks-first")))),
      OrNumber(v.maxDurationSeconds, config.maxDurationSeconds),
      OrNumber(v.interruptionThreshold, config.interruptionThreshold),
      OrElse(v.backgroundSound, config.backgroundSound),
      OrNumber(v.silenceTimeoutSeconds, config.silenceTimeoutSeconds),
      OrNumber(v.responseDelaySeconds, config.responseDelaySeconds))
  }

  /** Loading the same assistant twice gives what loading it once gave. */
  lemma MergeIdempotent(config: Settings, v: ProviderAssistant)
    ensures Merge(Merge(config, v), v) == Merge(config, v)
  {
  }

  /** An assistant that sets every field leaves nothing of the current configuration but
      its language. */
  lemma CompleteAssistantReplaces(a: Settings, b: Settings, v: ProviderAssistant)
    requires a.language == b.language
    requires Truthy(v.name) && v.model.Some? && v.voice.Some? && v.transcription.Some?
    requires v.firstMessage.Some? && Truthy(v.firstMessageMode) && Truthy(v.backgroundSound)
    requires v.maxDurationSeconds.Some? && v.maxDurationSeconds.value != 0
    requires v.interruptionThreshold.Some? && v.interruptionThreshold.value != 0
    requires v.silenceTimeoutSeconds.Some? && v.silenceTimeoutSeconds.value != 0
    requires v.responseDelaySeconds.Some? && v.responseDelaySeconds.value != 0
    ensures Merge(a, v) == Merge(b, v)
  {
  }

  /** An assistant the provider returns with no field set. */
  const EmptyAssistant := ProviderAssistant(None, None, None, None, None, None, None, None, None, None,
                                            None, None, None, None, None, None, None, None)

  /** An assistant with no field set keeps the whole configuration, except that the
      instructions become "" and a missing first-message mode gets its default. */
  lemma EmptyAssistantKeepsConfig(config: Settings)
    ensures Merge(config, EmptyAssistant) ==
      config.(instructions := "", firstMessageMode := OrOpt(config.firstMessageMode, Some("assistant-speaks-first")))
  {
    assert ResolveInstructions(EmptyAssistant).None?;
  }

  /** A zero from the provider does not reach the configuration. */
  lemma ZeroKeepsCurrent(config: Settings, v: ProviderAssistant)
    requires v.maxDurationSeconds == Some(0) && v.silenceTimeoutSeconds == Some(0)
    ensures Merge(config, v).maxDurationSeconds == config.maxDurationSeconds
    ensures Merge(config, v).silenceTimeoutSeconds == config.silenceTimeoutSeconds
  {
  }

  // ------------------------------------------------------------------ language

  /** The default prompts of the two languages; their long texts are parameters. */
  datatype Prompts = Prompts(hindi: string, english: string)

  /** `handleLanguageChange`. */
  function ChangeLanguage(config: Settings, language: string, prompts: Prompts): (r: Settings)
    ensures r.language == language
    ensures r.voice == config.voice.(voiceId := if language == "hi" then "hindi-male-1" else "adam")
    ensures r.transcription == config.transcription.(language := if language == "hi" then "hi" else "multi")
    ensures r.instructions == (if language == "hi" then prompts.hindi else prompts.english)
    ensures r.(language := config.language, voice := config.voice, transcription := config.transcription,
               instructions := config.instructions) == config
  {
    var hindi := language == "hi";
    config.(language := language,
            voice := config.voice.(voiceId := if hindi then "hindi-male-1" else "adam"),
            transcription := config.transcription.(language := if hindi then "hi" else "multi"),
            instructions := if hindi then prompts.hindi else prompts.english)
  }

  /** Only the last language choice matters. */
  lemma LastLanguageWins(config: Settings, a: string, b: string, prompts: Prompts)
    ensures ChangeLanguage(ChangeLanguage(config, a, prompts), b, prompts) == ChangeLanguage(config, b, prompts)
  {
  }
}

=== FILE: assistants.dfy ===
/** The `/api/assistants` route: the provider's assistant records mapped to the dashboard's
    view, the list normalisation of `GET`, and the `PATCH` that changes an assistant's first
    message and script. Provider answers are inputs. */
module Assistants {
  import opened Text
  import opened Http

  /** An assistant as the provider returns it; `systemMessage` is `model.systemMessage`. */
  datatype ProviderAssistant = ProviderAssistant(
    id: Option<string>,
    name: Option<string>,
    description: Option<string>,
    status: Option<string>,
    firstMessage: Option<string>,
    instructions: Option<string>,
    systemMessage: Option<string>,
    createdAt: Option<string>,
    updatedAt: Option<string>)

  /** An assistant as the dashboard sees it. */
  datatype Assistant = Assistant(
    id: Option<string>,
    name: string,
    description: string,
    status: string,
    firstMessage: string,
    script: string,
    createdAt: Option<string>,
    updatedAt: Option<string>)

  /** `mapVapiAssistantToClient`. */
  function ToClient(v: ProviderAssistant): (r: Assistant)
    ensures r.id == v.id && r.createdAt == v.createdAt && r.updatedAt == v.updatedAt
    ensures r.name != "" && (Truthy(v.name) ==> r.name == v.name.value)
    ensures r.description != ""
    ensures Truthy(v.description) ==> r.description == v.description.value
    ensures !Truthy(v.description) && Truthy(v.name) ==> r.description == v.name.value
    ensures !Truthy(v.name) ==> r.name == "Unnamed Assistant"
    ensures !Truthy(v.description) && !Truthy(v.name) ==> r.description == "AI calling assistant"
    ensures r.status == "active" || r.status == "idle"
    ensures r.status == "active" <==> v.status == Some("active")
    ensures r.firstMessage == OrElse(v.firstMessage, "")
    ensures Truthy(v.instructions) ==> r.script == v.instructions.value
    ensures !Truthy(v.instructions) ==> r.script == OrElse(v.systemMessage, "")
  {
    Assistant(v.id, OrElse(v.name, "Unnamed Assistant"),
              OrElse(v.description, OrElse(v.name, "AI calling assistant")),
              if v.status == Some("active") then "active" else "idle",
              OrElse(v.firstMessage, ""),
              OrElse(v.instructions, OrElse(v.systemMessage, "")),
              v.createdAt, v.updatedAt)
  }

  /** What the provider's list endpoint returns: an array, or an object that may carry the
      array under `data` or `assistants`, or may itself be one assistant. */
  datatype ListPayload =
    | ListArray(items: seq<ProviderAssistant>)
    | ListObject(data: Option<seq<ProviderAssistant>>, assistants: Option<seq<ProviderAssistant>>, self: ProviderAssistant)

  /** The array the route maps: the array itself, else `data`, else `assistants`, else the
      object as a single assistant when it has an id, else nothing. */
  function Items(p: ListPayload): (r: seq<ProviderAssistant>)
    ensures p.ListArray? ==> r == p.items
    ensures p.ListObject? && p.data.Some? ==> r == p.data.value
    ensures p.ListObject? && p.data.None? && p.assistants.Some? ==> r == p.assistants.value
    ensures p.ListObject? && p.data.None? && p.assistants.None? ==> (r == [p.self] <==> Truthy(p.self.id)) && |r| <= 1
  {
    match p
    case ListArray(items) => items
    case ListObject(data, assistants, self) =>
      if data.Some? then data.value
      else if assistants.Some? then assistants.value
      else if Truthy(self.id) then [self]
      else []
  }

  /** Wrapping the list in an object changes nothing: under `data`, or under `assistants`
      when there is no `data`, the route maps the same assistants as for the bare array. */
  lemma WrappedListSame(items: seq<ProviderAssistant>, other: Option<seq<ProviderAssistant>>, self: ProviderAssistant)
    ensures Items(ListObject(Some(items), other, self)) == Items(ListArray(items))
    ensures Items(ListObject(None, Some(items), self)) == Items(ListArray(items))
  {
  }

  /** A provider answer: a non-OK status with the message of its JSON error body, a
      failure that throws (the request fails, or the error body is not JSON), or a body. */
  datatype Reply<T> = NotOk(status: int, message: Option<string>) | Threw | Ok(body: T)

  datatype AssistantsBody =
    | Listed(assistants: seq<Assistant>)
    | Updated(assistant: Assistant, message: string)
    | Error(error: string)

  /** `GET /api/assistants`. */
  function Get(keyConfigured: bool, reply: Reply<ListPayload>): (r: Response<AssistantsBody>)
    ensures !keyConfigured ==> r == Response(500, Error("Service not configured"))
    ensures keyConfigured && reply.NotOk? ==> r == Response(reply.status, Error(OrElse(reply.message, "Failed to fetch assistants")))
    ensures keyConfigured && reply.Threw? ==> r == Response(500, Error("Failed to fetch assistants"))
    ensures keyConfigured && reply.Ok? ==>
              (r.status == 200 && r.body.Listed? &&
               |r.body.assistants| == |Items(reply.body)| &&
               forall k :: 0 <= k < |Items(reply.body)| ==> r.body.assistants[k] == ToClient(Items(reply.body)[k]))
  {
    if !keyConfigured then Response(500, Error("Service not configured"))
    else match reply
      case NotOk(status, message) => Response(status, Error(OrElse(message, "Failed to fetch assistants")))
      case Threw => Response(500, Error("Failed to fetch assistants"))
      case Ok(payload) =>
        var items := Items(payload);
        Response(200, Listed(seq(|items|, k requires 0 <= k < |items| => ToClient(items[k]))))
  }

  /** The body of a `PATCH`; `None` is a missing key. */
  datatype PatchRequest = PatchRequest(id: Option<string>, firstMessage: Option<string>, script: Option<string>)

  /** The update sent to the provider: the script goes in `instructions`. */
  datatype UpdatePayload = UpdatePayload(firstMessage: Option<string>, instructions: Option<string>)

  function Payload(req: PatchRequest): (r: UpdatePayload)
    ensures r.firstMessage == req.firstMessage && r.instructions == req.script
  {
    UpdatePayload(req.firstMessage, req.script)
  }

  /** `PATCH /api/assistants`. `put` is the provider's answer to the update. */
  function Patch(keyConfigured: bool, body: Option<PatchRequest>,
                 put: (string, UpdatePayload) -> Reply<ProviderAssistant>): (r: Response<AssistantsBody>)
    ensures !keyConfigured ==> r == Response(500, Error("Service not configured"))
    ensures keyConfigured && body.None? ==> r == Response(500, Error("Failed to update assistant"))
    ensures keyConfigured && body.Some? && !Truthy(body.value.id) ==> r == Response(400, Error("Assistant ID is required"))
    ensures keyConfigured && body.Some? && Truthy(body.value.id) && body.value.firstMessage.None? && body.value.script.None? ==>
              r == Response(400, Error("No fields to update"))
    ensures keyConfigured && body.Some? && Truthy(body.value.id) && (body.value.firstMessage.Some? || body.value.script.Some?) ==>
              var reply := put(body.value.id.value, Payload(body.value));
              (reply.NotOk? ==> r == Response(reply.status, Error(OrElse(reply.message, "Failed to update assistant")))) &&
              (reply.Threw? ==> r == Response(500, Error("Failed to update assistant"))) &&
              (reply.Ok? ==> r.body.Updated?)
    ensures r.body.Updated? ==>
              r.status == 200 && body.Some? && Truthy(body.value.id) && (body.value.firstMessage.Some? || body.value.script.Some?) &&
              put(body.value.id.value, Payload(body.value)).Ok? &&
              r.body == Updated(ToClient(put(body.value.id.value, Payload(body.value)).body), ("Assistant updated " + "successfully"))
  {
    if !keyConfigured then Response(500, Error("Service not configured"))
    else if body.None? then Response(500, Error("Failed to update assistant"))
    else
      var req := body.value;
      if !Truthy(req.id) then Response(400, Error("Assistant ID is required"))
      else
        var payload := Payload(req);
        if payload.firstMessage.None? && payload.instructions.None? then Response(400, Error("No fields to update"))
        else match put(req.id.value, payload)
          case NotOk(status, message) => Response(status, Error(OrElse(message, "Failed to update assistant")))
          case Threw => Response(500, Error("Failed to update assistant"))
          case Ok(updated) => Response(200, Updated(ToClient(updated), ("Assistant updated " + "successfully")))
  }

  /** The provider's record after it applies an update. */
  function Applied(v: ProviderAssistant, p: UpdatePayload): ProviderAssistant {
    v.(firstMessage := if p.firstMessage.Some? then p.firstMessage else v.firstMessage,
       instructions := if p.instructions.Some? then p.instructions else v.instructions)
  }

  /** Editing round trip: when the provider applies the update, the dashboard reads back
      the script and first message it sent (non-empty ones; an empty script falls back to
      the model's system message) and keeps what it did not send. */
  lemma PatchRoundTrip(v: ProviderAssistant, req: PatchRequest)
    requires Truthy(req.id) && (req.firstMessage.Some? || req.script.Some?)
    ensures var put := (id: string, p: UpdatePayload) => Ok(Applied(v, p));
      var r := Patch(true, Some(req), put);
      r.status == 200 &&
      (Truthy(req.script) ==> r.body.assistant.script == req.script.value) &&
      (Truthy(req.firstMessage) ==> r.body.assistant.firstMessage == req.firstMessage.value) &&
      (req.firstMessage.None? ==> r.body.assistant.firstMessage == ToClient(v).firstMessage) &&
      (req.script.None? ==> r.body.assistant.script == ToClient(v).script)
  {
  }
}

=== FILE: calls.dfy ===
/** The `/api/calls` route: the queue view, the in-memory queue actions (add, start, end,
    clear) and the three reconciliation actions that read call records from the telephony
    provider and complete the matching candidates in the database table (check one call,
    sync calling candidates, import call logs). Provider answers and table query outcomes
    are inputs. */
module Calls {
  import opened Text
  import opened Http
  import opened Candidates
  import opened Phone
  import opened ParseInt

  // ------------------------------------------------------------------ provider records

  /** `call.phoneNumber`: absent, a plain string, or an object with a `number`. */
  datatype PhoneField = NoPhone | PhoneText(text: string) | PhoneObject(number: Option<string>)

  /** `call.metadata.candidateId`: absent, a number, or a string. */
  datatype MetaId = NoMetaId | MetaNumber(n: int) | MetaText(text: string)

  /** A call record as the provider returns it; `assistantName`/`assistantId` are
      `assistant.name`/`assistant.id` and `customerNumber` is `customer.number`. */
  datatype ProviderCall = ProviderCall(
    id: Option<string>,
    status: Option<string>,
    endedAt: Option<string>,
    startedAt: Option<string>,
    createdAt: Option<string>,
    summary: Option<string>,
    transcript: Option<string>,
    endedReason: Option<string>,
    assistantName: Option<string>,
    assistantId: Option<string>,
    phoneNumber: PhoneField,
    assistantPhoneNumber: Option<string>,
    customerNumber: Option<string>,
    callType: Option<string>,
    successEvaluation: Option<string>,
    score: Option<string>,
    duration: Option<int>,
    cost: Option<real>,
    metadataCandidateId: MetaId)

  /** The one test of "ended" used by check, sync and import. */
  predicate IsEnded(c: ProviderCall) {
    c.status == Some("ended") || Truthy(c.endedAt)
  }

  // ------------------------------------------------------------------ outcome mapping

  /** `transcript ? transcript.substring(0, 500) : undefined`. */
  function Notes(transcript: Option<string>): (r: Option<string>)
    ensures r.Some? <==> Truthy(transcript)
    ensures r.Some? ==> |r.value| <= 500 && r.value <= transcript.value
    ensures r.Some? && |transcript.value| <= 500 ==> r.value == transcript.value
  {
    if Truthy(transcript) then Some(Take(transcript.value, 500)) else None
  }

  /** `summary || "Call ended: " + (endedReason || "Unknown")`. */
  function CallResult(c: ProviderCall): (r: string)
    ensures r != ""
    ensures Truthy(c.summary) ==> r == c.summary.value
    ensures !Truthy(c.summary) ==> "Call ended: " <= r
  {
    OrElse(c.summary, "Call ended: " + OrElse(c.endedReason, "Unknown"))
  }

  /** `type || (customer.number ? "outbound" : "web")`. */
  function CallType(c: ProviderCall): (r: string)
    ensures Truthy(c.callType) ==> r == c.callType.value
    ensures !Truthy(c.callType) ==> (r == "outbound" <==> Truthy(c.customerNumber)) && (r == "outbound" || r == "web")
  {
    OrElse(c.callType, if Truthy(c.customerNumber) then "outbound" else "web")
  }

  /** `phoneNumber?.number || assistantPhoneNumber`. */
  function AssistantPhone(c: ProviderCall): Option<string> {
    OrOpt(if c.phoneNumber.PhoneObject? then c.phoneNumber.number else None, c.assistantPhoneNumber)
  }

  /** Sync's evaluation: the provider's, else "pass" for a customer hang-up, else undefined. */
  function SyncEvaluation(c: ProviderCall): (r: Option<string>)
    ensures Truthy(c.successEvaluation) ==> r == c.successEvaluation
    ensures !Truthy(c.successEvaluation) ==> (r == Some("pass") <==> c.endedReason == Some("customer-ended-call"))
    ensures !Truthy(c.successEvaluation) && c.endedReason != Some("customer-ended-call") ==> r.None?
  {
    if Truthy(c.successEvaluation) then c.successEvaluation
    else if c.endedReason == Some("customer-ended-call") then Some("pass")
    else None
  }

  /** The fields sync passes to `updateStatus(id, "completed", …)`. */
  function SyncPatch(c: ProviderCall, now: string): (r: Patch)
    ensures r.status.None? && r.vapiCallId.None? && r.callStartTime.None? && r.updatedAt.None?
    ensures r.name.None? && r.phone.None? && r.email.None? && r.position.None?
    ensures r.callResult.Some? && r.callResult.value.Some? && r.callResult.value.value != ""
    ensures r.callEndTime == Some(Some(if Truthy(c.endedAt) then c.endedAt.value else now))
  {
    NoChange.(callResult := Some(Some(CallResult(c))),
              callNotes := Some(Notes(c.transcript)),
              callEndTime := Some(Some(OrElse(c.endedAt, now))),
              assistantName := Some(c.assistantName),
              assistantId := Some(c.assistantId),
              assistantPhoneNumber := Some(AssistantPhone(c)),
              callType := Some(Some(CallType(c))),
              endedReason := Some(c.endedReason),
              successEvaluation := Some(SyncEvaluation(c)),
              score := Some(c.score),
              callDuration := Some(c.duration),
              callCost := Some(c.cost))
  }

  /** The fields import passes to `updateStatus(id, "completed", …)`: as sync, plus the
      call id, status and start time, and without the "pass" fallback. */
  function ImportPatch(c: ProviderCall, now: string): (r: Patch)
    ensures r.vapiCallId == Some(c.id) && r.status == Some("completed")
    ensures r.successEvaluation == Some(c.successEvaluation)
    ensures r.(vapiCallId := None, status := None, callStartTime := None, successEvaluation := None) ==
            SyncPatch(c, now).(successEvaluation := None)
  {
    SyncPatch(c, now).(vapiCallId := Some(c.id),
                       status := Some("completed"),
                       callStartTime := Some(OrOpt(c.startedAt, c.createdAt)),
                       successEvaluation := Some(c.successEvaluation))
  }

  /** The fields the single-call check passes to `updateStatus(id, "completed", …)`. */
  function CheckPatch(c: ProviderCall): (r: Patch)
    ensures r == NoChange.(callResult := r.callResult, callNotes := r.callNotes)
    ensures r.callResult.Some? && r.callResult.value.Some? && r.callResult.value.value != ""
    ensures Truthy(c.summary) ==> r.callResult == Some(c.summary)
  {
    NoChange.(callResult := Some(Some(OrElse(c.summary, "Call completed"))),
              callNotes := Some(Notes(c.transcript)))
  }

  /** The row a sync writes for an ended call. */
  function SyncedRow(row: Candidate, c: ProviderCall, now: string): Candidate {
    SyncedRowOf(row, SyncPatch(c, now), now)
  }

  /** The row `updateStatus(id, "completed", p)` writes on the database path. */
  function SyncedRowOf(row: Candidate, p: Patch, now: string): Candidate {
    Apply(row, Json(StatusPatch("completed", p, now).(updatedAt := Some(Some(now)))))
  }

  /** What a synced row holds: status "completed"; the end time is the time of the sync,
      not the provider's `endedAt`; the result and type are always written; notes and the
      evaluation are written only when the call has them, so a call without transcript
      keeps the notes the row had. */
  lemma SyncedRowFields(row: Candidate, c: ProviderCall, now: string)
    ensures var r := SyncedRow(row, c, now);
      r.id == row.id && r.status == "completed" && r.updatedAt == Some(now) &&
      r.callEndTime == Some(now) &&
      r.callResult == Some(CallResult(c)) &&
      r.callType == Some(CallType(c)) &&
      r.callNotes == (if Truthy(c.transcript) then Notes(c.transcript) else row.callNotes) &&
      r.successEvaluation == (if SyncEvaluation(c).Some? then SyncEvaluation(c) else row.successEvaluation) &&
      r.name == row.name && r.phone == row.phone && r.vapiCallId == row.vapiCallId
  {
  }

  // ------------------------------------------------------------------ matching

  /** `customer?.number || phoneNumber`, when it is usable text. An object in that place
      makes the normaliser throw, which skips the call like a missing phone. */
  function CustomerPhone(c: ProviderCall): (r: Option<string>)
    ensures r.Some? ==> r.value != ""
    ensures Truthy(c.customerNumber) ==> r == c.customerNumber
  {
    if Truthy(c.customerNumber) then c.customerNumber
    else if c.phoneNumber.PhoneText? && c.phoneNumber.text != "" then Some(c.phoneNumber.text)
    else None
  }

  /** The three phone tests of import: normalised forms equal, normalised stored phone
      equal to the raw one, or raw strings equal. */
  predicate PhoneMatches(stored: string, raw: string) {
    NormalizeForMatch(stored) == NormalizeForMatch(raw) || NormalizeForMatch(stored) == raw || stored == raw
  }

  /** The second and third tests add nothing: a match is equality of normalised forms. */
  lemma PhoneMatchesIffNormalEqual(stored: string, raw: string)
    ensures PhoneMatches(stored, raw) <==> NormalizeForMatch(stored) == NormalizeForMatch(raw)
  {
    NormalizeIdempotent(stored);
  }

  /** Normalising works piece by piece. */
  lemma NormalizeAppend(a: string, b: string)
    ensures NormalizeForMatch(a + b) == NormalizeForMatch(a) + NormalizeForMatch(b)
  {
    FilterAppend(a, b, (c: char) => IsDigit(c) || c == '+');
  }

  /** A space, bracket, dash or dot written into a stored phone does not block a match. */
  lemma FormattingDoesNotBlockMatch(a: string, b: string, sep: char)
    requires sep == ' ' || sep == '(' || sep == ')' || sep == '-' || sep == '.'
    ensures PhoneMatches(a + [sep] + b, a + b)
  {
    NormalizeAppend(a + [sep], b);
    NormalizeAppend(a, [sep]);
    NormalizeAppend(a, b);
    assert NormalizeForMatch([sep]) == [];
  }

  /** A country code does block one: a stored "+1" followed by the digits does not match
      the bare digits. */
  lemma CountryCodeBlocksMatch(digits: string)
    requires forall i :: 0 <= i < |digits| ==> IsDigit(digits[i])
    ensures !PhoneMatches("+1" + digits, digits)
  {
    NormalizeAppend("+1", digits);
    FilterAll(digits, (c: char) => IsDigit(c) || c == '+');
    FilterAll("+1", (c: char) => IsDigit(c) || c == '+');
    PhoneMatchesIffNormalEqual("+1" + digits, digits);
  }

  /** An id sent as text reads back as that id, 0 included, although a numeric 0 is
      ignored as falsy. */
  lemma MetaTextReadsBack(n: int)
    ensures MetaIdValue(MetaText(IntToString(n))) == Some(n)
    ensures n == 0 ==> MetaIdValue(MetaNumber(n)).None?
  {
    ParseInt.ParseIntToString(n);
  }

  /** `metadata.candidateId` as a number: a truthy value read with `parseInt`, or `None`
      for a falsy value or `NaN`. */
  function MetaIdValue(m: MetaId): (r: Option<int>)
    ensures m.NoMetaId? ==> r.None?
    ensures m.MetaNumber? ==> (r.Some? <==> m.n != 0) && (r.Some? ==> r.value == m.n)
    ensures m.MetaText? && r.Some? ==> m.text != ""
  {
    match m
    case NoMetaId => None
    case MetaNumber(n) => if n != 0 then Some(n) else None
    case MetaText(t) => if t == "" then None else ParseInt.ParseInt(t)
  }

  /** Candidate `x` carries the id the call's metadata names. */
  predicate MetaMatches(x: Candidate, c: ProviderCall) {
    Some(x.id) == MetaIdValue(c.metadataCandidateId)
  }

  /** Candidate `x` stores the call's (truthy) provider id. */
  predicate CallIdMatches(x: Candidate, c: ProviderCall) {
    Truthy(c.id) && x.vapiCallId == c.id
  }

  /** Row `i` is the first row whose phone matches. */
  predicate FirstPhoneMatch(cands: Store, i: int, phone: string) {
    0 <= i < |cands| && PhoneMatches(cands[i].phone, phone) &&
    forall j :: 0 <= j < i ==> !PhoneMatches(cands[j].phone, phone)
  }

  /** Row `i` is the first row with the metadata id. */
  predicate FirstMetaMatch(cands: Store, i: int, c: ProviderCall) {
    0 <= i < |cands| && MetaMatches(cands[i], c) && forall j :: 0 <= j < i ==> !MetaMatches(cands[j], c)
  }

  /** Row `i` is the first row with the stored call id. */
  predicate FirstCallIdMatch(cands: Store, i: int, c: ProviderCall) {
    0 <= i < |cands| && CallIdMatches(cands[i], c) && forall j :: 0 <= j < i ==> !CallIdMatches(cands[j], c)
  }

  /** The candidate an ended call is matched to: the first phone match, else the first
      candidate with the metadata id, else the first with the same stored call id. */
  function FindImportMatch(cands: Store, c: ProviderCall, phone: string): (r: Option<Candidate>)
    ensures r.Some? ==> r.value in cands
    ensures (exists i :: 0 <= i < |cands| && PhoneMatches(cands[i].phone, phone)) ==>
              exists i :: FirstPhoneMatch(cands, i, phone) && r == Some(cands[i])
    ensures (forall i :: 0 <= i < |cands| ==> !PhoneMatches(cands[i].phone, phone)) &&
            (exists i :: 0 <= i < |cands| && MetaMatches(cands[i], c)) ==>
              exists i :: FirstMetaMatch(cands, i, c) && r == Some(cands[i])
    ensures (forall i :: 0 <= i < |cands| ==> !PhoneMatches(cands[i].phone, phone) && !MetaMatches(cands[i], c)) &&
            (exists i :: 0 <= i < |cands| && CallIdMatches(cands[i], c)) ==>
              exists i :: FirstCallIdMatch(cands, i, c) && r == Some(cands[i])
    ensures (exists i :: 0 <= i < |cands| && PhoneMatches(cands[i].phone, phone)) ==>
              r.Some? && PhoneMatches(r.value.phone, phone)
    ensures r.Some? && !PhoneMatches(r.value.phone, phone) ==>
              (forall i :: 0 <= i < |cands| ==> !PhoneMatches(cands[i].phone, phone)) &&
              (Some(r.value.id) == MetaIdValue(c.metadataCandidateId) ||
               (Truthy(c.id) && r.value.vapiCallId == c.id))
    ensures r.None? ==> forall i :: 0 <= i < |cands| ==>
              !PhoneMatches(cands[i].phone, phone) && Some(cands[i].id) != MetaIdValue(c.metadataCandidateId) &&
              (Truthy(c.id) ==> cands[i].vapiCallId != c.id)
  {
    var byPhone := FindByPhone(cands, phone);
    if byPhone.Some? then byPhone
    else
      var byMeta := FindByMeta(cands, c);
      if byMeta.Some? then byMeta
      else FindByCallId(cands, c)
  }

  /** The first candidate whose phone matches. */
  function FindByPhone(cands: Store, phone: string): (r: Option<Candidate>)
    ensures r.Some? ==> exists i :: FirstPhoneMatch(cands, i, phone) && r == Some(cands[i])
    ensures r.None? ==> forall i :: 0 <= i < |cands| ==> !PhoneMatches(cands[i].phone, phone)
  {
    Find(cands, (x: Candidate) => PhoneMatches(x.phone, phone))
  }

  /** The first candidate with the metadata id, when the metadata yields a number. */
  function FindByMeta(cands: Store, c: ProviderCall): (r: Option<Candidate>)
    ensures r.Some? ==> exists i :: FirstMetaMatch(cands, i, c) && r == Some(cands[i])
    ensures r.None? ==> forall i :: 0 <= i < |cands| ==> !MetaMatches(cands[i], c)
  {
    var meta := MetaIdValue(c.metadataCandidateId);
    if meta.Some? then Find(cands, (x: Candidate) => x.id == meta.value) else None
  }

  /** The first candidate storing the call's id, when that id is truthy. */
  function FindByCallId(cands: Store, c: ProviderCall): (r: Option<Candidate>)
    ensures r.Some? ==> exists i :: FirstCallIdMatch(cands, i, c) && r == Some(cands[i])
    ensures r.None? ==> forall i :: 0 <= i < |cands| ==> !CallIdMatches(cands[i], c)
  {
    if Truthy(c.id) then Find(cands, (x: Candidate) => x.vapiCallId == c.id) else None
  }

  // ------------------------------------------------------------------ response bodies

  datatype CallsBody =
    | QueueList(queue: Store, total: nat)
    | HistoryList(calls: Store)
    | Queued(message: string, queueLength: nat)
    | Started(candidate: Candidate, message: string)
    | Message(message: string)
    | StatusChecked(message: string, callStatus: Option<string>)
    | Synced(message: string, checked: nat, updated: nat)
    | Imported(message: string, matched: nat, updated: nat, created: Option<nat>, callsFound: Option<nat>)
    | LogsUnavailable(details: string, providerStatus: int)
    | ColumnMissing(error: string, hint: string)
    | Error(error: string)

  // ------------------------------------------------------------------ GET and queue actions

  /** `GET /api/calls?type=…`: "history" lists completed records, anything else the queue. */
  function Get(store: Store, kind: Option<string>): (r: Response<CallsBody>)
    ensures r.status == 200
    ensures OrElse(kind, "queue") == "history" ==> r.body == HistoryList(GetHistory(store))
    ensures OrElse(kind, "queue") != "history" ==> r.body.QueueList? && r.body.queue == GetQueue(store) && r.body.total == |r.body.queue|
  {
    if OrElse(kind, "queue") == "history" then Response(200, HistoryList(GetHistory(store)))
    else
      var q := GetQueue(store);
      Response(200, QueueList(q, |q|))
  }

  /** A `POST` body that selects one of the queue actions (the in-memory store). */
  datatype QueueRequest =
    | Unparseable
    | AddToQueueAction(candidates: Option<seq<Candidate>>)
    | StartCall(candidateId: Option<int>)
    | EndCall(candidateId: Option<int>, callResult: Option<string>, callNotes: Option<string>)
    | ClearQueueAction
    | OtherAction(action: Option<string>)

  /** `queue.find(c => c.id === candidateId)`. */
  function FindQueued(store: Store, candidateId: Option<int>): (r: Option<Candidate>)
    ensures r.None? <==> forall j :: 0 <= j < |store| ==> !(store[j].status == "pending" && Some(store[j].id) == candidateId)
    ensures r.Some? ==> r.value.status == "pending" && Some(r.value.id) == candidateId && r.value in store
  {
    var q := GetQueue(store);
    var r := Find(q, (c: Candidate) => Some(c.id) == candidateId);
    assert r.None? ==> forall j :: 0 <= j < |store| ==> !(store[j].status == "pending" && Some(store[j].id) == candidateId) by {
      if r.None? {
        forall j | 0 <= j < |store| ensures !(store[j].status == "pending" && Some(store[j].id) == candidateId) {
          if store[j].status == "pending" {
            var k :| 0 <= k < |q| && q[k] == store[j];
          }
        }
      }
    }
    r
  }

  /** The in-memory queue actions of `POST /api/calls`. */
  function PostQueue(store: Store, req: QueueRequest, now: string): (r: (Store, Response<CallsBody>))
    ensures r.1.status != 200 ==> r.0 == store
    ensures req.StartCall? ==>
              (r.1.status == 200 <==> FindQueued(store, req.candidateId).Some?) &&
              (r.1.status != 200 ==> r.1.status == 404)
    ensures req.EndCall? ==>
              (r.1.status == 200 <==> FindQueued(store, req.candidateId).Some?) &&
              (r.1.status != 200 ==> r.1.status == 404)
    ensures req.AddToQueueAction? ==> (r.1.status == 200 <==> req.candidates.Some?)
    ensures req.ClearQueueAction? ==> r.0 == ClearQueue(store) && r.1.status == 200
    ensures req.OtherAction? ==> r.1.status == 400
  {
    match req
    case Unparseable => (store, Response(500, Error("Internal server error")))
    case AddToQueueAction(cs) =>
      if cs.None? then (store, Response(400, Error("Candidates must be an array")))
      else
        var (s, _) := AddToQueue(store, cs.value, now);
        (s, Response(200, Queued("Added " + IntToString(|cs.value|) + " candidates to call queue", |GetQueue(s)|)))
    case StartCall(id) =>
      var c := FindQueued(store, id);
      if c.None? then (store, Response(404, Error("Candidate not found in queue")))
      else
        (UpdateStatus(store, id.value, "calling", NoChange, now).0,
         Response(200, Started(c.value.(status := "calling"), "Call started")))
    case EndCall(id, result, notes) =>
      var c := FindQueued(store, id);
      if c.None? then (store, Response(404, Error("Candidate not found")))
      else
        (UpdateStatus(store, id.value, "completed", NoChange.(callResult := Some(result), callNotes := Some(notes)), now).0,
         Response(200, Message(("Call completed " + "and moved to " + "history"))))
    case ClearQueueAction => (ClearQueue(store), Response(200, Message("Call queue cleared")))
    case OtherAction(_) => (store, Response(400, Error("Invalid action")))
  }

  /** Starting a queued call marks the stored record "calling" with the start time now. */
  lemma StartCallMarksCalling(store: Store, id: int, now: string)
    requires FindQueued(store, Some(id)).Some?
    ensures var r := PostQueue(store, StartCall(Some(id)), now);
      var i := IndexOf(store, id);
      0 <= i < |store| && r.0 == store[i := r.0[i]] &&
      r.0[i].status == "calling" && r.0[i].callStartTime == Some(now)
  {
    var c := FindQueued(store, Some(id)).value;
    assert exists j :: 0 <= j < |store| && store[j].id == id by {
      var j :| 0 <= j < |store| && store[j] == c;
    }
    UpdateStatusStamps(store, id, "calling", NoChange, now);
  }

  /** `end_call` only looks in the pending queue: a record that is already "calling" gets
      404 and stays as it is. */
  lemma EndCallIgnoresCalling(c: Candidate, result: Option<string>, notes: Option<string>, now: string)
    requires c.status == "calling"
    ensures PostQueue([c], EndCall(Some(c.id), result, notes), now) ==
            ([c], Response(404, Error("Candidate not found")))
  {
  }

  /** Ending a queued call moves it to the history with the end time now; an absent
      `callResult` in the request clears the stored result. */
  lemma EndCallCompletes(store: Store, id: int, notes: Option<string>, now: string)
    requires FindQueued(store, Some(id)).Some?
    ensures var r := PostQueue(store, EndCall(Some(id), None, notes), now);
      var i := IndexOf(store, id);
      0 <= i < |store| && r.0[i].status == "completed" && r.0[i].callEndTime == Some(now) &&
      r.0[i].callResult == None && r.0[i].callNotes == notes && r.0[i] in GetHistory(r.0)
  {
    var c := FindQueued(store, Some(id)).value;
    assert exists j :: 0 <= j < |store| && store[j].id == id by {
      var j :| 0 <= j < |store| && store[j] == c;
    }
    var p := NoChange.(callResult := Some(None), callNotes := Some(notes));
    EndCallIsUpdate(store, id, notes, now);
    UpdateStatusStamps(store, id, "completed", p, now);
    var u := UpdateStatus(store, id, "completed", p, now);
    var i := IndexOf(store, id);
    assert u.0[i] == u.1.value;
    HistoryHolds(u.0, i);
  }

  /** Without a result, `end_call` on a queued record is `updateStatus` to "completed" with
      the result cleared and the request's notes. */
  lemma EndCallIsUpdate(store: Store, id: int, notes: Option<string>, now: string)
    requires FindQueued(store, Some(id)).Some?
    ensures PostQueue(store, EndCall(Some(id), None, notes), now).0 ==
            UpdateStatus(store, id, "completed", NoChange.(callResult := Some(None), callNotes := Some(notes)), now).0
  {
  }

  lemma HistoryHolds(store: Store, i: int)
    requires 0 <= i < |store| && store[i].status == "completed"
    ensures store[i] in GetHistory(store)
  {
  }

  // ------------------------------------------------------------------ check_call_status

  /** The provider's answer to `GET /call/{id}`: a non-OK status with its error message, a
      failure (network error or unreadable body), or the call record. */
  datatype CallLookup = NotOk(status: int, message: Option<string>) | LookupFailed | Found(call: ProviderCall)

  /** `check_call_status` against the database table. `dbConfigured` says whether a
      database is configured; `queryFails` whether the lookup by call id errs. */
  function CheckCallStatus(table: Store, vapiCallId: Option<string>, lookup: CallLookup,
                           dbConfigured: bool, queryFails: bool, now: string): (r: (Store, Response<CallsBody>))
    ensures r.1.status != 200 ==> r.0 == table
    ensures !Truthy(vapiCallId) ==> r.1.status == 400
    ensures Truthy(vapiCallId) && lookup.Found? && !IsEnded(lookup.call) ==>
              r == (table, Response(200, StatusChecked("Call is still in progress", lookup.call.status)))
    ensures Truthy(vapiCallId) && lookup.NotOk? ==> r.1.status == lookup.status
    ensures r.1.status == 200 && r.0 != table ==>
              lookup.Found? && IsEnded(lookup.call) && dbConfigured &&
              exists j :: 0 <= j < |table| && table[j].vapiCallId == vapiCallId &&
                          r.0 == DbUpdateStatus(table, table[j].id, "completed", CheckPatch(lookup.call), now)
    ensures Truthy(vapiCallId) && lookup.LookupFailed? ==> r == (table, Response(500, Error("Failed to check call status")))
    ensures Truthy(vapiCallId) && lookup.Found? && IsEnded(lookup.call) && !dbConfigured ==>
              r == (table, Response(500, Error("Database not configured")))
    ensures Truthy(vapiCallId) && lookup.Found? && IsEnded(lookup.call) && dbConfigured && queryFails ==>
              r == (table, Response(500, Error("Failed to query database")))
    ensures Truthy(vapiCallId) && lookup.Found? && IsEnded(lookup.call) && dbConfigured && !queryFails &&
            (forall j :: 0 <= j < |table| ==> table[j].vapiCallId != vapiCallId) ==>
              r == (table, Response(404, Error("Candidate not found")))
    ensures Truthy(vapiCallId) && lookup.Found? && IsEnded(lookup.call) && dbConfigured && !queryFails ==>
              forall i :: 0 <= i < |table| && table[i].vapiCallId == vapiCallId &&
                          (forall j :: 0 <= j < i ==> table[j].vapiCallId != vapiCallId) ==>
                r.0 == DbUpdateStatus(table, table[i].id, "completed", CheckPatch(lookup.call), now) && r.1.status == 200
  {
    if !Truthy(vapiCallId) then (table, Response(400, Error("vapiCallId is required")))
    else match lookup
      case NotOk(status, message) => (table, Response(status, Error(OrElse(message, "Failed to get call status"))))
      case LookupFailed => (table, Response(500, Error("Failed to check call status")))
      case Found(call) =>
        if !IsEnded(call) then (table, Response(200, StatusChecked("Call is still in progress", call.status)))
        else if !dbConfigured then (table, Response(500, Error("Database not configured")))
        else if queryFails then (table, Response(500, Error("Failed to query database")))
        else
          var row := Find(table, (c: Candidate) => c.vapiCallId == vapiCallId);
          if row.None? then (table, Response(404, Error("Candidate not found")))
          else
            (DbUpdateStatus(table, row.value.id, "completed", CheckPatch(call), now),
             Response(200, StatusChecked(("Call status " + "updated to " + "completed"), call.status)))
  }

  /** A status check of an ended call completes the first row carrying the call id: it
      answers 200, the row is "completed" with the end time now and shows in the history,
      and rows with other ids are untouched. */
  lemma CheckCompletesRow(table: Store, vapiCallId: Option<string>, call: ProviderCall, now: string, i: int)
    requires Truthy(vapiCallId) && IsEnded(call)
    requires 0 <= i < |table| && table[i].vapiCallId == vapiCallId
    requires forall j :: 0 <= j < i ==> table[j].vapiCallId != vapiCallId
    ensures var r := CheckCallStatus(table, vapiCallId, Found(call), true, false, now);
      r.1.status == 200 && r.0[i].status == "completed" && r.0[i].callEndTime == Some(now) &&
      r.0[i] in GetHistory(r.0) &&
      forall j :: 0 <= j < |table| && table[j].id != table[i].id ==> r.0[j] == table[j]
  {
    var r := CheckCallStatus(table, vapiCallId, Found(call), true, false, now);
    assert r.0 == DbUpdateStatus(table, table[i].id, "completed", CheckPatch(call), now);
    assert r.0[i].status == "completed";
    HistoryHolds(r.0, i);
  }

  // ------------------------------------------------------------------ sync_calls_from_vapi

  /** Why the select of calling candidates failed. */
  datatype SelectError = MissingCallIdColumn | OtherSelectError

  /** A row that sync examines: status "calling" with a call id. */
  predicate Watched(row: Candidate) {
    row.status == "calling" && Truthy(row.vapiCallId)
  }

  /** A watched row whose call the provider reports as ended. */
  predicate Due(row: Candidate, lookup: string -> CallLookup) {
    Watched(row) && lookup(row.vapiCallId.value).Found? && IsEnded(lookup(row.vapiCallId.value).call)
  }

  /** One step of sync: look the row's call up and complete the row when the call ended.
      Returns the table and 1 when it completed the row, else 0. */
  function SyncOne(table: Store, c: Candidate, lookup: string -> CallLookup, now: string): (r: (Store, nat))
    ensures |r.0| == |table| && r.1 <= 1
    ensures r.1 == 0 ==> r.0 == table
  {
    if !Truthy(c.vapiCallId) then (table, 0)
    else
      var l := lookup(c.vapiCallId.value);
      if l.Found? && IsEnded(l.call) then (DbUpdateStatus(table, c.id, "completed", SyncPatch(l.call, now), now), 1)
      else (table, 0)
  }

  /** The loop of sync over the selected rows, in order: each ended call completes its row;
      non-OK lookups and live calls are skipped. Returns the table and the count. */
  function SyncLoop(table: Store, rows: seq<Candidate>, lookup: string -> CallLookup, now: string): (r: (Store, nat))
    ensures |r.0| == |table|
    ensures r.1 <= |rows|
    decreases |rows|
  {
    if |rows| == 0 then (table, 0)
    else
      var step := SyncOne(table, rows[0], lookup, now);
      var rec := SyncLoop(step.0, rows[1..], lookup, now);
      (rec.0, rec.1 + step.1)
  }

  /** `sync_calls_from_vapi`. */
  function SyncCalls(table: Store, dbConfigured: bool, keyConfigured: bool, selectError: Option<SelectError>,
                     lookup: string -> CallLookup, now: string): (r: (Store, Response<CallsBody>))
    ensures r.1.status != 200 ==> r.0 == table
    ensures !dbConfigured || !keyConfigured ==> r.1.status == 500
    ensures dbConfigured && keyConfigured && selectError == Some(MissingCallIdColumn) ==> r.1.status == 400
    ensures |r.0| == |table|
  {
    if !dbConfigured then (table, Response(500, Error("Database not configured")))
    else if !keyConfigured then (table, Response(500, Error(("VAPI_PRIVATE_KEY " + "not configured"))))
    else if selectError == Some(MissingCallIdColumn) then
      (table, Response(400, ColumnMissing(
        ("vapi_call_id " + "column not found " + "in database. " + "Please add it to " + "the candidates " + "table first."),
        ("Run this SQL: " + "ALTER TABLE " + "candidates ADD " + "COLUMN IF NOT " + "EXISTS " + "vapi_call_id TEXT;"))))
    else if selectError.Some? then (table, Response(500, Error("Failed to fetch active calls")))
    else
      var active := GetByStatus(table, "calling");
      var withId := Filter(active, (c: Candidate) => Truthy(c.vapiCallId));
      if |withId| == 0 then
        (table, Response(200, Synced(("No active calls " + "with vapi_call_id " + "to sync"), |active|, 0)))
      else
        var (t, n) := SyncLoop(table, withId, lookup, now);
        (t, Response(200, Synced("Synced " + IntToString(|active|) + " calls, updated " + IntToString(n) + " to completed", |active|, n)))
  }

  /** The table a sync should leave: every due row completed, every other row untouched. */
  function SyncExpected(table: Store, lookup: string -> CallLookup, now: string): (r: Store)
    ensures |r| == |table|
    decreases |table|
  {
    if |table| == 0 then []
    else
      var x := table[0];
      [ExpectedRow(x, lookup, now)] + SyncExpected(table[1..], lookup, now)
  }

  /** Row by row, the expected table completes the due rows and keeps the others. */
  lemma {:induction false} SyncExpectedRows(table: Store, lookup: string -> CallLookup, now: string)
    ensures forall j :: 0 <= j < |table| && !Due(table[j], lookup) ==> SyncExpected(table, lookup, now)[j] == table[j]
    ensures forall j :: 0 <= j < |table| && Due(table[j], lookup) ==>
              SyncExpected(table, lookup, now)[j] == SyncedRow(table[j], lookup(table[j].vapiCallId.value).call, now)
    decreases |table|
  {
    if |table| > 0 {
      SyncExpectedRows(table[1..], lookup, now);
      var r := SyncExpected(table, lookup, now);
      forall j | 1 <= j < |table| ensures r[j] == SyncExpected(table[1..], lookup, now)[j - 1] && table[j] == table[1..][j - 1] {
      }
    }
  }

  /** The database update of a row whose id is not `y`'s leaves `y` in front. */
  lemma DbUpdateStatusCons(y: Candidate, rest: Store, id: int, status: string, p: Patch, now: string)
    requires y.id != id
    ensures DbUpdateStatus([y] + rest, id, status, p, now) == [y] + DbUpdateStatus(rest, id, status, p, now)
  {
    var a := DbUpdateStatus([y] + rest, id, status, p, now);
    var b := [y] + DbUpdateStatus(rest, id, status, p, now);
    assert |a| == |b|;
    forall j | 0 <= j < |a| ensures a[j] == b[j] {
      if j > 0 {
        assert ([y] + rest)[j] == rest[j - 1];
      }
    }
  }

  /** A step of sync for another row leaves `y` in front. */
  lemma SyncOneFrame(y: Candidate, table: Store, c: Candidate, lookup: string -> CallLookup, now: string)
    requires c.id != y.id
    ensures SyncOne([y] + table, c, lookup, now) == ([y] + SyncOne(table, c, lookup, now).0, SyncOne(table, c, lookup, now).1)
  {
    if Truthy(c.vapiCallId) {
      var l := lookup(c.vapiCallId.value);
      if l.Found? && IsEnded(l.call) {
        DbUpdateStatusCons(y, table, c.id, "completed", SyncPatch(l.call, now), now);
      }
    }
  }

  /** Sync's loop never touches a row whose id is not among the rows it walks. */
  lemma {:induction false} SyncLoopFrame(y: Candidate, table: Store, rows: seq<Candidate>, lookup: string -> CallLookup, now: string)
    requires forall k :: 0 <= k < |rows| ==> rows[k].id != y.id
    ensures SyncLoop([y] + table, rows, lookup, now) ==
            ([y] + SyncLoop(table, rows, lookup, now).0, SyncLoop(table, rows, lookup, now).1)
    decreases |rows|
  {
    if |rows| > 0 {
      SyncOneFrame(y, table, rows[0], lookup, now);
      SyncLoopFrame(y, SyncOne(table, rows[0], lookup, now).0, rows[1..], lookup, now);
    }
  }

  /** The database update of the first row of a table whose other ids differ. */
  lemma DbUpdateStatusHead(x: Candidate, rest: Store, p: Patch, now: string)
    requires forall k :: 0 <= k < |rest| ==> rest[k].id != x.id
    ensures DbUpdateStatus([x] + rest, x.id, "completed", p, now) == [SyncedRowOf(x, p, now)] + rest
  {
    var t1 := DbUpdateStatus([x] + rest, x.id, "completed", p, now);
    forall j | 0 <= j < |t1| ensures t1[j] == ([SyncedRowOf(x, p, now)] + rest)[j] {
      if j > 0 {
        assert ([x] + rest)[j] == rest[j - 1];
      }
    }
  }

  /** A step of sync for the first row of a table whose other ids differ writes exactly
      the row the expected table has there. */
  lemma SyncOneHead(x: Candidate, rest: Store, lookup: string -> CallLookup, now: string)
    requires Watched(x)
    requires forall k :: 0 <= k < |rest| ==> rest[k].id != x.id
    ensures SyncOne([x] + rest, x, lookup, now) ==
            ([ExpectedRow(x, lookup, now)] + rest,
             if Due(x, lookup) then 1 else 0)
  {
    if Due(x, lookup) {
      DbUpdateStatusHead(x, rest, SyncPatch(lookup(x.vapiCallId.value).call, now), now);
    }
  }

  /** The number of due rows. */
  function DueCount(table: Store, lookup: string -> CallLookup): (r: nat)
    ensures r <= |table|
    decreases |table|
  {
    if |table| == 0 then 0 else (if Due(table[0], lookup) then 1 else 0) + DueCount(table[1..], lookup)
  }

  /** The rows sync walks in a table with one row in front. */
  lemma WatchedCons(x: Candidate, rest: Store)
    ensures Filter([x] + rest, Watched) == (if Watched(x) then [x] else []) + Filter(rest, Watched)
  {
    assert ([x] + rest)[0] == x && ([x] + rest)[1..] == rest;
  }

  /** The expected table and count with one row in front. */
  lemma SyncExpectedCons(x: Candidate, rest: Store, lookup: string -> CallLookup, now: string)
    ensures SyncExpected([x] + rest, lookup, now) ==
            [ExpectedRow(x, lookup, now)] + SyncExpected(rest, lookup, now)
    ensures DueCount([x] + rest, lookup) == (if Due(x, lookup) then 1 else 0) + DueCount(rest, lookup)
  {
    assert ([x] + rest)[0] == x && ([x] + rest)[1..] == rest;
  }

  lemma SyncLoopStep(table: Store, x: Candidate, ws: seq<Candidate>, lookup: string -> CallLookup, now: string)
    ensures var step := SyncOne(table, x, lookup, now);
      var rec := SyncLoop(step.0, ws, lookup, now);
      SyncLoop(table, [x] + ws, lookup, now) == (rec.0, rec.1 + step.1)
  {
    ConsParts(x, ws);
  }

  /** Sync's loop over a watched row in front, given what the step does to it. */
  lemma SyncLoopConsWatched(x: Candidate, y: Candidate, n: nat, rest: Store, ws: seq<Candidate>,
                            lookup: string -> CallLookup, now: string)
    requires y.id == x.id
    requires forall k :: 0 <= k < |ws| ==> ws[k].id != x.id
    requires SyncOne([x] + rest, x, lookup, now) == ([y] + rest, n)
    ensures SyncLoop([x] + rest, [x] + ws, lookup, now).0 == [y] + SyncLoop(rest, ws, lookup, now).0
    ensures SyncLoop([x] + rest, [x] + ws, lookup, now).1 == n + SyncLoop(rest, ws, lookup, now).1
  {
    SyncLoopStep([x] + rest, x, ws, lookup, now);
    SyncLoopFrame(y, rest, ws, lookup, now);
  }

  /** The row the expected table holds for `x`. */
  function ExpectedRow(x: Candidate, lookup: string -> CallLookup, now: string): Candidate {
    if Due(x, lookup) then SyncedRow(x, lookup(x.vapiCallId.value).call, now) else x
  }

  /** Sync's loop with a watched row in front, in terms of the rest. */
  lemma SyncLoopConsIn(x: Candidate, rest: Store, lookup: string -> CallLookup, now: string)
    requires Watched(x)
    requires forall k :: 0 <= k < |rest| ==> rest[k].id != x.id
    ensures var lhs := SyncLoop([x] + rest, Filter([x] + rest, Watched), lookup, now);
      var tail := SyncLoop(rest, Filter(rest, Watched), lookup, now);
      lhs.0 == [ExpectedRow(x, lookup, now)] + tail.0 && lhs.1 == (if Due(x, lookup) then 1 else 0) + tail.1
  {
    var ws := Filter(rest, Watched);
    forall k | 0 <= k < |ws| ensures ws[k].id != x.id {
      var j :| 0 <= j < |rest| && rest[j] == ws[k];
    }
    WatchedCons(x, rest);
    SyncOneHead(x, rest, lookup, now);
    SyncLoopConsWatched(x, ExpectedRow(x, lookup, now), if Due(x, lookup) then 1 else 0, rest, ws, lookup, now);
  }

  /** Sync's loop with an unwatched row in front, in terms of the rest. */
  lemma SyncLoopConsOut(x: Candidate, rest: Store, lookup: string -> CallLookup, now: string)
    requires !Watched(x)
    requires forall k :: 0 <= k < |rest| ==> rest[k].id != x.id
    ensures var lhs := SyncLoop([x] + rest, Filter([x] + rest, Watched), lookup, now);
      var tail := SyncLoop(rest, Filter(rest, Watched), lookup, now);
      lhs.0 == [x] + tail.0 && lhs.1 == tail.1
  {
    var ws := Filter(rest, Watched);
    forall k | 0 <= k < |ws| ensures ws[k].id != x.id {
      var j :| 0 <= j < |rest| && rest[j] == ws[k];
    }
    WatchedCons(x, rest);
    SyncLoopFrame(x, rest, ws, lookup, now);
  }

  /** One row in front of a table, as sync's loop sees it. */
  lemma SyncLoopCons(x: Candidate, rest: Store, lookup: string -> CallLookup, now: string)
    requires forall k :: 0 <= k < |rest| ==> rest[k].id != x.id
    requires SyncLoop(rest, Filter(rest, Watched), lookup, now) == (SyncExpected(rest, lookup, now), DueCount(rest, lookup))
    ensures SyncLoop([x] + rest, Filter([x] + rest, Watched), lookup, now) ==
            (SyncExpected([x] + rest, lookup, now), DueCount([x] + rest, lookup))
  {
    SyncExpectedCons(x, rest, lookup, now);
    if Watched(x) {
      SyncLoopConsIn(x, rest, lookup, now);
    } else {
      SyncLoopConsOut(x, rest, lookup, now);
    }
  }

  /** Walking the watched rows of a table with unique ids completes exactly the due rows and
      counts them. */
  lemma {:induction false} SyncLoopExact(table: Store, lookup: string -> CallLookup, now: string)
    requires UniqueIds(table)
    ensures SyncLoop(table, Filter(table, Watched), lookup, now) ==
            (SyncExpected(table, lookup, now), DueCount(table, lookup))
    decreases |table|
  {
    if |table| > 0 {
      var x := table[0];
      var rest := table[1..];
      assert table == [x] + rest;
      assert UniqueIds(rest);
      SyncLoopExact(rest, lookup, now);
      forall k | 0 <= k < |rest| ensures rest[k].id != x.id {
        assert table[k + 1] == rest[k];
      }
      SyncLoopCons(x, rest, lookup, now);
    }
  }

  /** The rows sync walks: calling rows, then those with a call id. */
  lemma {:induction false} WatchedRows(table: Store)
    ensures Filter(GetByStatus(table, "calling"), (c: Candidate) => Truthy(c.vapiCallId)) == Filter(table, Watched)
    decreases |table|
  {
    if |table| > 0 {
      WatchedRows(table[1..]);
    }
  }

  /** On a table with unique ids, a successful sync completes exactly the calling rows whose
      calls the provider reports ended (each with the sync's time as end time), leaves every
      other row as it was, and reports how many it completed. */
  lemma SyncCompletesDueRows(table: Store, lookup: string -> CallLookup, now: string)
    requires UniqueIds(table)
    ensures var r := SyncCalls(table, true, true, None, lookup, now);
      r.0 == SyncExpected(table, lookup, now) && r.1.status == 200 && r.1.body.Synced? &&
      r.1.body.updated == DueCount(table, lookup) &&
      r.1.body.checked == |GetByStatus(table, "calling")|
  {
    WatchedRows(table);
    SyncLoopExact(table, lookup, now);
  }

  // ------------------------------------------------------------------ import_calls_from_vapi

  /** The provider's answer to `GET /logs`: a non-OK status whose JSON error body carries
      an optional message, a failure that throws (the request fails, or a body is not JSON:
      after a failed `json()` the error path reads the spent body again), a bare array of
      calls, or an object with optional `calls`/`data` arrays. */
  datatype CallLogs =
    | LogsFailed(status: int, details: Option<string>)
    | LogsThrew
    | LogsArray(calls: seq<ProviderCall>)
    | LogsObject(callsField: Option<seq<ProviderCall>>, dataField: Option<seq<ProviderCall>>)

  /** `logsData.calls || logsData.data || logsData`: an array (an empty one is truthy), or
      `None` for an object that has neither, which is not iterable. */
  function LogCalls(logs: CallLogs): (r: Option<seq<ProviderCall>>)
    requires logs.LogsArray? || logs.LogsObject?
    ensures logs.LogsArray? ==> r == Some(logs.calls)
    ensures r.None? <==> logs.LogsObject? && logs.callsField.None? && logs.dataField.None?
    ensures logs.LogsObject? && logs.callsField.Some? ==> r == logs.callsField
    ensures logs.LogsObject? && logs.callsField.None? ==> r == logs.dataField
  {
    match logs
    case LogsArray(cs) => Some(cs)
    case LogsObject(c, d) => if c.Some? then c else d
  }

  /** Every row keeps its id and place, and a row that changed is "completed". */
  ghost predicate OnlyCompletes(before: Store, after: Store) {
    |after| == |before| &&
    forall j :: 0 <= j < |before| ==> after[j].id == before[j].id && (after[j] == before[j] || after[j].status == "completed")
  }

  /** The candidate the import pairs with one provider call: none unless the call has
      ended and names a customer phone. */
  function ImportMatch(snapshot: Store, call: ProviderCall): (r: Option<Candidate>)
    ensures r.Some? ==> IsEnded(call) && CustomerPhone(call).Some? && r.value in snapshot
  {
    var phone := CustomerPhone(call);
    if IsEnded(call) && phone.Some? then FindImportMatch(snapshot, call, phone.value) else None
  }

  /** The call is matched to a candidate the snapshot shows as not completed yet, or as
      without a call id: the case the import reports as an updated record. */
  predicate FirstUpdate(snapshot: Store, call: ProviderCall) {
    var m := ImportMatch(snapshot, call);
    m.Some? && (m.value.status != "completed" || !Truthy(m.value.vapiCallId))
  }

  /** A call that has neither the status "ended" nor an end time is skipped: the import
      of the rest is the import of all. */
  lemma ImportSkipsUnended(table: Store, snapshot: Store, call: ProviderCall, rest: seq<ProviderCall>, now: string)
    requires !IsEnded(call)
    ensures ImportLoop(table, snapshot, [call] + rest, now) == ImportLoop(table, snapshot, rest, now)
  {
    ConsParts(call, rest);
  }

  /** The import loop over the provider's calls, each matched against the snapshot of the
      table taken before the loop. Returns the table, the calls matched and the records the
      snapshot says were updated (not completed yet, or without a call id). */
  function ImportLoop(table: Store, snapshot: Store, calls: seq<ProviderCall>, now: string): (r: (Store, nat, nat))
    ensures OnlyCompletes(table, r.0)
    ensures r.2 <= r.1 <= |calls|
    ensures r.1 == Count(calls, (call: ProviderCall) => ImportMatch(snapshot, call).Some?)
    ensures r.2 == Count(calls, (call: ProviderCall) => FirstUpdate(snapshot, call))
    decreases |calls|
  {
    if |calls| == 0 then (table, 0, 0)
    else
      var call := calls[0];
      var cand := ImportMatch(snapshot, call);
      if cand.None? then ImportLoop(table, snapshot, calls[1..], now)
      else
        var t1 := DbUpdateStatus(table, cand.value.id, "completed", ImportPatch(call, now), now);
        var (t, m, u) := ImportLoop(t1, snapshot, calls[1..], now);
        var firstUpdate := cand.value.status != "completed" || !Truthy(cand.value.vapiCallId);
        (t, m + 1, if firstUpdate then u + 1 else u)
  }

  /** `import_calls_from_vapi`. */
  function ImportCalls(table: Store, dbConfigured: bool, keyConfigured: bool, logs: CallLogs,
                       candidatesQueryFails: bool, now: string): (r: (Store, Response<CallsBody>))
    ensures OnlyCompletes(table, r.0)
    ensures r.1.status != 200 ==> r.0 == table
    ensures logs.LogsFailed? && dbConfigured && keyConfigured ==>
              r == (table, Response(200, LogsUnavailable(OrElse(logs.details, "Unknown error"), logs.status)))
    ensures logs.LogsThrew? && dbConfigured && keyConfigured ==> r == (table, Response(500, Error("Failed to import calls")))
    ensures r.1.body.Imported? ==> r.1.body.created == Some(0) || r.1.body.created.None?
    ensures r.1.body.Imported? ==> r.1.body.updated <= r.1.body.matched
    ensures r.1.body.Imported? && r.1.body.created.Some? ==>
              (logs.LogsArray? || logs.LogsObject?) && LogCalls(logs).Some? && |table| > 0 &&
              r.1.body.matched == Count(LogCalls(logs).value, (call: ProviderCall) => ImportMatch(table, call).Some?) &&
              r.1.body.updated == Count(LogCalls(logs).value, (call: ProviderCall) => FirstUpdate(table, call)) &&
              r.1.body.callsFound == Some(|LogCalls(logs).value|)
  {
    if !dbConfigured then (table, Response(500, Error("Database not configured")))
    else if !keyConfigured then (table, Response(500, Error(("VAPI_PRIVATE_KEY " + "not configured"))))
    else if logs.LogsFailed? then
      (table, Response(200, LogsUnavailable(OrElse(logs.details, "Unknown error"), logs.status)))
    else if logs.LogsThrew? then (table, Response(500, Error("Failed to import calls")))
    else
      var calls := LogCalls(logs);
      if calls.Some? && |calls.value| == 0 then
        (table, Response(200, Imported("No calls found in VAPI logs", 0, 0, None, None)))
      else if candidatesQueryFails then (table, Response(500, Error("Failed to fetch candidates")))
      else if |table| == 0 then
        (table, Response(200, Imported(("No candidates to " + "match with VAPI " + "calls"), 0, 0, None,
                                       if calls.Some? then Some(|calls.value|) else None)))
      else if calls.None? then (table, Response(500, Error("Failed to import calls")))
      else
        var (t, m, u) := ImportLoop(table, table, calls.value, now);
        (t, Response(200, Imported("Imported calls from VAPI: " + IntToString(m) + " calls matched, " +
                                   IntToString(u) + " records updated", m, u, Some(0), Some(|calls.value|))))
  }

  /** One ended call with a usable phone that finds a candidate completes that candidate's
      row, records the provider's call id on it, and counts one match. */
  lemma ImportOneCall(table: Store, call: ProviderCall, now: string)
    requires IsEnded(call) && CustomerPhone(call).Some?
    requires FindImportMatch(table, call, CustomerPhone(call).value).Some?
    ensures var id := FindImportMatch(table, call, CustomerPhone(call).value).value.id;
      var r := ImportLoop(table, table, [call], now);
      r.1 == 1 &&
      forall j :: 0 <= j < |table| && table[j].id == id ==>
        r.0[j].status == "completed" && r.0[j].callEndTime == Some(now) &&
        r.0[j].vapiCallId == (if call.id.Some? then call.id else table[j].vapiCallId)
  {
    var cand := ImportMatch(table, call);
    var t1 := DbUpdateStatus(table, cand.value.id, "completed", ImportPatch(call, now), now);
    ConsParts(call, []);
    assert ImportLoop(t1, table, [], now) == (t1, 0, 0);
    assert ImportLoop(table, table, [call], now).0 == t1;
    ImportedRow(table, cand.value.id, call, now);
  }

  /** The row the import writes is completed at `now` and carries the provider's call id. */
  lemma ImportedRow(table: Store, id: int, call: ProviderCall, now: string)
    ensures var t := DbUpdateStatus(table, id, "completed", ImportPatch(call, now), now);
      forall j :: 0 <= j < |table| && table[j].id == id ==>
        t[j].status == "completed" && t[j].callEndTime == Some(now) &&
        t[j].vapiCallId == (if call.id.Some? then call.id else table[j].vapiCallId)
  {
  }

  /** The updated count is taken from the snapshot, so two logs of the same call for a
      pending candidate count two updates although one record changed. */
  lemma ImportCountsPerCall(table: Store, c: Candidate, call: ProviderCall, now: string)
    requires c.status != "completed" && IsEnded(call) && CustomerPhone(call) == Some(c.phone)
    ensures var r := ImportLoop(table, [c], [call, call], now);
      r.1 == 2 && r.2 == 2
  {
    assert PhoneMatches(c.phone, c.phone);
    assert [call, call][1..] == [call];
  }
}

=== FILE: campaigns.dfy ===
/** The `/api/campaigns` route: validation of a new campaign, duplicate-name checks, creation
    in the database or in the in-memory fallback list, listing and deletion. */
module Campaigns {
  import opened Text
  import opened Http

  datatype Campaign = Campaign(
    id: int,
    name: string,
    industry: string,
    goal: string,
    openingScript: string,
    localizeTone: bool,
    complianceCheck: bool,
    cadence: bool,
    quality: bool,
    createdAt: string,
    updatedAt: string)

  /** The request body of a `POST`; absent keys are `None`. */
  datatype CampaignInput = CampaignInput(
    name: Option<string>,
    industry: Option<string>,
    goal: Option<string>,
    openingScript: Option<string>,
    localizeTone: Option<bool>,
    complianceCheck: Option<bool>,
    cadence: Option<bool>,
    quality: Option<bool>)

  /** The fallback list and the `campaigns` table. */
  datatype Campaigns = Campaigns(fallback: seq<Campaign>, table: seq<Campaign>)

  /** The fields a new campaign is validated on. */
  datatype Field = NameField | IndustryField | GoalField | ScriptField

  /** The key and message the response reports for a field. */
  function FieldKey(f: Field): string {
    match f
    case NameField => "name"
    case IndustryField => "industry"
    case GoalField => "goal"
    case ScriptField => "openingScript"
  }

  function FieldMessage(f: Field): string {
    match f
    case NameField => "Campaign name is required"
    case IndustryField => "Industry is required"
    case GoalField => "Goal is required"
    case ScriptField => "Opening script is required"
  }

  datatype CampaignsBody =
    | Listed(campaigns: seq<Campaign>)
    | Invalid(error: string, errors: seq<Field>)
    | Created(campaign: Campaign, message: string)
    | Message(message: string)
    | Error(error: string)

  /** A string that is present and not only white space. */
  predicate Filled(o: Option<string>) {
    o.Some? && Trim(o.value) != ""
  }

  /** The validation errors, in the order the fields are checked. */
  function ValidationErrors(input: CampaignInput): (r: seq<Field>)
    ensures |r| <= 4
    ensures NameField in r <==> !Filled(input.name)
    ensures IndustryField in r <==> !Truthy(input.industry)
    ensures GoalField in r <==> !Truthy(input.goal)
    ensures ScriptField in r <==> !Filled(input.openingScript)
    ensures |r| == 0 <==> Filled(input.name) && Truthy(input.industry) && Truthy(input.goal) && Filled(input.openingScript)
  {
    var a := if !Filled(input.name) then [NameField] else [];
    var b := if !Truthy(input.industry) then [IndustryField] else [];
    var c := if !Truthy(input.goal) then [GoalField] else [];
    var d := if !Filled(input.openingScript) then [ScriptField] else [];
    assert ScriptField !in a + b + c;
    a + b + c + d
  }

  /** The stored campaign for a valid input: the name is kept as typed, `localizeTone` and
      `cadence` default to off and `complianceCheck` and `quality` to on. */
  function NewCampaign(input: CampaignInput, id: int, now: string): (r: Campaign)
    requires input.name.Some? && input.industry.Some? && input.goal.Some? && input.openingScript.Some?
    ensures r.id == id && r.name == input.name.value && r.createdAt == now && r.updatedAt == now
    ensures r.localizeTone <==> input.localizeTone == Some(true)
    ensures r.cadence <==> input.cadence == Some(true)
    ensures r.complianceCheck <==> input.complianceCheck != Some(false)
    ensures r.quality <==> input.quality != Some(false)
  {
    Campaign(id, input.name.value, input.industry.value, input.goal.value, input.openingScript.value,
             input.localizeTone == Some(true), GetOr(input.complianceCheck, true),
             input.cadence == Some(true), GetOr(input.quality, true), now, now)
  }

  /** The in-memory duplicate test: names equal after lower-casing and trimming. */
  predicate SameNameLoose(a: string, b: string) {
    Trim(Lower(a)) == Trim(Lower(b))
  }

  /** The outcome of the insert into the table: the stored row (with the id the database
      gave it), an error, or an exception. */
  datatype InsertOutcome = Inserted(id: int) | InsertError | InsertThrew

  /** `GET /api/campaigns`. Without a database, or when the query fails, the fallback list. */
  function Get(s: Campaigns, dbConfigured: bool, queryFails: bool): (r: Response<CampaignsBody>)
    ensures r.status == 200
    ensures r.body == Listed(if dbConfigured && !queryFails then s.table else s.fallback)
  {
    Response(200, Listed(if dbConfigured && !queryFails then s.table else s.fallback))
  }

  /** The campaign appended to the fallback list, with id = list length + 1. */
  function StoreLocally(s: Campaigns, input: CampaignInput, now: string, message: string): (r: (Campaigns, Response<CampaignsBody>))
    requires input.name.Some? && input.industry.Some? && input.goal.Some? && input.openingScript.Some?
    ensures r.0.table == s.table && r.0.fallback == s.fallback + [NewCampaign(input, |s.fallback| + 1, now)]
    ensures r.1 == Response(200, Created(NewCampaign(input, |s.fallback| + 1, now), message))
  {
    var c := NewCampaign(input, |s.fallback| + 1, now);
    (s.(fallback := s.fallback + [c]), Response(200, Created(c, message)))
  }

  /** `POST /api/campaigns`. `dupCheckFails` says the database duplicate query threw (the
      creation then goes ahead). */
  function Post(s: Campaigns, body: Option<CampaignInput>, dbConfigured: bool, dupCheckFails: bool,
                insert: InsertOutcome, now: string): (r: (Campaigns, Response<CampaignsBody>))
    ensures r.1.status != 200 ==> r.0 == s
    ensures body.None? ==> r.1.status == 500
    ensures body.Some? && |ValidationErrors(body.value)| > 0 ==>
              r.1 == Response(422, Invalid("Validation failed", ValidationErrors(body.value)))
    ensures body.Some? && |ValidationErrors(body.value)| == 0 && !dbConfigured ==>
              (r.1.status == 409 <==> exists k :: 0 <= k < |s.fallback| && SameNameLoose(s.fallback[k].name, body.value.name.value))
    ensures body.Some? && |ValidationErrors(body.value)| == 0 && dbConfigured && !dupCheckFails ==>
              (r.1.status == 409 <==> exists k :: 0 <= k < |s.table| && s.table[k].name == Trim(body.value.name.value))
    ensures r.1.status == 200 ==> |r.0.fallback| + |r.0.table| == |s.fallback| + |s.table| + 1
  {
    if body.None? then (s, Response(500, Error("Failed to create campaign")))
    else
      var input := body.value;
      var errors := ValidationErrors(input);
      if |errors| > 0 then (s, Response(422, Invalid("Validation failed", errors)))
      else
        var name := input.name.value;
        var conflict := Response(409, Error("Campaign with name \"" + name + "\" already exists"));
        if !dbConfigured then
          if exists k :: 0 <= k < |s.fallback| && SameNameLoose(s.fallback[k].name, name) then (s, conflict)
          else StoreLocally(s, input, now, "Campaign created successfully")
        else if !dupCheckFails && exists k :: 0 <= k < |s.table| && s.table[k].name == Trim(name) then (s, conflict)
        else match insert
          case Inserted(id) =>
            var c := NewCampaign(input, id, now);
            (s.(table := s.table + [c]), Response(200, Created(c, "Campaign created successfully")))
          case _ => StoreLocally(s, input, now, ("Campaign created " + "successfully " + "(stored locally)"))
  }

  /** Creating the same name twice in memory is refused the second time, whatever the
      letter case or surrounding white space of the second attempt. */
  lemma CreateTwiceConflicts(s: Campaigns, input: CampaignInput, again: CampaignInput, now: string)
    requires |ValidationErrors(input)| == 0 && |ValidationErrors(again)| == 0
    requires SameNameLoose(input.name.value, again.name.value)
    requires Post(s, Some(input), false, false, InsertThrew, now).1.status == 200
    ensures Post(Post(s, Some(input), false, false, InsertThrew, now).0, Some(again), false, false, InsertThrew, now).1.status == 409
  {
    var name := input.name.value;
    assert !exists k :: 0 <= k < |s.fallback| && SameNameLoose(s.fallback[k].name, name);
    PostStoresLocally(s, input, now);
    var s1 := Post(s, Some(input), false, false, InsertThrew, now).0;
    assert s1.fallback[|s.fallback|].name == name;
    assert SameNameLoose(s1.fallback[|s.fallback|].name, again.name.value);
  }

  /** Without a database and without a clash, a valid campaign is appended to the fallback
      list. */
  lemma PostStoresLocally(s: Campaigns, input: CampaignInput, now: string)
    requires |ValidationErrors(input)| == 0
    requires !exists k :: 0 <= k < |s.fallback| && SameNameLoose(s.fallback[k].name, input.name.value)
    ensures Post(s, Some(input), false, false, InsertThrew, now).0.fallback ==
              s.fallback + [NewCampaign(input, |s.fallback| + 1, now)]
  {
  }

  /** The database check compares the trimmed name exactly, so a name differing only in
      letter case is not a duplicate there, while the in-memory check refuses it. */
  lemma DatabaseCheckIsCaseSensitive()
    ensures SameNameLoose("Sales", "sales")
    ensures Trim("sales") != "Sales"
  {
    assert Lower("Sales") == Lower("sales") by {
      assert LowerChar('S') == 's';
    }
    TrimUnpadded("sales");
    assert "sales"[0] != "Sales"[0];
  }

  /** `DELETE /api/campaigns`. `campaignIds` is `None` when it is missing or not an array. */
  function Delete(s: Campaigns, campaignIds: Option<seq<int>>, dbConfigured: bool, deleteFails: bool): (r: (Campaigns, Response<CampaignsBody>))
    ensures r.1.status != 200 ==> r.0 == s
    ensures campaignIds.None? || |campaignIds.value| == 0 ==> r.1.status == 400
    ensures r.1.status == 200 ==>
              var ids := campaignIds.value;
              var kept := if dbConfigured then r.0.table else r.0.fallback;
              var before := if dbConfigured then s.table else s.fallback;
              (forall k :: 0 <= k < |kept| ==> kept[k].id !in ids && kept[k] in before) &&
              (forall k :: 0 <= k < |before| && before[k].id !in ids ==> before[k] in kept)
  {
    if campaignIds.None? || |campaignIds.value| == 0 then (s, Response(400, Error("Campaign IDs are required")))
    else
      var ids := campaignIds.value;
      var message := Message(IntToString(|ids|) + (" campaign(s) " + "deleted " + "successfully"));
      if !dbConfigured then
        (s.(fallback := Filter(s.fallback, (c: Campaign) => c.id !in ids)), Response(200, message))
      else if deleteFails then (s, Response(500, Error("Failed to delete campaigns")))
      else (s.(table := Filter(s.table, (c: Campaign) => c.id !in ids)), Response(200, message))
  }

  /** Ids come from the length of the fallback list, so after a deletion a new campaign
      can take the id of one still stored. */
  lemma IdReusedAfterDelete(a: Campaign, b: Campaign, input: CampaignInput, now: string)
    requires a.id == 1 && b.id == 2
    requires |ValidationErrors(input)| == 0
    requires !SameNameLoose(b.name, input.name.value)
    ensures var s := Delete(Campaigns([a, b], []), Some([1]), false, false).0;
      var t := Post(s, Some(input), false, false, InsertThrew, now).0;
      t.fallback == [b] + [NewCampaign(input, 2, now)]
  {
    DeleteFirstOfTwo(a, b);
    PostAfterOne(b, input, now);
  }

  lemma PostAfterOne(b: Campaign, input: CampaignInput, now: string)
    requires |ValidationErrors(input)| == 0
    requires !SameNameLoose(b.name, input.name.value)
    ensures Post(Campaigns([b], []), Some(input), false, false, InsertThrew, now).0.fallback == [b] + [NewCampaign(input, 2, now)]
  {
    var s := Campaigns([b], []);
    assert !exists k :: 0 <= k < |s.fallback| && SameNameLoose(s.fallback[k].name, input.name.value);
    PostStoresLocally(s, input, now);
  }

  lemma DeleteFirstOfTwo(a: Campaign, b: Campaign)
    requires a.id == 1 && b.id == 2
    ensures Delete(Campaigns([a, b], []), Some([1]), false, false).0 == Campaigns([b], [])
  {
    var f := (c: Campaign) => c.id !in [1];
    assert [a, b][1..] == [b];
    assert Filter([b], f) == [b] by { assert [b][1..] == []; }
    assert Filter([a, b], f) == [b];
  }
}

=== FILE: campaigns_section.dfy ===
/** The campaigns section of the dashboard: the create form and its validation, the
    industry templates, the optimistic insert into the list, selection, the script preview
    and the calling dialog's walk through a campaign's leads. */
module CampaignsSection {
  import opened Text
  import opened Candidates
  import Campaigns
  import Credits
  import Dialing

  // ------------------------------------------------------------------ the form

  /** The create form's fields. Industry and goal are picked from lists and are "" until
      picked. */
  datatype Form = Form(
    name: string,
    industry: string,
    goal: string,
    openingScript: string,
    localizeTone: bool,
    complianceCheck: bool,
    cadence: bool,
    quality: bool)

  /** The error messages under the fields, by field. */
  type Errors = map<Campaigns.Field, string>

  /** `validateForm`: a message for each field that is blank or not picked; the form is
      valid when there is none. */
  function ValidateForm(form: Form): (r: Errors)
    ensures forall f :: f in r <==> Missing(form, f)
    ensures forall f :: f in r ==> r[f] == Campaigns.FieldMessage(f)
  {
    map f | f in AllFields && Missing(form, f) :: Campaigns.FieldMessage(f)
  }

  const AllFields: set<Campaigns.Field> := {Campaigns.NameField, Campaigns.IndustryField, Campaigns.GoalField, Campaigns.ScriptField}

  /** A field the form complains about: a blank name or script, an industry or goal not picked. */
  predicate Missing(form: Form, f: Campaigns.Field) {
    match f
    case NameField => Trim(form.name) == ""
    case IndustryField => form.industry == ""
    case GoalField => form.goal == ""
    case ScriptField => Trim(form.openingScript) == ""
  }

  /** The body the form posts: name and script trimmed. */
  function CampaignData(form: Form): (r: Campaigns.CampaignInput)
    ensures r.name == Some(Trim(form.name)) && r.openingScript == Some(Trim(form.openingScript))
    ensures r.industry == Some(form.industry) && r.goal == Some(form.goal)
  {
    Campaigns.CampaignInput(Some(Trim(form.name)), Some(form.industry), Some(form.goal), Some(Trim(form.openingScript)),
                            Some(form.localizeTone), Some(form.complianceCheck), Some(form.cadence), Some(form.quality))
  }

  /** The form and the route check the same fields: a field is flagged in the browser
      exactly when the route would flag it in the body the form sends, with the same
      message. */
  lemma FormAgreesWithRoute(form: Form)
    ensures forall f :: f in ValidateForm(form) <==> f in Campaigns.ValidationErrors(CampaignData(form))
    ensures |ValidateForm(form)| == 0 <==> |Campaigns.ValidationErrors(CampaignData(form))| == 0
  {
    var v := ValidateForm(form);
    var errs := Campaigns.ValidationErrors(CampaignData(form));
    forall f ensures f in v <==> f in errs {
      FieldAgrees(form, f);
    }
    if |errs| > 0 {
      assert errs[0] in v;
    }
    if |v| > 0 {
      var f :| f in v;
      assert f in errs;
    }
  }

  lemma FieldAgrees(form: Form, f: Campaigns.Field)
    ensures Missing(form, f) <==> f in Campaigns.ValidationErrors(CampaignData(form))
  {
    var data := CampaignData(form);
    match f
    case NameField =>
      TrimIdempotent(form.name);
      assert Campaigns.Filled(data.name) <==> Trim(form.name) != "";
    case ScriptField =>
      TrimIdempotent(form.openingScript);
      assert Campaigns.Filled(data.openingScript) <==> Trim(form.openingScript) != "";
    case _ =>
  }

  // ------------------------------------------------------------------ industry templates

  /** The industry choices. */
  const Industries: seq<string> := ["saas", "ecommerce", "manufacturing", "real-estate", "healthcare", "education"]

  /** The goal choices. */
  const Goals: seq<string> := ["book-meetings", "qualify-leads", "winback"]

  const SaasScript := "Hi {{name}}, " + ("I'm reaching out " + "from {{company}}. " + "We noticed you " + "might be " + "interested in our " + "SaaS solution. " + "Would you be open " + "to a quick " + "15-minute demo to " + "see how it could " + "help your " + "business?")
  const EcommerceScript := "Hello {{name}}, " + ("this is " + "{{company}}. We " + "wanted to check " + "in about your " + "recent order and " + "see if you need " + "any assistance. " + "Also, we have " + "some exclusive " + "offers that might " + "interest you!")
  const ManufacturingScript := "Hi {{name}}, " + ("I'm calling from " + "{{company}}. We " + "specialize in " + "manufacturing " + "solutions and " + "thought our " + "services might " + "align with your " + "operations. Could " + "we schedule a " + "brief call to " + "discuss?")
  const RealEstateScript := "Hi {{name}}, " + ("this is " + "{{company}}. I'm " + "following up on " + "your interest in " + "our property " + "listings. Would " + "you like to " + "schedule a " + "viewing or have " + "any questions " + "about the " + "properties?")
  const HealthcareScript := "Hi {{name}}, " + ("this is a " + "reminder for your " + "appointment with " + "Dr. " + "{{doctor_name}} " + "on {{date}} at " + "{{time}}. Reply " + "YES to confirm or " + "call us to " + "reschedule.")
  const EducationScript := "Hello {{name}}, " + ("this is " + "{{company}}. " + "We're reaching " + "out about our " + "educational " + "programs that " + "might be a great " + "fit for you. " + "Would you like to " + "learn more about " + "our courses and " + "enrollment " + "options?")

  /** The opening script each industry suggests. Every script opens by greeting the lead
      by name; the greeting is written as its own piece. */
  const Templates: map<string, string> := map[
    "saas" := SaasScript,
    "ecommerce" := EcommerceScript,
    "manufacturing" := ManufacturingScript,
    "real-estate" := RealEstateScript,
    "healthcare" := HealthcareScript,
    "education" := EducationScript]

  /** `handleIndustryChange`: the industry is set and its error cleared; a known industry
      replaces the script with its template, any other value leaves the script alone. */
  function IndustryChange(form: Form, errors: Errors, value: string): (r: (Form, Errors))
    ensures r.0.industry == value && r.1 == errors[Campaigns.IndustryField := ""]
    ensures value in Templates ==> r.0.openingScript == Templates[value]
    ensures value !in Templates ==> r.0.openingScript == form.openingScript
    ensures r.0.name == form.name && r.0.goal == form.goal
  {
    var f := form.(industry := value);
    (if value != "" && value in Templates then f.(openingScript := Templates[value]) else f,
     errors[Campaigns.IndustryField := ""])
  }

  /** Every listed industry has a template, and picking one leaves neither the industry
      nor the script to complain about. */
  lemma PickingIndustryFillsScript(form: Form, errors: Errors, k: int)
    requires 0 <= k < |Industries|
    ensures Industries[k] in Templates
    ensures var f := IndustryChange(form, errors, Industries[k]).0;
      Campaigns.IndustryField !in ValidateForm(f) && Campaigns.ScriptField !in ValidateForm(f)
  {
    var v := Industries[k];
    assert v in Templates;
    TemplatesStartWithGreeting(v);
    NotBlankFromFirst(Templates[v]);
  }

  lemma TemplatesStartWithGreeting(v: string)
    requires v in Templates
    ensures |Templates[v]| > 0 && Templates[v][0] == 'H'
  {
    var t := Templates[v];
    assert t in {SaasScript, EcommerceScript, ManufacturingScript, RealEstateScript, HealthcareScript, EducationScript};
    assert SaasScript[0] == 'H';
    assert EcommerceScript[0] == 'H';
    assert ManufacturingScript[0] == 'H';
    assert RealEstateScript[0] == 'H';
    assert HealthcareScript[0] == 'H';
    assert EducationScript[0] == 'H';
  }

  /** A text whose first character is not white space does not trim to nothing. */
  lemma NotBlankFromFirst(s: string)
    requires |s| > 0 && !IsSpace(s[0])
    ensures Trim(s) != ""
  {
    assert TrimStart(s) == s;
  }

  // ------------------------------------------------------------------ the optimistic insert

  /** The list after the optimistic insert: a provisional entry with the temporary id and
      the trimmed data goes first. */
  function Optimistic(list: seq<Campaigns.Campaign>, form: Form, tempId: int, now: string): (r: seq<Campaigns.Campaign>)
    requires |ValidateForm(form)| == 0
    ensures |r| == |list| + 1 && r[1..] == list
    ensures r[0].id == tempId && r[0].name == Trim(form.name) && r[0].openingScript == Trim(form.openingScript)
  {
    [Campaigns.Campaign(tempId, Trim(form.name), form.industry, form.goal, Trim(form.openingScript),
                        form.localizeTone, form.complianceCheck, form.cadence, form.quality, now, now)] + list
  }

  /** How the create request ended: a success carrying the stored campaign, a success
      without one, a status other than 2xx, or an exception. */
  datatype Answer = Created(campaign: Campaigns.Campaign) | Accepted | Rejected(status: int) | Threw

  /** Settling the list once the route answered: the provisional entry is dropped, and a
      created campaign goes first. A success without a campaign touches nothing, so the
      provisional entry stays. */
  function Settle(optimistic: seq<Campaigns.Campaign>, tempId: int, answer: Answer): (r: seq<Campaigns.Campaign>)
    ensures answer.Accepted? ==> r == optimistic
    ensures !answer.Accepted? ==>
              forall k :: 0 <= k < |r| && (answer.Created? ==> k > 0) ==> r[k].id != tempId && r[k] in optimistic
    ensures answer.Created? ==> |r| >= 1 && r[0] == answer.campaign
  {
    if answer.Accepted? then optimistic
    else
      var kept := Filter(optimistic, (c: Campaigns.Campaign) => c.id != tempId);
      if answer.Created? then [answer.campaign] + kept else kept
  }

  /** `handleCreateCampaign` on the list: an invalid form changes nothing; otherwise the
      optimistic insert and then its settling. */
  function CreateCampaign(list: seq<Campaigns.Campaign>, form: Form, tempId: int, now: string, answer: Answer): (r: seq<Campaigns.Campaign>)
    ensures |ValidateForm(form)| > 0 ==> r == list
    ensures |ValidateForm(form)| == 0 && (answer.Rejected? || answer.Threw?) ==>
              forall k :: 0 <= k < |r| ==> r[k] in list && r[k].id != tempId
    ensures |ValidateForm(form)| == 0 && answer.Created? ==> |r| >= 1 && r[0] == answer.campaign
  {
    if |ValidateForm(form)| > 0 then list
    else Settle(Optimistic(list, form, tempId, now), tempId, answer)
  }

  /** With a temporary id no listed campaign carries, a failed create leaves the list as it
      was, a successful one puts the stored campaign in front of it, and a success without
      a campaign leaves the provisional entry in front. */
  lemma CreateSettles(list: seq<Campaigns.Campaign>, form: Form, tempId: int, now: string, answer: Answer)
    requires forall k :: 0 <= k < |list| ==> list[k].id != tempId
    ensures answer.Rejected? || answer.Threw? ==> CreateCampaign(list, form, tempId, now, answer) == list
    ensures answer.Accepted? && |ValidateForm(form)| == 0 ==> CreateCampaign(list, form, tempId, now, answer) == Optimistic(list, form, tempId, now)
    ensures answer.Created? && |ValidateForm(form)| == 0 ==> CreateCampaign(list, form, tempId, now, answer) == [answer.campaign] + list
  {
    if |ValidateForm(form)| == 0 {
      var o := Optimistic(list, form, tempId, now);
      var keep := (c: Campaigns.Campaign) => c.id != tempId;
      FilterAll(list, keep);
      assert o == [o[0]] + list;
      FilterAppend([o[0]], list, keep);
      assert Filter([o[0]], keep) == [] by {
        assert [o[0]][1..] == [];
      }
    }
  }

  // ------------------------------------------------------------------ selection

  /** `handleSelectAll`: every campaign that has a (non-zero) id, or none. */
  function SelectAll(checked: bool, list: seq<Campaigns.Campaign>): (r: set<int>)
    ensures forall id :: id in r <==> checked && id != 0 && exists k :: 0 <= k < |list| && list[k].id == id
  {
    if checked then set k | 0 <= k < |list| && list[k].id != 0 :: list[k].id else {}
  }

  /** `handleDeleteSelected`: nothing is sent for an empty selection; otherwise the
      selected ids go to the route (`order` is the selection as an array), and the
      selection is cleared when the route reports success. */
  function DeleteSelected(s: Campaigns.Campaigns, selected: set<int>, order: seq<int>,
                          dbConfigured: bool, deleteFails: bool): (r: (Campaigns.Campaigns, set<int>))
    requires forall id :: id in selected <==> id in order
    ensures |selected| == 0 ==> r == (s, selected)
    ensures r.1 == {} || r.1 == selected
    ensures r.1 == selected && |selected| > 0 ==> r.0 == s
    ensures r.1 == {} && |selected| > 0 ==>
              var kept := if dbConfigured then r.0.table else r.0.fallback;
              forall k :: 0 <= k < |kept| ==> kept[k].id !in selected
  {
    if |selected| == 0 then (s, selected)
    else
      var (t, response) := Campaigns.Delete(s, Some(order), dbConfigured, deleteFails);
      if response.status == 200 then (t, {}) else (t, selected)
  }

  /** Selecting all and deleting the selection in memory leaves only campaigns without an
      id. */
  lemma DeleteAllSelected(list: seq<Campaigns.Campaign>, order: seq<int>)
    requires forall id :: id in SelectAll(true, list) <==> id in order
    requires |list| > 0 && list[0].id != 0
    ensures var r := DeleteSelected(Campaigns.Campaigns(list, []), SelectAll(true, list), order, false, false);
      r.1 == {} && forall k :: 0 <= k < |r.0.fallback| ==> r.0.fallback[k].id == 0
  {
    var selected := SelectAll(true, list);
    assert list[0].id in selected;
    var r := DeleteSelected(Campaigns.Campaigns(list, []), selected, order, false, false);
    var (t, response) := Campaigns.Delete(Campaigns.Campaigns(list, []), Some(order), false, false);
    assert response.status == 200;
    assert r.1 == {};
    forall k | 0 <= k < |r.0.fallback|
      ensures r.0.fallback[k].id == 0
    {
      var c := r.0.fallback[k];
      assert c in list;
      var j :| 0 <= j < |list| && list[j] == c;
      assert c.id !in selected;
    }
  }

  // ------------------------------------------------------------------ the script preview

  predicate IsWordChar(c: char) {
    ('a' <= c <= 'z') || ('A' <= c <= 'Z') || ('0' <= c <= '9') || c == '_'
  }

  /** The longest run of word characters at the start of `t`. */
  function WordRun(t: string): (r: string)
    ensures r <= t && forall i :: 0 <= i < |r| ==> IsWordChar(r[i])
    ensures |r| < |t| ==> !IsWordChar(t[|r|])
    decreases |t|
  {
    if |t| > 0 && IsWordChar(t[0]) then [t[0]] + WordRun(t[1..]) else ""
  }

  /** `/\{\{(\w+)\}\}/` tried at the start of `s`: the variable name when it matches. */
  function MatchAt(s: string): (r: Option<string>)
    ensures r.Some? ==> |r.value| >= 1 && |r.value| + 4 <= |s| && s[..|r.value| + 4] == "{{" + r.value + "}}"
    ensures r.Some? ==> forall i :: 0 <= i < |r.value| ==> IsWordChar(r.value[i])
  {
    if "{{" <= s then
      var w := WordRun(s[2..]);
      if |w| >= 1 && "}}" <= s[2 + |w|..] then Some(w) else None
    else None
  }

  /** `String.replace` with the pattern global: every match, left to right, replaced by the
      callback's text for its variable name. */
  function Substitute(s: string, replacement: string -> string): (r: string)
    ensures NoPlaceholderStart(s) ==> r == s
    decreases |s|
  {
    if |s| == 0 then ""
    else
      match MatchAt(s)
      case Some(w) =>
        assert s[0] == s[..|w| + 4][0] == '{' && s[1] == s[..|w| + 4][1] == '{';
        replacement(w) + Substitute(s[|w| + 4..], replacement)
      case None =>
        assert NoPlaceholderStart(s) ==> NoPlaceholderStart(s[1..]) && s == [s[0]] + s[1..] by {
          if NoPlaceholderStart(s) {
            forall i | 0 <= i < |s[1..]| - 1
              ensures !(s[1..][i] == '{' && s[1..][i + 1] == '{')
            {
              assert s[1..][i] == s[i + 1] && s[1..][i + 1] == s[i + 2];
            }
          }
        }
        [s[0]] + Substitute(s[1..], replacement)
  }

  /** No "{{" anywhere in `s`. */
  predicate NoPlaceholderStart(s: string) {
    forall i :: 0 <= i < |s| - 1 ==> !(s[i] == '{' && s[i + 1] == '{')
  }

  /** A placeholder written back as it stands. */
  function Itself(name: string): string {
    "{{" + name + "}}"
  }

  /** Replacing each placeholder by itself gives back the script: substitution only ever
      touches placeholders. */
  lemma {:induction false} SubstituteIdentity(s: string)
    ensures Substitute(s, Itself) == s
    decreases |s|
  {
    if |s| > 0 {
      var m := MatchAt(s);
      if m.Some? {
        SubstituteIdentity(s[|m.value| + 4..]);
        ItselfStep(s, m.value);
      } else {
        SubstituteIdentity(s[1..]);
        assert s == [s[0]] + s[1..];
      }
    }
  }

  lemma ItselfStep(s: string, w: string)
    requires MatchAt(s) == Some(w)
    requires Substitute(s[|w| + 4..], Itself) == s[|w| + 4..]
    ensures Substitute(s, Itself) == s
  {
    SubstituteAtMatch(s, w, Itself);
    TakeDrop(s, |w| + 4);
  }

  /** One step of the replacement loop: a match at the start is replaced and the scan
      resumes after it. */
  lemma SubstituteAtMatch(s: string, w: string, replacement: string -> string)
    requires MatchAt(s) == Some(w)
    ensures Substitute(s, replacement) == replacement(w) + Substitute(s[|w| + 4..], replacement)
  {
  }

  /** A lone placeholder is replaced by the callback's text for its name. */
  lemma LonePlaceholder(w: string, replacement: string -> string)
    requires |w| >= 1 && forall i :: 0 <= i < |w| ==> IsWordChar(w[i])
    ensures Substitute("{{" + w + "}}", replacement) == replacement(w)
  {
    var s := "{{" + w + "}}";
    MatchLone(w);
    assert s[|w| + 4..] == "";
    assert Substitute(s, replacement) == replacement(w) + Substitute("", replacement);
  }

  lemma MatchLone(w: string)
    requires |w| >= 1 && forall i :: 0 <= i < |w| ==> IsWordChar(w[i])
    ensures MatchAt("{{" + w + "}}") == Some(w)
  {
    var s := "{{" + w + "}}";
    assert s[2..] == w + "}}";
    WordRunOf(w, "}}");
    assert s[2 + |w|..] == "}}";
  }

  lemma {:induction false} WordRunOf(w: string, rest: string)
    requires forall i :: 0 <= i < |w| ==> IsWordChar(w[i])
    requires |rest| == 0 || !IsWordChar(rest[0])
    ensures WordRun(w + rest) == w
    decreases |w|
  {
    if |w| > 0 {
      assert (w + rest)[1..] == w[1..] + rest;
      WordRunOf(w[1..], rest);
      assert [w[0]] + w[1..] == w;
    }
  }

  /** The sample values the preview fills in. */
  function Sample(name: string): Option<string> {
    if name == "name" then Some("John Doe")
    else if name == "company" then Some("Acme Corp")
    else if name == "date" then Some("December 15, 2024")
    else if name == "time" then Some("2:00 PM")
    else if name == "doctor_name" then Some("Dr. Smith")
    else None
  }

  /** The properties every JavaScript object inherits from `Object.prototype` whose names
      are words. */
  const Inherited: set<string> := {
    "constructor", "hasOwnProperty", "isPrototypeOf", "propertyIsEnumerable", "toString",
    "valueOf", "toLocaleString", "__proto__", "__defineGetter__", "__defineSetter__",
    "__lookupGetter__", "__lookupSetter__"}

  /** The text an inherited property turns into when the callback's result is made a
      string: a function's source text, or for `__proto__` the prototype object itself. */
  function InheritedText(name: string): string {
    if name == "__proto__" then "[object Object]"
    else if name == "constructor" then ("function Object() " + "{ [native code] }")
    else "function " + name + "() { [native code] }"
  }

  /** The callback as written: `samples[varName] || "[varName]"`, where the lookup also
      finds inherited properties. */
  function ReplacementAsWritten(name: string): string {
    if Sample(name).Some? then Sample(name).value
    else if name in Inherited then InheritedText(name)
    else "[" + name + "]"
  }

  /** The callback reading only the sample table's own entries. */
  function Replacement(name: string): (r: string)
    ensures Sample(name).Some? ==> r == Sample(name).value
    ensures Sample(name).None? ==> r == "[" + name + "]"
  {
    match Sample(name)
    case Some(v) => v
    case None => "[" + name + "]"
  }

  /** What the preview panel shows for an empty opening script. */
  const PreviewPrompt := "Enter your " + "opening script " + "to see a " + "preview..."

  /** The text the preview substitutes into: the script, or the prompt when it is empty. */
  function PreviewSource(script: string): (r: string)
    ensures script != "" ==> r == script
    ensures script == "" ==> r == PreviewPrompt && NoPlaceholderStart(r)
  {
    if script == "" then PreviewPrompt else script
  }

  function PreviewAsWritten(script: string): (r: string)
    ensures script == "" ==> r == PreviewPrompt
    ensures script != "" && NoPlaceholderStart(script) ==> r == script
  {
    Substitute(PreviewSource(script), ReplacementAsWritten)
  }

  /** The preview of an opening script. */
  function Preview(script: string): (r: string)
    ensures script == "" ==> r == PreviewPrompt
    ensures script != "" && NoPlaceholderStart(script) ==> r == script
  {
    Substitute(PreviewSource(script), Replacement)
  }

  /** As written, a placeholder named like an inherited property shows JavaScript source
      text instead of being marked unknown. */
  lemma InheritedPlaceholderAsWritten(w: string)
    requires w in Inherited && forall i :: 0 <= i < |w| ==> IsWordChar(w[i])
    ensures PreviewAsWritten("{{" + w + "}}") == InheritedText(w)
    ensures InheritedText(w) != "[" + w + "]"
  {
    NotASample(w);
    LonePlaceholder(w, ReplacementAsWritten);
    assert InheritedText(w)[1] != ("[" + w + "]")[1] || |InheritedText(w)| != |"[" + w + "]"|;
  }

  /** No inherited property is one of the sample names. */
  lemma NotASample(w: string)
    requires w in Inherited
    ensures Sample(w).None?
  {
  }

  /** With own entries only, a placeholder is either one of the samples or shown marked as
      unknown by its name in brackets. */
  lemma PreviewPlaceholder(w: string)
    requires |w| >= 1 && forall i :: 0 <= i < |w| ==> IsWordChar(w[i])
    ensures Sample(w).Some? ==> Preview("{{" + w + "}}") == Sample(w).value
    ensures Sample(w).None? ==> Preview("{{" + w + "}}") == "[" + w + "]"
    ensures w in Inherited ==> Preview("{{" + w + "}}") == "[" + w + "]"
  {
    LonePlaceholder(w, Replacement);
    if w in Inherited {
      NotASample(w);
    }
  }

  // ------------------------------------------------------------------ the calling dialog

  /** How a press of "start call" in the dialog ends. */
  datatype Start = NoLeads | NoAssistant | AllCalled | Attempt(outcome: Dialing.Outcome)

  /** `handleStartCall`: the guards, then the shared dialling sequence with the selected
      assistant for the lead at the current index. */
  function StartCall(w: Dialing.World, leads: seq<Candidate>, index: nat, assistantId: string,
                     email: Option<string>, backend: Credits.Backend, reply: Dialing.DialReply, now: string)
    : (r: (Dialing.World, seq<Dialing.Request>, Start))
    ensures |leads| == 0 || assistantId == "" || index >= |leads| ==> r.0 == w && r.1 == []
    ensures |leads| == 0 ==> r.2 == NoLeads
    ensures |leads| > 0 && assistantId == "" ==> r.2 == NoAssistant
    ensures |leads| > 0 && assistantId != "" && index < |leads| ==>
              var c := leads[index];
              r.2.Attempt? &&
              forall k :: 0 <= k < |r.1| && r.1[k].ProviderCall? ==>
                r.1[k] == Dialing.ProviderCall(c.phone, c.name, c.id, Some(assistantId))
  {
    if |leads| == 0 then (w, [], NoLeads)
    else if assistantId == "" then (w, [], NoAssistant)
    else if index >= |leads| then (w, [], AllCalled)
    else
      var (w1, requests, outcome) := Dialing.PlaceCall(w, leads[index], email, backend, Some(assistantId), reply, now);
      Dialing.DialNamesLead(w, leads[index], email, backend, Some(assistantId), reply, now);
      (w1, requests, Attempt(outcome))
  }

  /** `handleNextLead`: move on unless already at the last lead. */
  function NextLead(index: nat, count: nat): (r: nat)
    ensures index < count ==> r < count
    ensures r == index || r == index + 1
  {
    if index < count - 1 then index + 1 else index
  }

  function Advance(index: nat, count: nat, steps: nat): nat
    decreases steps
  {
    if steps == 0 then index else Advance(NextLead(index, count), count, steps - 1)
  }

  /** From the first lead, any number of presses of "next" ends on lead
      min(presses, count - 1), so the dialog never runs past its leads. */
  lemma {:induction false} AdvanceStops(count: nat, steps: nat)
    requires count >= 1
    ensures Advance(0, count, steps) == if steps < count - 1 then steps else count - 1
    decreases steps
  {
    if steps > 0 {
      AdvanceFrom(0, count, steps);
    }
  }

  lemma {:induction false} AdvanceFrom(index: nat, count: nat, steps: nat)
    requires index < count
    ensures Advance(index, count, steps) == if index + steps < count - 1 then index + steps else count - 1
    decreases steps
  {
    if steps > 0 {
      AdvanceFrom(NextLead(index, count), count, steps - 1);
    }
  }

  /** So while the leads stay the same, "all leads called" is never the answer to a start. */
  lemma StartNeverPastLeads(w: Dialing.World, leads: seq<Candidate>, steps: nat, assistantId: string,
                            email: Option<string>, backend: Credits.Backend, reply: Dialing.DialReply, now: string)
    requires |leads| >= 1
    ensures StartCall(w, leads, Advance(0, |leads|, steps), assistantId, email, backend, reply, now).2 != AllCalled
  {
    AdvanceFrom(0, |leads|, steps);
  }
}

=== FILE: candidates.dfy ===
/** The candidate store of `candidatesApi`, `callQueueApi` and `callHistoryApi` on their
    in-memory path: an ordered list of candidate records, with partial updates that behave
    like JavaScript object spread. */
module Candidates {
  import opened Text

  /** One lead/call record. Optional fields are `None` when the key is absent. */
  datatype Candidate = Candidate(
    id: int,
    name: string,
    phone: string,
    email: string,
    position: string,
    status: string,
    callResult: Option<string>,
    callNotes: Option<string>,
    callTime: Option<string>,
    addedAt: Option<string>,
    callStartTime: Option<string>,
    callEndTime: Option<string>,
    createdAt: Option<string>,
    updatedAt: Option<string>,
    vapiCallId: Option<string>,
    assistantName: Option<string>,
    assistantId: Option<string>,
    assistantPhoneNumber: Option<string>,
    callType: Option<string>,
    endedReason: Option<string>,
    successEvaluation: Option<string>,
    score: Option<string>,
    callDuration: Option<int>,
    callCost: Option<real>)

  /** A `Partial<Candidate>`. `None` means the key is absent. For the optional fields,
      `Some(None)` means the key is present with the value `undefined`. */
  datatype Patch = Patch(
    name: Option<string>,
    phone: Option<string>,
    email: Option<string>,
    position: Option<string>,
    status: Option<string>,
    callResult: Option<Option<string>>,
    callNotes: Option<Option<string>>,
    callTime: Option<Option<string>>,
    addedAt: Option<Option<string>>,
    callStartTime: Option<Option<string>>,
    callEndTime: Option<Option<string>>,
    updatedAt: Option<Option<string>>,
    vapiCallId: Option<Option<string>>,
    assistantName: Option<Option<string>>,
    assistantId: Option<Option<string>>,
    assistantPhoneNumber: Option<Option<string>>,
    callType: Option<Option<string>>,
    endedReason: Option<Option<string>>,
    successEvaluation: Option<Option<string>>,
    score: Option<Option<string>>,
    callDuration: Option<Option<int>>,
    callCost: Option<Option<real>>)

  /** `{}`. */
  const NoChange: Patch := Patch(None, None, None, None, None, None, None, None, None, None,
                                 None, None, None, None, None, None, None, None, None, None,
                                 None, None)

  type Store = seq<Candidate>

  // ------------------------------------------------------------------ spreading

  /** One key of `{...c, ...p}`: the patch's value when the key is present. */
  function Over<T>(v: T, p: Option<T>): T {
    match p
    case Some(x) => x
    case None => v
  }

  /** One key of `{...a, ...b}` on two partial objects. */
  function Pick<T>(a: Option<T>, b: Option<T>): Option<T> {
    if b.Some? then b else a
  }

  /** A key whose value is `undefined` disappears when the object is sent as JSON. */
  function Defined<T>(p: Option<Option<T>>): Option<Option<T>> {
    match p
    case Some(None) => None
    case _ => p
  }

  /** `{...c, ...p}`. */
  function Apply(c: Candidate, p: Patch): (r: Candidate)
    ensures r.id == c.id && r.createdAt == c.createdAt
    ensures p == NoChange ==> r == c
    ensures p.status.Some? ==> r.status == p.status.value
    ensures p.status.None? ==> r.status == c.status
  {
    c.(name := Over(c.name, p.name),
       phone := Over(c.phone, p.phone),
       email := Over(c.email, p.email),
       position := Over(c.position, p.position),
       status := Over(c.status, p.status),
       callResult := Over(c.callResult, p.callResult),
       callNotes := Over(c.callNotes, p.callNotes),
       callTime := Over(c.callTime, p.callTime),
       addedAt := Over(c.addedAt, p.addedAt),
       callStartTime := Over(c.callStartTime, p.callStartTime),
       callEndTime := Over(c.callEndTime, p.callEndTime),
       updatedAt := Over(c.updatedAt, p.updatedAt),
       vapiCallId := Over(c.vapiCallId, p.vapiCallId),
       assistantName := Over(c.assistantName, p.assistantName),
       assistantId := Over(c.assistantId, p.assistantId),
       assistantPhoneNumber := Over(c.assistantPhoneNumber, p.assistantPhoneNumber),
       callType := Over(c.callType, p.callType),
       endedReason := Over(c.endedReason, p.endedReason),
       successEvaluation := Over(c.successEvaluation, p.successEvaluation),
       score := Over(c.score, p.score),
       callDuration := Over(c.callDuration, p.callDuration),
       callCost := Over(c.callCost, p.callCost))
  }

  /** `{...a, ...b}` on two partial objects. */
  function Merge(a: Patch, b: Patch): Patch {
    Patch(Pick(a.name, b.name), Pick(a.phone, b.phone), Pick(a.email, b.email),
          Pick(a.position, b.position), Pick(a.status, b.status),
          Pick(a.callResult, b.callResult), Pick(a.callNotes, b.callNotes),
          Pick(a.callTime, b.callTime), Pick(a.addedAt, b.addedAt),
          Pick(a.callStartTime, b.callStartTime), Pick(a.callEndTime, b.callEndTime),
          Pick(a.updatedAt, b.updatedAt), Pick(a.vapiCallId, b.vapiCallId),
          Pick(a.assistantName, b.assistantName), Pick(a.assistantId, b.assistantId),
          Pick(a.assistantPhoneNumber, b.assistantPhoneNumber), Pick(a.callType, b.callType),
          Pick(a.endedReason, b.endedReason), Pick(a.successEvaluation, b.successEvaluation),
          Pick(a.score, b.score), Pick(a.callDuration, b.callDuration),
          Pick(a.callCost, b.callCost))
  }

  /** No key of the partial object holds `undefined`. */
  predicate NoUndefined(p: Patch) {
    p.callResult != Some(None) && p.callNotes != Some(None) && p.callTime != Some(None) &&
    p.addedAt != Some(None) && p.callStartTime != Some(None) && p.callEndTime != Some(None) &&
    p.updatedAt != Some(None) && p.vapiCallId != Some(None) && p.assistantName != Some(None) &&
    p.assistantId != Some(None) && p.assistantPhoneNumber != Some(None) && p.callType != Some(None) &&
    p.endedReason != Some(None) && p.successEvaluation != Some(None) && p.score != Some(None) &&
    p.callDuration != Some(None) && p.callCost != Some(None)
  }

  /** The body a database update receives: keys holding `undefined` are dropped. */
  function Json(p: Patch): (r: Patch)
    ensures NoUndefined(r)
    ensures NoUndefined(p) ==> r == p
    ensures r.name == p.name && r.phone == p.phone && r.email == p.email && r.position == p.position && r.status == p.status
    ensures p.callNotes.Some? && p.callNotes.value.Some? ==> r.callNotes == p.callNotes
  {
    p.(callResult := Defined(p.callResult), callNotes := Defined(p.callNotes),
       callTime := Defined(p.callTime), addedAt := Defined(p.addedAt),
       callStartTime := Defined(p.callStartTime), callEndTime := Defined(p.callEndTime),
       updatedAt := Defined(p.updatedAt), vapiCallId := Defined(p.vapiCallId),
       assistantName := Defined(p.assistantName), assistantId := Defined(p.assistantId),
       assistantPhoneNumber := Defined(p.assistantPhoneNumber), callType := Defined(p.callType),
       endedReason := Defined(p.endedReason), successEvaluation := Defined(p.successEvaluation),
       score := Defined(p.score), callDuration := Defined(p.callDuration),
       callCost := Defined(p.callCost))
  }

  /** Spreading two objects in turn is spreading their merge. */
  lemma ApplyMerge(c: Candidate, a: Patch, b: Patch)
    ensures Apply(c, Merge(a, b)) == Apply(Apply(c, a), b)
  {
  }

  /** Spreading the same partial object twice changes nothing more. */
  lemma ApplyTwice(c: Candidate, p: Patch)
    ensures Apply(Apply(c, p), p) == Apply(c, p)
  {
  }

  /** Over JSON a patch can no longer clear a field: a stored value survives unless the
      patch carries a real replacement. */
  lemma JsonNeverClears(c: Candidate, p: Patch)
    ensures c.callNotes.Some? ==> Apply(c, Json(p)).callNotes.Some?
    ensures c.vapiCallId.Some? ==> Apply(c, Json(p)).vapiCallId.Some?
    ensures Apply(c, Json(p)).callResult == (if p.callResult == Some(None) then c.callResult else Apply(c, p).callResult)
  {
  }

  // ------------------------------------------------------------------ lookups

  /** `findIndex(c => c.id === id)`, with -1 for "not found". */
  function IndexOf(store: Store, id: int): (r: int)
    ensures -1 <= r < |store|
    ensures r == -1 <==> forall j :: 0 <= j < |store| ==> store[j].id != id
    ensures r >= 0 ==> store[r].id == id && forall j :: 0 <= j < r ==> store[j].id != id
    decreases |store|
  {
    if |store| == 0 then -1
    else if store[0].id == id then 0
    else
      var k := IndexOf(store[1..], id);
      if k == -1 then -1 else k + 1
  }

  /** `getById` on the in-memory path. */
  function GetById(store: Store, id: int): (r: Option<Candidate>)
    ensures r.None? <==> forall j :: 0 <= j < |store| ==> store[j].id != id
    ensures r.Some? ==> r.value.id == id && r.value in store
  {
    var i := IndexOf(store, id);
    if i == -1 then None else Some(store[i])
  }

  // ------------------------------------------------------------------ creation

  /** The record `create` stores for an input: the input with a fresh id and timestamps. */
  function Stamp(c: Candidate, id: int, now: string): Candidate {
    c.(id := id, createdAt := Some(now), updatedAt := Some(now))
  }

  /** `create`: appends with id = current length + 1. */
  function Create(store: Store, c: Candidate, now: string): (r: (Store, Candidate))
    ensures r.0 == store + [r.1]
    ensures r.1.id == |store| + 1 && r.1.createdAt == Some(now) && r.1.updatedAt == Some(now)
    ensures r.1.name == c.name && r.1.phone == c.phone && r.1.status == c.status
  {
    var rec := Stamp(c, |store| + 1, now);
    (store + [rec], rec)
  }

  /** `createMany`: appends the inputs in order, with ids length+1, length+2, … */
  function CreateMany(store: Store, cs: seq<Candidate>, now: string): (r: (Store, seq<Candidate>))
    ensures |r.1| == |cs| && r.0 == store + r.1
    ensures forall k :: 0 <= k < |cs| ==> r.1[k] == Stamp(cs[k], |store| + k + 1, now)
  {
    var added := seq(|cs|, k requires 0 <= k < |cs| => Stamp(cs[k], |store| + k + 1, now));
    (store + added, added)
  }

  /** The new records of one `createMany` carry pairwise distinct ids above the old length. */
  lemma CreateManyIds(store: Store, cs: seq<Candidate>, now: string)
    ensures var r := CreateMany(store, cs, now);
      (forall k :: 0 <= k < |r.1| ==> r.1[k].id > |store|) &&
      (forall k, l :: 0 <= k < l < |r.1| ==> r.1[k].id < r.1[l].id)
  {
  }

  /** Ids are positions, not keys: deleting a record and creating another can repeat an id. */
  lemma CreateAfterDeleteRepeatsId(a: Candidate, b: Candidate, c: Candidate, now: string)
    requires a.id == 1 && b.id == 2
    ensures var s := Create(Delete([a, b], 1), c, now).0;
      |s| == 2 && s[0].id == s[1].id
  {
    var f := (x: Candidate) => x.id != 1;
    assert [a, b][1..] == [b] && [b][1..] == [];
    assert Filter([b], f) == [b] + Filter([], f);
    assert Delete([a, b], 1) == [b];
  }

  // ------------------------------------------------------------------ update / delete

  /** `update` on the in-memory path: the first record with that id becomes
      `{...record, ...updates, updated_at: now}`; an unknown id changes nothing. */
  function Update(store: Store, id: int, p: Patch, now: string): (r: (Store, Option<Candidate>))
    ensures |r.0| == |store|
    ensures r.1.None? <==> forall j :: 0 <= j < |store| ==> store[j].id != id
    ensures r.1.None? ==> r.0 == store
    ensures r.1.Some? ==> exists i :: (0 <= i < |store| && store[i].id == id &&
              (forall j :: 0 <= j < i ==> store[j].id != id) &&
              r.0 == store[i := r.1.value] &&
              r.1.value == Apply(store[i], p).(updatedAt := Some(now)))
  {
    var i := IndexOf(store, id);
    if i == -1 then (store, None)
    else
      var rec := Apply(store[i], p).(updatedAt := Some(now));
      (store[i := rec], Some(rec))
  }

  /** An update leaves every record with another id exactly as it was. */
  lemma UpdateOthersUnchanged(store: Store, id: int, p: Patch, now: string, j: int)
    requires 0 <= j < |store| && store[j].id != id
    ensures Update(store, id, p, now).0[j] == store[j]
  {
  }

  /** `delete`: removes every record with that id. */
  function Delete(store: Store, id: int): (r: Store)
    ensures forall j :: 0 <= j < |r| ==> r[j].id != id && r[j] in store
    ensures forall j :: 0 <= j < |store| && store[j].id != id ==> store[j] in r
  {
    Filter(store, (c: Candidate) => c.id != id)
  }

  /** `deleteMany`: removes exactly the records whose id is listed. */
  function DeleteMany(store: Store, ids: seq<int>): (r: Store)
    ensures forall j :: 0 <= j < |r| ==> r[j].id !in ids && r[j] in store
    ensures forall j :: 0 <= j < |store| && store[j].id !in ids ==> store[j] in r
  {
    Filter(store, (c: Candidate) => c.id !in ids)
  }

  // ------------------------------------------------------------------ status views

  /** `getByStatus`: the records with that status. */
  function GetByStatus(store: Store, status: string): (r: Store)
    ensures forall j :: 0 <= j < |r| ==> r[j].status == status && r[j] in store
    ensures forall j :: 0 <= j < |store| && store[j].status == status ==> store[j] in r
  {
    Filter(store, (c: Candidate) => c.status == status)
  }

  /** `getByStatus` keeps store order: the view of a concatenation is the concatenation of
      the views. */
  lemma GetByStatusOrder(a: Store, b: Store, status: string)
    ensures GetByStatus(a + b, status) == GetByStatus(a, status) + GetByStatus(b, status)
  {
    FilterAppend(a, b, (c: Candidate) => c.status == status);
  }

  /** `getQueue`: the pending records. */
  function GetQueue(store: Store): (r: Store)
    ensures forall j :: 0 <= j < |r| ==> r[j].status == "pending" && r[j] in store
    ensures forall j :: 0 <= j < |store| && store[j].status == "pending" ==> store[j] in r
  {
    GetByStatus(store, "pending")
  }

  /** `getHistory`: the completed records. */
  function GetHistory(store: Store): (r: Store)
    ensures forall j :: 0 <= j < |r| ==> r[j].status == "completed" && r[j] in store
    ensures forall j :: 0 <= j < |store| && store[j].status == "completed" ==> store[j] in r
  {
    GetByStatus(store, "completed")
  }

  /** `addToQueue`: every input is created with status "pending" and `added_at` = now. */
  function AddToQueue(store: Store, cs: seq<Candidate>, now: string): (r: (Store, seq<Candidate>))
    ensures |r.1| == |cs| && r.0 == store + r.1
    ensures forall k :: 0 <= k < |r.1| ==>
              r.1[k].status == "pending" && r.1[k].addedAt == Some(now) &&
              r.1[k].id == |store| + k + 1 && r.1[k].name == cs[k].name && r.1[k].phone == cs[k].phone
  {
    CreateMany(store, seq(|cs|, k requires 0 <= k < |cs| => cs[k].(status := "pending", addedAt := Some(now))), now)
  }

  /** Every record `addToQueue` adds is in the queue afterwards, after the earlier queue. */
  lemma AddToQueueJoinsQueue(store: Store, cs: seq<Candidate>, now: string)
    ensures var r := AddToQueue(store, cs, now);
      GetQueue(r.0) == GetQueue(store) + r.1
  {
    var r := AddToQueue(store, cs, now);
    GetByStatusOrder(store, r.1, "pending");
    FilterAll(r.1, (c: Candidate) => c.status == "pending");
  }

  /** `clearQueue`: removes exactly the pending records. */
  function ClearQueue(store: Store): (r: Store)
    ensures forall j :: 0 <= j < |r| ==> r[j].status != "pending" && r[j] in store
    ensures forall j :: 0 <= j < |store| && store[j].status != "pending" ==> store[j] in r
  {
    Filter(store, (c: Candidate) => c.status != "pending")
  }

  /** After `clearQueue` the queue is empty and the history is what it was. */
  lemma {:induction false} ClearQueueKeepsHistory(store: Store)
    ensures GetQueue(ClearQueue(store)) == []
    ensures GetHistory(ClearQueue(store)) == GetHistory(store)
    decreases |store|
  {
    if |store| > 0 {
      ClearQueueKeepsHistory(store[1..]);
      assert store == [store[0]] + store[1..];
      FilterAppend([store[0]], store[1..], (c: Candidate) => c.status != "pending");
      var rest := ClearQueue(store[1..]);
      if store[0].status != "pending" {
        assert ClearQueue(store) == [store[0]] + rest;
        GetByStatusOrder([store[0]], rest, "pending");
        GetByStatusOrder([store[0]], rest, "completed");
        GetByStatusOrder([store[0]], store[1..], "completed");
      } else {
        assert ClearQueue(store) == rest;
        GetByStatusOrder([store[0]], store[1..], "completed");
      }
    }
  }

  // ------------------------------------------------------------------ status changes

  /** The partial object `updateStatus` sends: `{status, updated_at: now, ...additionalData}`,
      then `call_start_time` (for "calling") or `call_end_time` (for "completed") set to now. */
  function StatusPatch(status: string, extra: Patch, now: string): (r: Patch)
    ensures r.status == Some(GetOr(extra.status, status))
    ensures status == "calling" ==> r.callStartTime == Some(Some(now))
    ensures status == "completed" ==> r.callEndTime == Some(Some(now))
    ensures status != "calling" ==> r.callStartTime == extra.callStartTime
    ensures status != "completed" ==> r.callEndTime == extra.callEndTime
    ensures r.updatedAt.Some? && r.callNotes == extra.callNotes && r.vapiCallId == extra.vapiCallId
  {
    var merged := Merge(NoChange.(status := Some(status), updatedAt := Some(Some(now))), extra);
    if status == "calling" then merged.(callStartTime := Some(Some(now)))
    else if status == "completed" then merged.(callEndTime := Some(Some(now)))
    else merged
  }

  /** `updateStatus`. */
  function UpdateStatus(store: Store, id: int, status: string, extra: Patch, now: string): (r: (Store, Option<Candidate>))
    ensures r.1.None? <==> forall j :: 0 <= j < |store| ==> store[j].id != id
    ensures r.1.Some? ==> r.1.value.updatedAt == Some(now) && r.1.value.id == id
  {
    Update(store, id, StatusPatch(status, extra, now), now)
  }

  /** What `updateStatus` writes: the caller's extra fields are spread over the record, the
      status is the caller's unless the extra fields carry one, and then the timestamps are
      stamped with `now`, overriding any `call_start_time`/`call_end_time` the caller gave. */
  lemma UpdateStatusStamps(store: Store, id: int, status: string, extra: Patch, now: string)
    requires exists j :: 0 <= j < |store| && store[j].id == id
    ensures var (s, r) := UpdateStatus(store, id, status, extra, now);
      var i := IndexOf(store, id);
      var c := Apply(store[i], extra);
      r.Some? && r.value.status == GetOr(extra.status, status) &&
      r.value.updatedAt == Some(now) &&
      r.value.callStartTime == (if status == "calling" then Some(now) else c.callStartTime) &&
      r.value.callEndTime == (if status == "completed" then Some(now) else c.callEndTime) &&
      r.value.callResult == c.callResult && r.value.callNotes == c.callNotes &&
      r.value.vapiCallId == c.vapiCallId && r.value.name == c.name && r.value.phone == c.phone &&
      s == store[i := r.value]
  {
    var i := IndexOf(store, id);
    ApplyMerge(store[i], NoChange.(status := Some(status), updatedAt := Some(Some(now))), extra);
  }

  /** `addToHistory`: the whole record is spread back over the stored one, with status
      "completed" and `call_end_time`/`updated_at` = now. */
  function AddToHistory(store: Store, c: Candidate, now: string): (r: (Store, Option<Candidate>))
    ensures r.1.None? <==> forall j :: 0 <= j < |store| ==> store[j].id != c.id
    ensures r.1.Some? ==> (r.1.value.id == c.id && r.1.value.status == "completed" &&
              r.1.value.callEndTime == Some(now) && r.1.value.updatedAt == Some(now) &&
              r.1.value.name == c.name && r.1.value.phone == c.phone)
    ensures r.1.Some? && c.callResult.Some? ==> r.1.value.callResult == c.callResult
    ensures r.1.Some? && c.callResult.None? ==> r.1.value.callResult == store[IndexOf(store, c.id)].callResult
  {
    Update(store, c.id, AsPatch(c).(status := Some("completed"), callEndTime := Some(Some(now)), updatedAt := Some(Some(now))), now)
  }

  /** A whole record used as a partial object: every present key. */
  function AsPatch(c: Candidate): Patch {
    Patch(Some(c.name), Some(c.phone), Some(c.email), Some(c.position), Some(c.status),
          Present(c.callResult), Present(c.callNotes), Present(c.callTime), Present(c.addedAt),
          Present(c.callStartTime), Present(c.callEndTime), Present(c.updatedAt),
          Present(c.vapiCallId), Present(c.assistantName), Present(c.assistantId),
          Present(c.assistantPhoneNumber), Present(c.callType), Present(c.endedReason),
          Present(c.successEvaluation), Present(c.score), Present(c.callDuration),
          Present(c.callCost))
  }

  function Present<T>(o: Option<T>): Option<Option<T>> {
    if o.Some? then Some(o) else None
  }
  // ------------------------------------------------------------------ database path

  /** A database `update(p).eq('id', id)`: every row with that id receives the JSON body of
      `p`; other rows are untouched. */
  function DbWrite(table: Store, id: int, p: Patch): (r: Store)
    ensures |r| == |table|
    ensures forall j :: 0 <= j < |table| ==> r[j].id == table[j].id
    ensures forall j :: 0 <= j < |table| && table[j].id != id ==> r[j] == table[j]
    ensures forall j :: 0 <= j < |table| && table[j].id == id ==> r[j] == Apply(table[j], Json(p))
  {
    seq(|table|, j requires 0 <= j < |table| => if table[j].id == id then Apply(table[j], Json(p)) else table[j])
  }

  /** Writing the same body twice is writing it once. */
  lemma DbWriteTwice(table: Store, id: int, p: Patch)
    ensures DbWrite(DbWrite(table, id, p), id, p) == DbWrite(table, id, p)
  {
    var once := DbWrite(table, id, p);
    forall j | 0 <= j < |table| && table[j].id == id
      ensures DbWrite(once, id, p)[j] == once[j]
    {
      ApplyTwice(table[j], Json(p));
    }
  }

  /** `update` on the database path: `{...updates, updated_at: now}` sent as JSON. */
  function DbUpdate(table: Store, id: int, p: Patch, now: string): (r: Store)
    ensures |r| == |table|
    ensures forall j :: 0 <= j < |table| && table[j].id != id ==> r[j] == table[j]
    ensures forall j :: 0 <= j < |table| && table[j].id == id ==> r[j].updatedAt == Some(now)
  {
    DbWrite(table, id, p.(updatedAt := Some(Some(now))))
  }

  /** `updateStatus` on the database path. */
  function DbUpdateStatus(table: Store, id: int, status: string, extra: Patch, now: string): (r: Store)
    ensures |r| == |table|
    ensures forall j :: 0 <= j < |table| && table[j].id != id ==> r[j] == table[j]
    ensures forall j :: 0 <= j < |table| && table[j].id == id ==>
              r[j].id == id && r[j].updatedAt == Some(now) &&
              r[j].status == GetOr(extra.status, status) &&
              (status == "calling" ==> r[j].callStartTime == Some(now)) &&
              (status == "completed" ==> r[j].callEndTime == Some(now))
  {
    DbUpdate(table, id, StatusPatch(status, extra, now), now)
  }

  /** No two rows share an id, as the table's primary key guarantees. */
  predicate UniqueIds(table: Store) {
    forall i, j :: 0 <= i < j < |table| ==> table[i].id != table[j].id
  }
}

=== FILE: config.dfy ===
/** `configApi` and `dataApi` on the in-memory path: one optional call configuration next
    to the candidate store, with export, import and clear. */
module Config {
  import opened Text
  import opened Candidates

  datatype VoiceSettings = VoiceSettings(provider: string, voiceId: string, speed: real, pitch: real)

  datatype CallSettings = CallSettings(maxDuration: int, retryAttempts: int, delayBetweenCalls: int)

  datatype CallConfig = CallConfig(
    id: Option<int>,
    callMethod: string,
    script: string,
    voice: VoiceSettings,
    call: CallSettings,
    createdAt: Option<string>,
    updatedAt: Option<string>)

  /** The application's stored data: the candidate list and the saved configuration. */
  datatype AppData = AppData(candidates: Store, config: Option<CallConfig>)

  /** What `exportData` returns. */
  datatype Export = Export(candidates: Store, config: Option<CallConfig>, exportedAt: string)

  /** The parts of an import body that `importData` looks at. `candidates` is `None` when
      the key is missing or not an array; `config` is `None` when it is missing. */
  datatype ImportPayload = ImportPayload(candidates: Option<Store>, config: Option<CallConfig>)

  /** Two configurations that differ at most in id and timestamps. */
  predicate SameSettings(a: CallConfig, b: CallConfig) {
    a.callMethod == b.callMethod && a.script == b.script && a.voice == b.voice && a.call == b.call
  }

  /** `configApi.get`. */
  function GetConfig(d: AppData): Option<CallConfig> {
    d.config
  }

  /** `configApi.save`: stores the configuration with id 1 and both timestamps = now. */
  function SaveConfig(d: AppData, cfg: CallConfig, now: string): (r: (AppData, CallConfig))
    ensures SameSettings(r.1, cfg)
    ensures r.1.id == Some(1) && r.1.createdAt == Some(now) && r.1.updatedAt == Some(now)
    ensures r.0.candidates == d.candidates && GetConfig(r.0) == Some(r.1)
  {
    var saved := cfg.(id := Some(1), createdAt := Some(now), updatedAt := Some(now));
    (d.(config := Some(saved)), saved)
  }

  /** `exportData`. */
  function ExportData(d: AppData, now: string): (r: Export)
    ensures r.candidates == d.candidates && r.config == GetConfig(d) && r.exportedAt == now
  {
    Export(d.candidates, d.config, now)
  }

  /** `importData`: an array of candidates replaces the store (an empty array empties it);
      a configuration is saved; missing parts leave their store as it was. */
  function ImportData(d: AppData, p: ImportPayload, now: string): (r: AppData)
    ensures r.candidates == (if p.candidates.Some? then p.candidates.value else d.candidates)
    ensures p.config.None? ==> r.config == d.config
    ensures p.config.Some? ==> r.config.Some? && SameSettings(r.config.value, p.config.value) &&
                               r.config.value.id == Some(1) && r.config.value.updatedAt == Some(now)
  {
    var d1 := if p.candidates.Some? then d.(candidates := p.candidates.value) else d;
    if p.config.Some? then SaveConfig(d1, p.config.value, now).0 else d1
  }

  /** `clearAllData`. */
  function ClearAllData(d: AppData): (r: AppData)
    ensures r.candidates == [] && GetConfig(r) == None
  {
    AppData([], None)
  }

  /** Importing what was exported gives back the same candidates and the same
      configuration, up to its id and timestamps. */
  lemma ExportImportRoundTrip(d: AppData, e: AppData, t1: string, t2: string)
    ensures var x := ExportData(d, t1);
      var r := ImportData(e, ImportPayload(Some(x.candidates), x.config), t2);
      r.candidates == d.candidates &&
      (d.config.None? ==> r.config == e.config) &&
      (d.config.Some? ==> r.config.Some? && SameSettings(r.config.value, d.config.value))
  {
  }
}

=== FILE: credits.dfy ===
/** `creditsApi`: a per-email credit balance, kept in a database table when one is
    configured and in an in-memory map otherwise or whenever the database misbehaves. */
module Credits {
  import opened Text

  /** The balance a new email starts with. */
  const DefaultCredits: int := 2

  /** The in-memory fallback map and the `user_credits` table. */
  datatype Ledgers = Ledgers(memory: map<string, int>, db: map<string, int>)

  /** How the `user_credits` update of `consume` turns out: the row is written, the client
      reports an error, or the call throws. */
  datatype UpdateOutcome = Applied | Errored | Threw

  /** The database faults one request meets. `selectFails` is a select error other than
      "no rows"; `insertFails` an error on the insert of a new row. */
  datatype DbFaults = DbFaults(selectFails: bool, insertFails: bool, update: UpdateOutcome)

  datatype Backend = InMemory | Supabase(faults: DbFaults)

  datatype CreditError = EmailRequired | InsufficientCredits

  datatype CreditResult = Granted(credits: int) | Refused(error: CreditError)

  function Lookup(m: map<string, int>, k: string): Option<int> {
    if k in m then Some(m[k]) else None
  }

  /** Both maps agree with the old ones on every email but `email`. */
  ghost predicate OnlyTouches(before: Ledgers, after: Ledgers, email: string) {
    (forall e :: e != email ==> (e in after.memory <==> e in before.memory)) &&
    (forall e :: e != email && e in before.memory ==> after.memory[e] == before.memory[e]) &&
    (forall e :: e != email ==> (e in after.db <==> e in before.db)) &&
    (forall e :: e != email && e in before.db ==> after.db[e] == before.db[e])
  }

  /** No balance anywhere is negative. */
  predicate NonNegative(l: Ledgers) {
    (forall e :: e in l.memory ==> l.memory[e] >= 0) && (forall e :: e in l.db ==> l.db[e] >= 0)
  }

  /** The in-memory step shared by every fallback: `fallbackCredits[email] ?? DEFAULT_CREDITS`,
      written back. */
  function MemoryInit(l: Ledgers, email: string): (r: (Ledgers, int))
    ensures r.1 == GetOr(Lookup(l.memory, email), DefaultCredits)
    ensures r.0 == l.(memory := l.memory[email := r.1])
  {
    var current := GetOr(Lookup(l.memory, email), DefaultCredits);
    (l.(memory := l.memory[email := current]), current)
  }

  /** `getOrInit`. */
  function GetOrInit(l: Ledgers, email: string, b: Backend): (r: (Ledgers, CreditResult))
    ensures email == "" ==> r == (l, Refused(EmailRequired))
    ensures email != "" ==> r.1.Granted? && OnlyTouches(l, r.0, email)
    ensures email != "" ==> (email in r.0.memory && r.0.memory[email] == r.1.credits) ||
                            (email in r.0.db && r.0.db[email] == r.1.credits)
    ensures email != "" && b.InMemory? ==>
              r.1.credits == (if email in l.memory then l.memory[email] else DefaultCredits) &&
              r.0 == l.(memory := l.memory[email := r.1.credits])
    ensures email != "" && b.Supabase? && !b.faults.selectFails && email in l.db ==>
              r == (l, Granted(l.db[email]))
    ensures email != "" && b.Supabase? && !b.faults.selectFails && !b.faults.insertFails && email !in l.db ==>
              r == (l.(db := l.db[email := DefaultCredits]), Granted(DefaultCredits))
  {
    if email == "" then (l, Refused(EmailRequired))
    else match b
      case InMemory =>
        var (l1, c) := MemoryInit(l, email);
        (l1, Granted(c))
      case Supabase(f) =>
        if f.selectFails then
          var (l1, c) := MemoryInit(l, email);
          (l1, Granted(c))
        else if email in l.db then (l, Granted(l.db[email]))
        else if f.insertFails then
          var (l1, c) := MemoryInit(l, email);
          (l1, Granted(c))
        else (l.(db := l.db[email := DefaultCredits]), Granted(DefaultCredits))
  }

  /** The fallback of `consume`'s catch block: the in-memory balance, floor-checked. */
  function MemoryConsume(l: Ledgers, email: string, amount: int): (r: (Ledgers, CreditResult))
    ensures var current := GetOr(Lookup(l.memory, email), DefaultCredits);
      (current < amount ==> r == (l, Refused(InsufficientCredits))) &&
      (current >= amount ==> r == (l.(memory := l.memory[email := current - amount]), Granted(current - amount)))
  {
    var current := GetOr(Lookup(l.memory, email), DefaultCredits);
    if current < amount then (l, Refused(InsufficientCredits))
    else (l.(memory := l.memory[email := current - amount]), Granted(current - amount))
  }

  /** `consume(email, amount)`. On the database path the balance read by `getOrInit` is
      checked, then the row is rewritten; if the row cannot be written (an error, or no row
      because `getOrInit` fell back to memory) the in-memory balance is debited without a
      second check; if the write throws, the in-memory path runs instead. */
  function Consume(l: Ledgers, email: string, amount: int, b: Backend): (r: (Ledgers, CreditResult))
    ensures email == "" ==> r == (l, Refused(EmailRequired))
    ensures email != "" ==> OnlyTouches(l, r.0, email)
    ensures r.1.Refused? && email != "" ==> r.1.error == InsufficientCredits
    ensures email != "" && b.InMemory? ==>
              var current := GetOr(Lookup(l.memory, email), DefaultCredits);
              (current < amount <==> r.1.Refused?) &&
              (current < amount ==> r.0 == l) &&
              (current >= amount ==> r.0 == l.(memory := l.memory[email := current - amount]) &&
                                     r.1 == Granted(current - amount))
  {
    if email == "" then (l, Refused(EmailRequired))
    else match b
      case InMemory => MemoryConsume(l, email, amount)
      case Supabase(f) =>
        var (l1, got) := GetOrInit(l, email, b);
        var current := got.credits;
        if current < amount then (l1, Refused(InsufficientCredits))
        else if f.update == Threw then MemoryConsume(l1, email, amount)
        else if f.update == Applied && email in l1.db then
          (l1.(db := l1.db[email := current - amount]), Granted(current - amount))
        else
          var next := GetOr(Lookup(l1.memory, email), current) - amount;
          (l1.(memory := l1.memory[email := next]), Granted(next))
  }

  /** With a non-negative amount, consuming never drives a balance below zero, except on the
      path where the database reports an error on the update. */
  lemma ConsumeKeepsFloor(l: Ledgers, email: string, amount: int, b: Backend)
    requires NonNegative(l) && amount >= 0
    requires b.InMemory? || b.faults.update != Errored
    ensures NonNegative(Consume(l, email, amount, b).0)
    ensures Consume(l, email, amount, b).1.Granted? ==> Consume(l, email, amount, b).1.credits >= 0
  {
    if email != "" && b.Supabase? {
      var (l1, got) := GetOrInit(l, email, b);
      assert NonNegative(l1);
    }
  }

  /** The update-error fallback debits the in-memory balance, which can be lower than the
      database balance that passed the check: the balance goes negative. */
  lemma UpdateErrorGoesNegative()
    ensures var l := Ledgers(map["a" := 0], map["a" := 2]);
      var r := Consume(l, "a", 1, Supabase(DbFaults(false, false, Errored)));
      r.1 == Granted(-1) && r.0.memory["a"] == -1
  {
  }

  /** On the in-memory path a refused debit leaves every balance as it was. */
  lemma InsufficientChangesNothing(l: Ledgers, email: string, amount: int)
    requires email != "" && GetOr(Lookup(l.memory, email), DefaultCredits) < amount
    ensures Consume(l, email, amount, InMemory) == (l, Refused(InsufficientCredits))
  {
  }

  /** Two in-memory debits of one credit from a fresh email succeed; the third is refused. */
  lemma DefaultAllowsTwoCalls(email: string)
    requires email != ""
    ensures var l0 := Ledgers(map[], map[]);
      var r1 := Consume(l0, email, 1, InMemory);
      var r2 := Consume(r1.0, email, 1, InMemory);
      var r3 := Consume(r2.0, email, 1, InMemory);
      r1.1 == Granted(1) && r2.1 == Granted(0) && r3.1 == Refused(InsufficientCredits)
  {
  }
}

=== FILE: credits_route.dfy ===
/** The `/api/credits` route: reading a balance and debiting it, with the 400/402/500
    status mapping. */
module CreditsRoute {
  import opened Text
  import opened Http
  import opened Credits

  datatype CreditsBody =
    | Balance(credits: int)
    | Refusal(error: string)
    | Failure(error: string)

  /** A `POST` body after JSON parsing; absent keys are `None`. A body that cannot be
      parsed carries the parse error's message, if any. */
  datatype CreditsRequest =
    | Unparseable(message: Option<string>)
    | Request(action: Option<string>, email: Option<string>, amount: Option<int>)

  /** `GET /api/credits?email=…`. */
  function Get(l: Ledgers, email: Option<string>, b: Backend): (r: (Ledgers, Response<CreditsBody>))
    ensures !Truthy(email) ==> r == (l, Response(400, Failure("email required")))
    ensures Truthy(email) ==> r.1.status == 200 && r.1.body.Balance? &&
                              (r.0, Granted(r.1.body.credits)) == GetOrInit(l, email.value, b)
  {
    if !Truthy(email) then (l, Response(400, Failure("email required")))
    else
      var (l1, got) := GetOrInit(l, email.value, b);
      (l1, Response(200, Balance(got.credits)))
  }

  /** The debit amount: `Number(body?.amount ?? 1)`; an explicit 0 stays 0. */
  function Amount(amount: Option<int>): int {
    GetOr(amount, 1)
  }

  /** `POST /api/credits`. */
  function Post(l: Ledgers, req: CreditsRequest, b: Backend): (r: (Ledgers, Response<CreditsBody>))
    ensures req.Unparseable? && Truthy(req.message) ==> r == (l, Response(500, Failure(req.message.value)))
    ensures req.Unparseable? && !Truthy(req.message) ==> r == (l, Response(500, Failure("failed")))
    ensures req.Request? && !Truthy(req.email) ==> r == (l, Response(400, Failure("email required")))
    ensures req.Request? && Truthy(req.email) && req.action != Some("consume") ==>
              r == (l, Response(400, Failure("invalid action")))
    ensures req.Request? && Truthy(req.email) && req.action == Some("consume") ==>
              var (l1, res) := Consume(l, req.email.value, Amount(req.amount), b);
              r.0 == l1 &&
              (res.Granted? ==> r.1 == Response(200, Balance(res.credits))) &&
              (res.Refused? ==> r.1 == Response(402, Refusal("INSUFFICIENT_CREDITS")))
    ensures r.1.status in {200, 400, 402, 500}
  {
    match req
    case Unparseable(message) => (l, Response(500, Failure(OrElse(message, "failed"))))
    case Request(action, email, amount) =>
      if !Truthy(email) then (l, Response(400, Failure("email required")))
      else if action == Some("consume") then
        var (l1, res) := Consume(l, email.value, Amount(amount), b);
        if res.Granted? then (l1, Response(200, Balance(res.credits)))
        else (l1, Response(402, Refusal("INSUFFICIENT_CREDITS")))
      else (l, Response(400, Failure("invalid action")))
  }

  /** A consume request without an amount debits exactly one credit on the in-memory path. */
  lemma DefaultAmountIsOne(l: Ledgers, email: string)
    requires email != "" && GetOr(Lookup(l.memory, email), DefaultCredits) >= 1
    ensures var r := Post(l, Request(Some("consume"), Some(email), None), InMemory);
      r.1.status == 200 && r.1.body.credits == GetOr(Lookup(l.memory, email), DefaultCredits) - 1 &&
      r.0.memory[email] == r.1.body.credits
  {
  }

  /** On the in-memory path a 402 answer comes with an unchanged ledger. */
  lemma PaymentRequiredChangesNothing(l: Ledgers, req: CreditsRequest)
    ensures var r := Post(l, req, InMemory);
      r.1.status == 402 ==> r.0 == l
  {
  }
}

=== FILE: dashboard.dfy ===
/** The dashboard page's own logic: adding a lead, starting a call, synchronising with the
    provider and the CSV export of the call history. */
module Dashboard {
  import opened Text
  import opened Http
  import opened Candidates
  import opened Config
  import Phone
  import History
  import Leads
  import DataRoute
  import Calls
  import Credits
  import Dialing

  // ------------------------------------------------------------------ adding a lead

  /** The lead form's values. */
  datatype Lead = Lead(name: string, email: string, phone: string, tags: seq<string>)

  /** The candidate the page sends: the tags joined into `position`, status "pending". */
  function LeadCandidate(lead: Lead): (r: Candidate)
    ensures r.name == lead.name && r.email == lead.email && r.phone == lead.phone && r.status == "pending"
    ensures r.callResult.None? && r.callStartTime.None? && r.vapiCallId.None? && r.callDuration.None?
  {
    Candidate(0, lead.name, lead.phone, lead.email, Join(lead.tags, ", "), "pending",
              None, None, None, None, None, None, None, None, None, None, None, None, None, None, None, None, None, None)
  }

  /** `handleAddLead`: a `create_candidate` request to the data route. */
  function AddLead(d: AppData, lead: Lead, now: string): (r: (AppData, Response<DataRoute.DataBody>))
    ensures r.1.status == 200 && r.0.config == d.config
    ensures |r.0.candidates| == |d.candidates| + 1 && r.0.candidates[..|d.candidates|] == d.candidates
    ensures var c := r.0.candidates[|d.candidates|];
      c.id == |d.candidates| + 1 && c.status == "pending" && c.name == lead.name && c.phone == lead.phone
  {
    DataRoute.Post(d, DataRoute.CreateCandidate(Some(LeadCandidate(lead))), now)
  }

  /** Tags entered for a new lead come back, in order, among the pieces the leads section
      builds its tag filter from. */
  lemma AddedTagsReachTagFilter(d: AppData, lead: Lead, now: string)
    requires |lead.tags| >= 1 && forall k :: 0 <= k < |lead.tags| ==> Leads.PlainTag(lead.tags[k])
    ensures var after := AddLead(d, lead, now).0.candidates;
      Leads.Pieces(after) == Leads.Pieces(d.candidates) + lead.tags
    ensures forall t :: t in lead.tags ==> t in Leads.AllTags(AddLead(d, lead, now).0.candidates)
  {
    var after := AddLead(d, lead, now).0.candidates;
    assert after == d.candidates + [after[|after| - 1]];
    assert after[|after| - 1].position == Join(lead.tags, ", ");
    Leads.PiecesSnoc(d.candidates, after[|after| - 1]);
    assert Join(lead.tags, ", ") != "" by {
      JoinStartsWithFirst(lead.tags, ", ");
    }
    Leads.TagsRoundTrip(lead.tags);
  }

  lemma {:induction false} JoinStartsWithFirst(parts: seq<string>, sep: string)
    requires |parts| >= 1
    ensures parts[0] <= Join(parts, sep)
  {
  }

  // ------------------------------------------------------------------ starting a call

  /** `startCall`: the shared dialling sequence, without an assistant id. */
  function StartCall(w: Dialing.World, c: Candidate, email: Option<string>, backend: Credits.Backend,
                     reply: Dialing.DialReply, now: string): (r: (Dialing.World, seq<Dialing.Request>, Dialing.Outcome))
    ensures forall k :: 0 <= k < |r.1| && r.1[k].ProviderCall? ==>
              r.1[k] == Dialing.ProviderCall(c.phone, c.name, c.id, None)
    ensures !Truthy(email) ==> r.1 == []
  {
    Dialing.DialNamesLead(w, c, email, backend, None, reply, now);
    Dialing.PlaceCall(w, c, email, backend, None, reply, now)
  }

  // ------------------------------------------------------------------ synchronising

  /** The `/logs` step and then the per-call step, the second one on the table the first
      one left. */
  function SyncFromProvider(table: Store, dbConfigured: bool, keyConfigured: bool, logs: Calls.CallLogs,
                            candidatesQueryFails: bool, selectError: Option<Calls.SelectError>,
                            lookup: string -> Calls.CallLookup, now: string): (r: (Store, Response<Calls.CallsBody>, Response<Calls.CallsBody>))
    ensures var (t1, imported) := Calls.ImportCalls(table, dbConfigured, keyConfigured, logs, candidatesQueryFails, now);
      r.1 == imported && (r.0, r.2) == Calls.SyncCalls(t1, dbConfigured, keyConfigured, selectError, lookup, now)
    ensures |r.0| == |table|
    ensures !dbConfigured ==> r.0 == table && r.1.status == 500 && r.2.status == 500
  {
    var (t1, imported) := Calls.ImportCalls(table, dbConfigured, keyConfigured, logs, candidatesQueryFails, now);
    assert |t1| == |table|;
    var (t2, synced) := Calls.SyncCalls(t1, dbConfigured, keyConfigured, selectError, lookup, now);
    (t2, imported, synced)
  }

  /** The error text a route body carries, if any. */
  function ErrorOf(b: Calls.CallsBody): Option<string> {
    match b
    case Error(e) => Some(e)
    case ColumnMissing(e, _) => Some(e)
    case LogsUnavailable(_, _) => Some(("VAPI /logs " + "endpoint not " + "available or " + "returned error"))
    case _ => None
  }

  /** `importResult.status || 'N/A'`: only the `/logs` failure carries a status. */
  function StatusText(b: Calls.CallsBody): string {
    match b
    case LogsUnavailable(_, status) => if status != 0 then IntToString(status) else "N/A"
    case _ => "N/A"
  }

  /** The line the toast shows for the import answer. */
  function ImportLine(b: Calls.CallsBody): (r: Option<string>)
    ensures b.Imported? ==> r == Some("Import: " + NatToString(b.matched) + " calls matched, " + NatToString(b.updated) + " updated")
    ensures !b.Imported? ==> (r.None? <==> !Truthy(ErrorOf(b)))
  {
    match b
    case Imported(_, matched, updated, _, _) =>
      Some("Import: " + NatToString(matched) + " calls matched, " + NatToString(updated) + " updated")
    case _ =>
      var e := ErrorOf(b);
      if !Truthy(e) then None
      else if Contains(e.value, "not available") then
        Some(("Import: /logs " + "endpoint not " + "available (") + StatusText(b) + "), using individual sync")
      else Some("Import: " + e.value)
  }

  /** The line the toast shows for the sync answer. */
  function SyncLine(b: Calls.CallsBody): (r: Option<string>)
    ensures b.Synced? ==> r == Some("Sync: " + NatToString(b.updated) + " active calls updated")
    ensures !b.Synced? ==> (r.None? <==> !Truthy(ErrorOf(b)))
  {
    if b.Synced? then Some("Sync: " + NatToString(b.updated) + " active calls updated")
    else if Truthy(ErrorOf(b)) then Some("Sync: " + ErrorOf(b).value)
    else None
  }

  function Lines(a: Option<string>, b: Option<string>): seq<string> {
    (if a.Some? then [a.value] else []) + (if b.Some? then [b.value] else [])
  }

  /** The toast description: the lines joined by newlines, or a default text. */
  function SyncToast(imported: Calls.CallsBody, synced: Calls.CallsBody): (r: string)
    ensures ImportLine(imported).None? && SyncLine(synced).None? ==> r == ("Calls have been " + "synced " + "successfully")
    ensures ImportLine(imported).Some? && SyncLine(synced).Some? ==>
              r == ImportLine(imported).value + "\n" + SyncLine(synced).value
    ensures ImportLine(imported).Some? && SyncLine(synced).None? ==> r == ImportLine(imported).value
    ensures ImportLine(imported).None? && SyncLine(synced).Some? ==> r == SyncLine(synced).value
  {
    var lines := Lines(ImportLine(imported), SyncLine(synced));
    assert |lines| == 2 ==> Join(lines, "\n") == lines[0] + "\n" + Join(lines[1..], "\n");
    if |lines| > 0 then Join(lines, "\n") else ("Calls have been " + "synced " + "successfully")
  }

  /** A text without a line break. */
  predicate OneLine(s: string) {
    '\n' !in s
  }

  /** The toast's lines read back from its text: one line per answer that carried a result
      or an error, import first, as long as no error text spans lines. */
  lemma SyncToastLines(imported: Calls.CallsBody, synced: Calls.CallsBody)
    requires ImportLine(imported).Some? || SyncLine(synced).Some?
    requires ErrorOf(imported).Some? ==> OneLine(ErrorOf(imported).value)
    requires ErrorOf(synced).Some? ==> OneLine(ErrorOf(synced).value)
    ensures Split(SyncToast(imported, synced), '\n') == Lines(ImportLine(imported), SyncLine(synced))
  {
    var lines := Lines(ImportLine(imported), SyncLine(synced));
    ImportLineOneLine(imported);
    SyncLineOneLine(synced);
    SplitJoin(lines, '\n');
  }

  lemma NumberOneLine(n: nat)
    ensures OneLine(NatToString(n)) && OneLine(IntToString(n))
  {
    var s := NatToString(n);
    assert forall i :: 0 <= i < |s| ==> s[i] != '\n';
  }

  lemma ImportLineOneLine(b: Calls.CallsBody)
    requires ErrorOf(b).Some? ==> OneLine(ErrorOf(b).value)
    ensures ImportLine(b).Some? ==> OneLine(ImportLine(b).value)
  {
    if b.Imported? {
      NumberOneLine(b.matched);
      NumberOneLine(b.updated);
    } else if Truthy(ErrorOf(b)) {
      StatusOneLine(b);
      ErrorLineOneLine(b, ErrorOf(b).value);
    }
  }

  lemma ErrorLineOneLine(b: Calls.CallsBody, e: string)
    requires !b.Imported? && ErrorOf(b) == Some(e) && e != ""
    requires OneLine(e) && OneLine(StatusText(b))
    ensures OneLine(ImportLine(b).value)
  {
    var head := ("Import: /logs " + "endpoint not " + "available (");
    var tail := "), using individual sync";
    OneLineAppend(head, StatusText(b));
    OneLineAppend(head + StatusText(b), tail);
    OneLineAppend("Import: ", e);
    assert ImportLine(b) == Some(if Contains(e, "not available") then head + StatusText(b) + tail else "Import: " + e);
  }

  lemma OneLineAppend(a: string, b: string)
    requires OneLine(a) && OneLine(b)
    ensures OneLine(a + b)
  {
  }

  lemma StatusOneLine(b: Calls.CallsBody)
    ensures OneLine(StatusText(b))
  {
    if b.LogsUnavailable? && b.providerStatus > 0 {
      NumberOneLine(b.providerStatus);
    } else if b.LogsUnavailable? && b.providerStatus < 0 {
      NumberOneLine(-b.providerStatus);
    }
  }

  lemma SyncLineOneLine(b: Calls.CallsBody)
    requires ErrorOf(b).Some? ==> OneLine(ErrorOf(b).value)
    ensures SyncLine(b).Some? ==> OneLine(SyncLine(b).value)
  {
    if b.Synced? {
      NumberOneLine(b.updated);
    }
  }

  // ------------------------------------------------------------------ CSV export

  const Headers: seq<string> := ["Lead", "Number", "Outcome", "Duration", "Agent", "Time"]

  /** `getOutcome` in the export: the evaluation in capitals, else a verdict read from the
      ended reason, else "Unknown". */
  function ExportOutcome(c: Candidate): (r: string)
    ensures Truthy(c.successEvaluation) ==> r == Upper(c.successEvaluation.value)
    ensures !Truthy(c.successEvaluation) ==> r in {"Completed", "Failed", "Unknown"}
  {
    if Truthy(c.successEvaluation) then Upper(c.successEvaluation.value)
    else if Truthy(c.endedReason) then
      var reason := c.endedReason.value;
      if Contains(reason, "completed") || Contains(reason, "customer-ended") then "Completed"
      else if Contains(reason, "not-answer") || Contains(reason, "timeout") then "Failed"
      else "Unknown"
    else "Unknown"
  }

  /** The export and the call history section label every call alike. */
  lemma ExportOutcomeIsBadgeText(c: Candidate)
    ensures ExportOutcome(c) == History.OutcomeBadge(c).text
  {
  }

  /** One exported row. The locale-dependent date format is a parameter. */
  function ExportRow(c: Candidate, formatTime: string -> string): (r: seq<string>)
    ensures |r| == |Headers|
    ensures r[0] == (if c.name != "" then c.name else "-") && r[1] == Phone.FormatPhoneForDisplay(c.phone)
    ensures r[2] == ExportOutcome(c) && r[3] == History.FormatDuration(c.callDuration)
    ensures r[4] == OrElse(c.assistantName, "Unknown")
    ensures r[5] == (if Truthy(c.callStartTime) then formatTime(c.callStartTime.value) else "-")
  {
    [if c.name != "" then c.name else "-",
     Phone.FormatPhoneForDisplay(c.phone),
     ExportOutcome(c),
     History.FormatDuration(c.callDuration),
     OrElse(c.assistantName, "Unknown"),
     if Truthy(c.callStartTime) then formatTime(c.callStartTime.value) else "-"]
  }

  /** A cell between double quotes, as the page writes it: inner quotes are kept as they are. */
  function QuoteAsWritten(cell: string): string {
    "\"" + cell + "\""
  }

  /** The page's line: every cell between quotes, separated by commas. It agrees with the
      corrected `Line` whenever no cell holds a double quote. */
  function LineAsWritten(row: seq<string>): (r: string)
    ensures (forall k :: 0 <= k < |row| ==> '"' !in row[k]) ==> r == Line(row)
  {
    var cells := seq(|row|, k requires 0 <= k < |row| => QuoteAsWritten(row[k]));
    assert (forall k :: 0 <= k < |row| ==> '"' !in row[k]) ==> cells == Quoted(row) by {
      if forall k :: 0 <= k < |row| ==> '"' !in row[k] {
        forall k | 0 <= k < |row| ensures cells[k] == Quoted(row)[k] {
          EscapeNoQuote(row[k]);
        }
      }
    }
    Join(cells, ",")
  }

  /** A cell without a double quote is escaped as itself. */
  lemma {:induction false} EscapeNoQuote(cell: string)
    requires '"' !in cell
    ensures Escape(cell) == cell
    decreases |cell|
  {
    if |cell| > 0 {
      EscapeNoQuote(cell[1..]);
      assert [cell[0]] + cell[1..] == cell;
    }
  }

  /** With quotes kept as they are, a one-cell row and a two-cell row are written as the
      same line, so the file cannot be read back. */
  lemma QuotesCollide()
    ensures LineAsWritten(["a\",\"b"]) == LineAsWritten(["a", "b"])
    ensures ["a\",\"b"] != ["a", "b"]
  {
    var one := seq(1, k requires 0 <= k < 1 => QuoteAsWritten(["a\",\"b"][k]));
    var two := seq(2, k requires 0 <= k < 2 => QuoteAsWritten(["a", "b"][k]));
    assert one[0] == QuoteAsWritten("a\",\"b");
    assert two[0] == QuoteAsWritten("a") && two[1] == QuoteAsWritten("b");
    assert Join(two, ",") == two[0] + "," + Join(two[1..], ",");
    assert two[1..] == [two[1]];
    assert Join(one, ",") == one[0];
    assert one[0] == two[0] + "," + two[1];
  }

  /** Section 2 of RFC 4180: a quote inside a quoted field is written twice. */
  function Escape(cell: string): (r: string)
    ensures |r| >= |cell|
    ensures forall c :: c in r ==> c in cell
    decreases |cell|
  {
    if |cell| == 0 then ""
    else (if cell[0] == '"' then "\"\"" else [cell[0]]) + Escape(cell[1..])
  }

  function Quote(cell: string): string {
    "\"" + Escape(cell) + "\""
  }

  function Quoted(row: seq<string>): (r: seq<string>)
    ensures |r| == |row| && forall k :: 0 <= k < |row| ==> r[k] == Quote(row[k])
  {
    seq(|row|, k requires 0 <= k < |row| => Quote(row[k]))
  }

  /** One exported line: every cell quoted, separated by commas. */
  function Line(row: seq<string>): string {
    Join(Quoted(row), ",")
  }

  /** The export with every cell quoted as section 2 of RFC 4180 requires: the header line,
      then one line per call, joined by newlines. This is the corrected form of the page's
      `exportCSV`, whose lines are `LineAsWritten`; the two agree whenever no cell holds a
      double quote. */
  function ExportCsv(calls: Store, formatTime: string -> string): (r: string)
    ensures Join(Headers, ",") <= r
  {
    JoinStartsWithFirst([Join(Headers, ",")] + seq(|calls|, k requires 0 <= k < |calls| => Line(ExportRow(calls[k], formatTime))), "\n");
    Join([Join(Headers, ",")] + seq(|calls|, k requires 0 <= k < |calls| => Line(ExportRow(calls[k], formatTime))), "\n")
  }

  /** Reading a quoted field per RFC 4180, from just after its opening quote: the field's
      value and what follows its closing quote. */
  function ReadQuoted(t: string): (r: Option<(string, string)>)
    ensures r.Some? ==> |r.value.1| < |t|
    decreases |t|
  {
    if |t| == 0 then None
    else if t[0] == '"' then
      if |t| >= 2 && t[1] == '"' then
        match ReadQuoted(t[2..])
        case None => None
        case Some((v, rest)) => Some(("\"" + v, rest))
      else Some(("", t[1..]))
    else
      match ReadQuoted(t[1..])
      case None => None
      case Some((v, rest)) => Some(([t[0]] + v, rest))
  }

  /** Reading a line of quoted fields separated by commas. */
  function ReadLine(t: string): Option<seq<string>>
    decreases |t|
  {
    if |t| == 0 || t[0] != '"' then None
    else
      match ReadQuoted(t[1..])
      case None => None
      case Some((v, rest)) =>
        if rest == "" then Some([v])
        else if rest[0] != ',' then None
        else
          match ReadLine(rest[1..])
          case None => None
          case Some(vs) => Some([v] + vs)
  }

  /** An escaped cell followed by its closing quote reads back as the cell. */
  lemma {:induction false} ReadEscaped(cell: string, tail: string)
    requires tail == "" || tail[0] != '"'
    ensures ReadQuoted(Escape(cell) + "\"" + tail) == Some((cell, tail))
    decreases |cell|
  {
    var t := Escape(cell) + "\"" + tail;
    if |cell| == 0 {
      assert t == "\"" + tail;
      assert t[1..] == tail;
    } else {
      ReadEscaped(cell[1..], tail);
      var inner := Escape(cell[1..]) + "\"" + tail;
      if cell[0] == '"' {
        assert t == "\"\"" + inner;
        assert t[2..] == inner;
      } else {
        assert t == [cell[0]] + inner;
        assert t[1..] == inner;
      }
      assert [cell[0]] + cell[1..] == cell;
    }
  }

  /** Every exported line reads back as its row of cells. */
  lemma {:induction false} LineReadsBack(row: seq<string>)
    requires |row| >= 1
    ensures ReadLine(Line(row)) == Some(row)
    decreases |row|
  {
    var q := Quoted(row);
    if |row| == 1 {
      ReadEscaped(row[0], "");
      var t := "\"" + (Escape(row[0]) + "\"" + "");
      assert Line(row) == t;
      assert t[1..] == Escape(row[0]) + "\"" + "";
      assert ReadLine(t) == Some([row[0]]);
      assert [row[0]] == row;
    } else {
      LineReadsBack(row[1..]);
      assert Quoted(row[1..]) == q[1..];
      var rest := Line(row[1..]);
      var t := "\"" + (Escape(row[0]) + "\"" + ("," + rest));
      assert Line(row) == t;
      assert t[1..] == Escape(row[0]) + "\"" + ("," + rest);
      ReadEscaped(row[0], "," + rest);
      assert ("," + rest)[1..] == rest;
      assert [row[0]] + row[1..] == row;
    }
  }

  /** A text without line breaks quotes into a line without line breaks. */
  lemma LineOneLine(row: seq<string>)
    requires forall k :: 0 <= k < |row| ==> OneLine(row[k])
    ensures OneLine(Line(row))
  {
    var q := Quoted(row);
    forall k | 0 <= k < |q| ensures OneLine(q[k]) {
      assert forall c :: c in Escape(row[k]) ==> c in row[k];
    }
    JoinOneLine(q, ",");
  }

  lemma {:induction false} JoinOneLine(parts: seq<string>, sep: string)
    requires OneLine(sep) && forall k :: 0 <= k < |parts| ==> OneLine(parts[k])
    ensures OneLine(Join(parts, sep))
    decreases |parts|
  {
    if |parts| > 1 {
      JoinOneLine(parts[1..], sep);
    }
  }

  /** The export reads back: its first line is the header and, when no cell spans lines,
      each further line reads back as the row of the call at that place. */
  lemma ExportReadsBack(calls: Store, formatTime: string -> string)
    requires forall k, j :: 0 <= k < |calls| && 0 <= j < |Headers| ==> OneLine(ExportRow(calls[k], formatTime)[j])
    ensures var lines := Split(ExportCsv(calls, formatTime), '\n');
      |lines| == |calls| + 1 && lines[0] == "Lead,Number,Outcome,Duration,Agent,Time" &&
      forall k :: 0 <= k < |calls| ==> ReadLine(lines[k + 1]) == Some(ExportRow(calls[k], formatTime))
  {
    var body := seq(|calls|, k requires 0 <= k < |calls| => Line(ExportRow(calls[k], formatTime)));
    var parts := [Join(Headers, ",")] + body;
    forall k | 0 <= k < |body| ensures OneLine(body[k]) {
      LineOneLine(ExportRow(calls[k], formatTime));
    }
    assert Join(Headers, ",") == "Lead,Number,Outcome,Duration,Agent,Time" by {
      HeaderLine();
    }
    SplitJoin(parts, '\n');
    forall k | 0 <= k < |calls| ensures ReadLine(parts[k + 1]) == Some(ExportRow(calls[k], formatTime)) {
      LineReadsBack(ExportRow(calls[k], formatTime));
    }
  }

  lemma HeaderLine()
    ensures Join(Headers, ",") == "Lead,Number,Outcome,Duration,Agent,Time"
  {
    assert Headers[1..][1..][1..][1..][1..] == ["Time"];
  }
}

=== FILE: data_route.dfy ===
/** The `/api/data` route: export and listing on `GET`, and the import, create, save, clear
    and delete actions on `POST`, all against the in-memory stores. */
module DataRoute {
  import opened Text
  import opened Http
  import opened Candidates
  import opened Config

  datatype DataBody =
    | Exported(data: Export, message: string)
    | Listed(candidates: Store, message: string)
    | CreatedOne(candidate: Candidate, message: string)
    | Done(message: string)
    | Failed(error: string)

  /** A `POST` body after JSON parsing. A payload is `None` when it is missing (or, for the
      id list, not an array). */
  datatype DataRequest =
    | Unparseable
    | ImportAction(data: Option<ImportPayload>)
    | CreateCandidate(candidate: Option<Candidate>)
    | SaveCandidates(candidates: Option<seq<Candidate>>)
    | ClearAll
    | DeleteCandidates(candidateIds: Option<seq<int>>)
    | OtherAction(action: Option<string>)

  /** `GET /api/data?action=…`; the action defaults to "export" when missing or empty. */
  function Get(d: AppData, action: Option<string>, now: string): (r: Response<DataBody>)
    ensures OrElse(action, "export") == "export" ==> r.status == 200 && r.body.Exported? && r.body.data.candidates == d.candidates
    ensures OrElse(action, "export") == "candidates" ==> r.status == 200 && r.body == Listed(d.candidates, ("Candidates " + "retrieved " + "successfully"))
    ensures OrElse(action, "export") !in {"export", "candidates"} ==> r.status == 400
  {
    var a := OrElse(action, "export");
    if a == "export" then Response(200, Exported(ExportData(d, now), "Data exported successfully"))
    else if a == "candidates" then Response(200, Listed(d.candidates, ("Candidates " + "retrieved " + "successfully")))
    else Response(400, Failed("Invalid action"))
  }

  /** `POST /api/data`. */
  function Post(d: AppData, req: DataRequest, now: string): (r: (AppData, Response<DataBody>))
    ensures r.1.status != 200 ==> r.0 == d
    ensures r.1.status in {200, 400, 500}
    ensures req.ClearAll? ==> r.0 == AppData([], None) && r.1.status == 200
    ensures req.DeleteCandidates? ==>
              (r.1.status == 200 <==> req.candidateIds.Some? && |req.candidateIds.value| > 0)
    ensures req.DeleteCandidates? && r.1.status == 200 ==>
              r.0.config == d.config &&
              (forall j :: 0 <= j < |r.0.candidates| ==> r.0.candidates[j].id !in req.candidateIds.value) &&
              (forall j :: 0 <= j < |d.candidates| && d.candidates[j].id !in req.candidateIds.value ==> d.candidates[j] in r.0.candidates)
  {
    match req
    case Unparseable => (d, Response(500, Failed(("Failed to process " + "data request"))))
    case ImportAction(data) =>
      if data.None? then (d, Response(400, Failed("Data is required for import")))
      else (ImportData(d, data.value, now), Response(200, Done("Data imported successfully")))
    case CreateCandidate(c) =>
      if c.None? then (d, Response(400, Failed("Candidate data is required")))
      else
        var (s, rec) := Create(d.candidates, c.value, now);
        (d.(candidates := s), Response(200, CreatedOne(rec, ("Candidate created " + "successfully"))))
    case SaveCandidates(cs) =>
      if cs.None? then (d, Response(400, Failed("Candidates data is required")))
      else (d.(candidates := CreateMany(d.candidates, cs.value, now).0), Response(200, Done("Candidates saved successfully")))
    case ClearAll => (ClearAllData(d), Response(200, Done("All data cleared successfully")))
    case DeleteCandidates(ids) =>
      if ids.None? || |ids.value| == 0 then (d, Response(400, Failed("Candidate IDs are required")))
      else
        (d.(candidates := DeleteMany(d.candidates, ids.value)),
         Response(200, Done(IntToString(|ids.value|) + (" candidate(s) " + "deleted " + "successfully"))))
    case OtherAction(_) => (d, Response(400, Failed("Invalid action")))
  }

  /** A rejected request changes neither store: each missing payload gives 400. */
  lemma MissingPayloadRejected(d: AppData, now: string)
    ensures Post(d, ImportAction(None), now) == (d, Response(400, Failed("Data is required for import")))
    ensures Post(d, CreateCandidate(None), now).1.status == 400
    ensures Post(d, SaveCandidates(None), now).1.status == 400
    ensures Post(d, DeleteCandidates(Some([])), now).1.status == 400
  {
  }

  /** Saving candidates through the route appends them behind the existing ones. */
  lemma SaveAppends(d: AppData, cs: seq<Candidate>, now: string)
    ensures var r := Post(d, SaveCandidates(Some(cs)), now);
      r.1.status == 200 && |r.0.candidates| == |d.candidates| + |cs| &&
      r.0.candidates[..|d.candidates|] == d.candidates
  {
  }
}

=== FILE: dialing.dfy ===
/** Placing a call from the browser, as the dashboard and the campaign dialog both do it:
    debit one credit, then mark the lead as calling, then ask the provider to dial. The
    server answers come from the modelled routes; the provider's answer is an input. */
module Dialing {
  import opened Text
  import opened Http
  import opened Candidates
  import opened Credits
  import CreditsRoute
  import Calls

  /** The requests the browser sends, in order. */
  datatype Request =
    | ConsumeCredit(email: string)
    | StartCallRequest(candidateId: int)
    | ProviderCall(phone: string, name: string, candidateId: int, assistantId: Option<string>)

  /** How an attempt ends for the user. */
  datatype Outcome =
    | SignInRequired
    | NoCredits
    | CreditCheckFailed
    | CallPlaced
    | CallFailed(error: string)

  /** The server-side state an attempt touches: the credit ledger and the candidate store. */
  datatype World = World(ledger: Ledgers, store: Store)

  /** The provider call route's answer: success, or failure with an optional error text. */
  datatype DialReply = Dialed | DialRefused(error: Option<string>)

  /** The debit request: `{action: 'consume', email}` with no amount. */
  function Debit(w: World, email: string, backend: Backend): (Ledgers, Response<CreditsRoute.CreditsBody>) {
    CreditsRoute.Post(w.ledger, CreditsRoute.Request(Some("consume"), Some(email), None), backend)
  }

  /** A refused debit reported as "INSUFFICIENT_CREDITS". */
  predicate OutOfCredits(body: CreditsRoute.CreditsBody) {
    !body.Balance? && body.error == "INSUFFICIENT_CREDITS"
  }

  /** One attempt. Without an e-mail address nothing is sent; a failed debit stops before
      the call; after a debit the start and the dial are both sent, whatever the start
      returned, and nothing gives the credit back. */
  function PlaceCall(w: World, c: Candidate, email: Option<string>, backend: Backend,
                     assistantId: Option<string>, reply: DialReply, now: string): (r: (World, seq<Request>, Outcome))
    ensures !Truthy(email) ==> r == (w, [], SignInRequired)
    ensures Truthy(email) ==>
              var (ledger, answer) := Debit(w, email.value, backend);
              r.0.ledger == ledger && |r.1| >= 1 && r.1[0] == ConsumeCredit(email.value) &&
              (Success(answer) <==> |r.1| == 3) &&
              (!Success(answer) ==> |r.1| == 1 && r.0.store == w.store &&
                                    (r.2 == NoCredits <==> OutOfCredits(answer.body)) &&
                                    (r.2 == NoCredits || r.2 == CreditCheckFailed)) &&
              (Success(answer) ==>
                 r.1[1] == StartCallRequest(c.id) &&
                 r.1[2] == ProviderCall(c.phone, c.name, c.id, assistantId) &&
                 r.0.store == Calls.PostQueue(w.store, Calls.StartCall(Some(c.id)), now).0 &&
                 (r.2 == CallPlaced <==> reply.Dialed?))
  {
    if !Truthy(email) then (w, [], SignInRequired)
    else
      var (ledger, answer) := Debit(w, email.value, backend);
      if !Success(answer) then
        (w.(ledger := ledger), [ConsumeCredit(email.value)], if OutOfCredits(answer.body) then NoCredits else CreditCheckFailed)
      else
        var (store, _) := Calls.PostQueue(w.store, Calls.StartCall(Some(c.id)), now);
        var outcome := match reply
          case Dialed => CallPlaced
          case DialRefused(e) => CallFailed(OrElse(e, "Failed to initiate call"));
        (World(ledger, store), [ConsumeCredit(email.value), StartCallRequest(c.id), ProviderCall(c.phone, c.name, c.id, assistantId)], outcome)
  }

  /** The dial request is only ever sent as the third request, after a debit that the
      ledger granted. */
  lemma DialOnlyAfterDebit(w: World, c: Candidate, email: Option<string>, backend: Backend,
                           assistantId: Option<string>, reply: DialReply, now: string, k: int)
    requires var r := PlaceCall(w, c, email, backend, assistantId, reply, now);
      0 <= k < |r.1| && r.1[k].ProviderCall?
    ensures Truthy(email) && k == 2
    ensures var r := PlaceCall(w, c, email, backend, assistantId, reply, now);
      r.1[0] == ConsumeCredit(email.value) && r.1[1] == StartCallRequest(c.id)
    ensures Debit(w, email.value, backend).1.status == 200 &&
            Debit(w, email.value, backend).1.body.Balance?
  {
    PlaceCallRequests(w, c, email, backend, assistantId, reply, now);
  }

  /** On the in-memory ledger, a user without a credit left is never dialled and nothing
      changes but the recorded balance. */
  lemma NoCreditNoDial(w: World, c: Candidate, email: string, assistantId: Option<string>, reply: DialReply, now: string)
    requires email != "" && GetOr(Lookup(w.ledger.memory, email), DefaultCredits) < 1
    ensures var r := PlaceCall(w, c, Some(email), InMemory, assistantId, reply, now);
      r == (w, [ConsumeCredit(email)], NoCredits)
  {
  }

  /** On the in-memory ledger, every dial costs exactly one credit, kept even when the
      provider refuses the call. */
  lemma DialCostsOneCredit(w: World, c: Candidate, email: string, assistantId: Option<string>, reply: DialReply, now: string)
    requires email != "" && GetOr(Lookup(w.ledger.memory, email), DefaultCredits) >= 1
    ensures var r := PlaceCall(w, c, Some(email), InMemory, assistantId, reply, now);
      |r.1| == 3 && r.1[2].ProviderCall? &&
      r.0.ledger.memory == w.ledger.memory[email := GetOr(Lookup(w.ledger.memory, email), DefaultCredits) - 1] &&
      r.0.ledger.db == w.ledger.db
  {
    CreditsRoute.DefaultAmountIsOne(w.ledger, email);
  }

  /** A granted debit marks a queued lead as calling before the dial is sent. */
  lemma DialMarksCalling(w: World, c: Candidate, email: string, backend: Backend,
                         assistantId: Option<string>, reply: DialReply, now: string)
    requires email != "" && Success(Debit(w, email, backend).1)
    requires Calls.FindQueued(w.store, Some(c.id)).Some?
    ensures var r := PlaceCall(w, c, Some(email), backend, assistantId, reply, now);
      exists j :: 0 <= j < |r.0.store| && r.0.store[j].id == c.id && r.0.store[j].status == "calling"
  {
    var r := PlaceCall(w, c, Some(email), backend, assistantId, reply, now);
    var store := Calls.PostQueue(w.store, Calls.StartCall(Some(c.id)), now).0;
    assert r.0.store == store;
    Calls.StartCallMarksCalling(w.store, c.id, now);
    var i := IndexOf(w.store, c.id);
    assert store[i].id == c.id && store[i].status == "calling";
  }

  /** The dial request names the lead being called and the assistant chosen. */
  lemma DialNamesLead(w: World, c: Candidate, email: Option<string>, backend: Backend,
                      assistantId: Option<string>, reply: DialReply, now: string)
    ensures var r := PlaceCall(w, c, email, backend, assistantId, reply, now);
      forall k :: 0 <= k < |r.1| && r.1[k].ProviderCall? ==> r.1[k] == ProviderCall(c.phone, c.name, c.id, assistantId)
  {
    PlaceCallRequests(w, c, email, backend, assistantId, reply, now);
  }

  /** The requests a dial sends, by how far it gets. */
  lemma PlaceCallRequests(w: World, c: Candidate, email: Option<string>, backend: Backend,
                          assistantId: Option<string>, reply: DialReply, now: string)
    ensures PlaceCall(w, c, email, backend, assistantId, reply, now).1 ==
      if !Truthy(email) then []
      else if !Success(Debit(w, email.value, backend).1) then [ConsumeCredit(email.value)]
      else [ConsumeCredit(email.value), StartCallRequest(c.id), ProviderCall(c.phone, c.name, c.id, assistantId)]
  {
  }
}

=== FILE: history.dfy ===
/** The call-history views: duration and label formatting, badge colours and the search
    filter of the history tab and the call-history section, and the row toggle that loads
    call details. */
module History {
  import opened Text
  import opened Candidates

  // ------------------------------------------------------------------ durations

  /** JavaScript's `a % b`: the remainder takes the sign of the dividend. */
  function JsRem(a: int, b: int): (r: int)
    requires b > 0
    ensures a >= 0 ==> r == a % b
    ensures a < 0 ==> -b < r <= 0
  {
    if a >= 0 then a % b else -((-a) % b)
  }

  /** `${Math.floor(s / 60)}m ${s % 60}s`; Dafny's `/` by a positive divisor is floor division. */
  function MinSec(s: int): string {
    IntToString(s / 60) + "m " + IntToString(JsRem(s, 60)) + "s"
  }

  /** `formatDuration`: "-" for a missing or zero duration. */
  function FormatDuration(seconds: Option<int>): (r: string)
    ensures seconds.None? || seconds == Some(0) ==> r == "-"
  {
    if seconds.None? || seconds.value == 0 then "-" else MinSec(seconds.value)
  }

  predicate AllDigits(s: string) {
    forall i :: 0 <= i < |s| ==> IsDigit(s[i])
  }

  /** Reads "<digits><unit>" back as the number the digits spell. */
  function ReadUnit(a: string, unit: char): Option<int> {
    if |a| >= 2 && a[|a| - 1] == unit && AllDigits(a[..|a| - 1]) then Some(ParseNat(a[..|a| - 1])) else None
  }

  /** Reads "<m>m <s>s" back as a number of seconds. */
  function ReadDuration(r: string): Option<int> {
    ReadPieces(Split(r, ' '))
  }

  /** The pieces "<m>m" and "<s>s" of a duration read back as seconds. */
  function ReadPieces(parts: seq<string>): Option<int> {
    if |parts| != 2 then None
    else
      var minutes := ReadUnit(parts[0], 'm');
      var seconds := ReadUnit(parts[1], 's');
      if minutes.Some? && seconds.Some? then Some(minutes.value * 60 + seconds.value) else None
  }

  /** A positive duration is shown as whole minutes and the remaining seconds, and the text
      reads back as the same number of seconds. */
  lemma DurationReadsBack(s: int)
    requires s > 0
    ensures ReadDuration(FormatDuration(Some(s))) == Some(s)
  {
    var mins, secs := s / 60, s % 60;
    assert mins * 60 + secs == s;
    var q, m := NatToString(mins), NatToString(secs);
    ParseNatToString(mins);
    ParseNatToString(secs);
    ReadUnitOf(q, 'm');
    ReadUnitOf(m, 's');
    ReadPiecesOf(q + ['m'], m + ['s'], mins, secs);
    ReadParts(q, m);
    assert FormatDuration(Some(s)) == q + "m " + m + "s";
  }

  /** "<q>m <m>s" reads back through its two pieces. */
  lemma ReadParts(q: string, m: string)
    requires AllDigits(q) && AllDigits(m)
    ensures ReadDuration(q + "m " + m + "s") == ReadPieces([q + ['m'], m + ['s']])
  {
    SplitDuration(q, m);
  }

  /** "<q>m <m>s" splits at its one space. */
  lemma SplitDuration(q: string, m: string)
    requires AllDigits(q) && AllDigits(m)
    ensures Split(q + "m " + m + "s", ' ') == [q + ['m'], m + ['s']]
  {
    var a := q + ['m'];
    var b := m + ['s'];
    assert q + "m " + m + "s" == a + [' '] + b;
    assert ' ' !in a by {
      forall i | 0 <= i < |a| ensures a[i] != ' ' {
        if i < |q| { assert IsDigit(q[i]); }
      }
    }
    assert ' ' !in b by {
      forall i | 0 <= i < |b| ensures b[i] != ' ' {
        if i < |m| { assert IsDigit(m[i]); }
      }
    }
    SplitAtSep(a, b, ' ');
    SplitNoSep(b, ' ');
    assert [a] + [b] == [a, b];
  }

  /** A minutes piece and a seconds piece read as their total in seconds. */
  lemma ReadPiecesOf(a: string, b: string, x: int, y: int)
    requires ReadUnit(a, 'm') == Some(x) && ReadUnit(b, 's') == Some(y)
    ensures ReadPieces([a, b]) == Some(x * 60 + y)
  {
    var parts := [a, b];
    assert parts[0] == a && parts[1] == b;
  }

  /** Digits followed by the unit read back as the digits' value. */
  lemma ReadUnitOf(q: string, unit: char)
    requires |q| >= 1 && AllDigits(q)
    ensures ReadUnit(q + [unit], unit) == Some(ParseNat(q))
  {
    assert (q + [unit])[..|q|] == q;
  }

  // ------------------------------------------------------------------ labels

  /** Every piece capitalised. */
  function CapitalizeAll(parts: seq<string>): (r: seq<string>)
    ensures |r| == |parts| && forall k :: 0 <= k < |parts| ==> r[k] == Capitalize(parts[k])
  {
    seq(|parts|, k requires 0 <= k < |parts| => Capitalize(parts[k]))
  }

  /** `formatEndedReason`: the dash-separated words capitalised and joined by spaces. */
  function FormatEndedReason(reason: Option<string>): (r: string)
    ensures !Truthy(reason) ==> r == "-"
  {
    if !Truthy(reason) then "-" else Join(CapitalizeAll(Split(reason.value, '-')), " ")
  }

  /** `formatCallType`: the first letter upper-cased. */
  function FormatCallType(t: Option<string>): (r: string)
    ensures !Truthy(t) ==> r == "-"
    ensures Truthy(t) ==> |r| == |t.value| && r[0] == UpperChar(t.value[0]) && r[1..] == t.value[1..]
  {
    if !Truthy(t) then "-" else Capitalize(t.value)
  }

  /** The text with every dash read as a space. */
  function Dashes(s: string): (r: string)
    ensures |r| == |s|
    ensures forall i :: 0 <= i < |s| ==> r[i] == (if s[i] == '-' then ' ' else s[i])
  {
    seq(|s|, i requires 0 <= i < |s| => if s[i] == '-' then ' ' else s[i])
  }

  lemma {:induction false} JoinSplitDashes(s: string)
    ensures Join(Split(s, '-'), " ") == Dashes(s)
    decreases |s|
  {
    if |s| > 0 {
      var rest := Split(s[1..], '-');
      JoinSplitDashes(s[1..]);
      assert Dashes(s) == [Dashes(s)[0]] + Dashes(s[1..]);
      if s[0] == '-' {
        assert Split(s, '-') == [""] + rest;
        JoinPrependEmpty(rest);
      } else {
        assert Split(s, '-') == [[s[0]] + rest[0]] + rest[1..];
        JoinPrependChar(s[0], rest);
      }
    }
  }

  /** An empty first piece puts a separator in front. */
  lemma JoinPrependEmpty(rest: seq<string>)
    requires |rest| >= 1
    ensures Join([""] + rest, " ") == " " + Join(rest, " ")
  {
    assert ([""] + rest)[1..] == rest;
  }

  /** A character glued to the first piece comes first in the joined text. */
  lemma JoinPrependChar(c: char, rest: seq<string>)
    requires |rest| >= 1
    ensures Join([[c] + rest[0]] + rest[1..], " ") == [c] + Join(rest, " ")
  {
    if |rest| == 1 {
      assert [[c] + rest[0]] + rest[1..] == [[c] + rest[0]];
    } else {
      JoinPrependCharMany(c, rest);
    }
  }

  lemma JoinPrependCharMany(c: char, rest: seq<string>)
    requires |rest| > 1
    ensures Join([[c] + rest[0]] + rest[1..], " ") == [c] + Join(rest, " ")
  {
    var head := [c] + rest[0];
    var parts := [head] + rest[1..];
    var tail := Join(rest[1..], " ");
    assert parts[0] == head && parts[1..] == rest[1..];
    assert head + " " + tail == [c] + (rest[0] + " " + tail);
  }

  lemma LowerAppend(a: string, b: string)
    ensures Lower(a + b) == Lower(a) + Lower(b)
  {
    assert forall i :: 0 <= i < |a + b| ==> Lower(a + b)[i] == (Lower(a) + Lower(b))[i];
  }

  lemma LowerCapitalize(w: string)
    ensures Lower(Capitalize(w)) == Lower(w)
  {
    var c := Capitalize(w);
    forall i | 0 <= i < |w|
      ensures Lower(c)[i] == Lower(w)[i]
    {
      if i == 0 {
        LowerUpper(w[0]);
      } else {
        assert c[i] == w[i];
      }
    }
  }

  /** Lower-casing an upper-cased letter gives the lower-cased letter. */
  lemma LowerUpper(x: char)
    ensures LowerChar(UpperChar(x)) == LowerChar(x)
  {
  }

  /** Lower-casing the joined capitalised pieces is lower-casing the joined pieces. */
  lemma {:induction false} LowerJoinCapitalized(parts: seq<string>)
    ensures Lower(Join(CapitalizeAll(parts), " ")) == Lower(Join(parts, " "))
    decreases |parts|
  {
    var caps := CapitalizeAll(parts);
    if |parts| == 1 {
      LowerCapitalize(parts[0]);
    } else if |parts| > 1 {
      LowerJoinCapitalized(parts[1..]);
      assert caps[1..] == CapitalizeAll(parts[1..]);
      LowerAppend(caps[0] + " ", Join(caps[1..], " "));
      LowerAppend(caps[0], " ");
      LowerAppend(parts[0] + " ", Join(parts[1..], " "));
      LowerAppend(parts[0], " ");
      LowerCapitalize(parts[0]);
    }
  }

  /** Formatting an ended reason only turns dashes into spaces and changes letter case:
      in lower case it is the reason with its dashes read as spaces. */
  lemma EndedReasonReadsBack(reason: string)
    requires reason != ""
    ensures Lower(FormatEndedReason(Some(reason))) == Lower(Dashes(reason))
    ensures |FormatEndedReason(Some(reason))| == |reason|
  {
    LowerJoinCapitalized(Split(reason, '-'));
    JoinSplitDashes(reason);
  }

  // ------------------------------------------------------------------ colours and badges

  /** The badge variants the views use. */
  datatype Variant = Default | Destructive | Secondary

  /** `getEndedReasonColor`: a finished-looking reason before a failed-looking one. */
  function EndedReasonColor(reason: Option<string>): (r: Variant)
    ensures r == Default <==> Truthy(reason) && (Contains(reason.value, "customer-ended") || Contains(reason.value, "completed"))
    ensures r == Destructive <==>
              Truthy(reason) && !Contains(reason.value, "customer-ended") && !Contains(reason.value, "completed") &&
              (Contains(reason.value, "not-answer") || Contains(reason.value, "timeout"))
  {
    if !Truthy(reason) then Secondary
    else if Contains(reason.value, "customer-ended") || Contains(reason.value, "completed") then Default
    else if Contains(reason.value, "not-answer") || Contains(reason.value, "timeout") then Destructive
    else Secondary
  }

  /** `getSuccessEvaluationColor`: "pass" and "fail" in any letter case. */
  function EvaluationColor(evaluation: Option<string>): (r: Variant)
    ensures r == Default <==> Truthy(evaluation) && Lower(evaluation.value) == "pass"
    ensures r == Destructive <==> Truthy(evaluation) && Lower(evaluation.value) == "fail"
  {
    if !Truthy(evaluation) then Secondary
    else if Lower(evaluation.value) == "pass" then Default
    else if Lower(evaluation.value) == "fail" then Destructive
    else Secondary
  }

  datatype Badge = Badge(variant: Variant, text: string)

  /** `getOutcomeBadge`: a recorded evaluation decides; else the ended reason; else unknown. */
  function OutcomeBadge(c: Candidate): (r: Badge)
    ensures Truthy(c.successEvaluation) ==>
              (r.text == Upper(c.successEvaluation.value) &&
               (r.variant == Default <==> Lower(c.successEvaluation.value) == "pass") && r.variant != Secondary)
    ensures !Truthy(c.successEvaluation) ==> r.text in {"Completed", "Failed", "Unknown"}
  {
    if Truthy(c.successEvaluation) then
      Badge(if Lower(c.successEvaluation.value) == "pass" then Default else Destructive, Upper(c.successEvaluation.value))
    else if Truthy(c.endedReason) && (Contains(c.endedReason.value, "completed") || Contains(c.endedReason.value, "customer-ended")) then
      Badge(Default, "Completed")
    else if Truthy(c.endedReason) && (Contains(c.endedReason.value, "not-answer") || Contains(c.endedReason.value, "timeout")) then
      Badge(Destructive, "Failed")
    else Badge(Secondary, "Unknown")
  }

  /** Without an evaluation, the history section's badge has the colour the history tab
      gives the ended reason, and its label names that colour. */
  lemma BadgeAgreesWithReasonColor(c: Candidate)
    requires !Truthy(c.successEvaluation)
    ensures OutcomeBadge(c).variant == EndedReasonColor(c.endedReason)
    ensures OutcomeBadge(c).text == "Completed" <==> EndedReasonColor(c.endedReason) == Default
    ensures OutcomeBadge(c).text == "Failed" <==> EndedReasonColor(c.endedReason) == Destructive
  {
  }

  /** With an evaluation, the two views agree on "pass" and "fail" only: any other value is
      a red badge in the history section but a neutral one in the history tab. */
  lemma BadgeAndEvaluationColor(c: Candidate)
    requires Truthy(c.successEvaluation)
    ensures var e := Lower(c.successEvaluation.value);
      (e == "pass" ==> OutcomeBadge(c).variant == Default && EvaluationColor(c.successEvaluation) == Default) &&
      (e == "fail" ==> OutcomeBadge(c).variant == Destructive && EvaluationColor(c.successEvaluation) == Destructive) &&
      (e != "pass" && e != "fail" ==> OutcomeBadge(c).variant == Destructive && EvaluationColor(c.successEvaluation) == Secondary)
  {
  }

  // ------------------------------------------------------------------ rows and search

  /** `toggleRow`: the new set of expanded rows, and whether details are fetched. */
  function ToggleRow(expanded: set<int>, cached: set<int>, loading: set<int>, id: int): (r: (set<int>, bool))
    ensures id in r.0 <==> id !in expanded
    ensures forall k :: k != id ==> (k in r.0 <==> k in expanded)
    ensures r.1 <==> id !in expanded && id !in cached && id !in loading
  {
    if id in expanded then (expanded - {id}, false)
    else (expanded + {id}, id !in cached && id !in loading)
  }

  /** Toggling a row twice leaves the expanded set as it was, and never loads twice. */
  lemma ToggleTwice(expanded: set<int>, cached: set<int>, loading: set<int>, id: int)
    ensures var once := ToggleRow(expanded, cached, loading, id);
      var twice := ToggleRow(once.0, cached, loading, id);
      twice.0 == expanded && !(once.1 && twice.1)
  {
    var once := ToggleRow(expanded, cached, loading, id);
    var twice := ToggleRow(once.0, cached, loading, id);
    assert forall k :: k in twice.0 <==> k in expanded;
  }

  /** The call-history search: name, call result or assistant name in any letter case, or
      the raw phone number. */
  predicate MatchesQuery(c: Candidate, query: string) {
    var q := Lower(query);
    || Contains(Lower(c.name), q)
    || Contains(c.phone, query)
    || (c.callResult.Some? && Contains(Lower(c.callResult.value), q))
    || (c.assistantName.Some? && Contains(Lower(c.assistantName.value), q))
  }

  function SearchHistory(calls: Store, query: string): (r: Store)
    ensures |r| <= |calls|
    ensures forall k :: 0 <= k < |r| ==> r[k] in calls && MatchesQuery(r[k], query)
    ensures forall k :: 0 <= k < |calls| && MatchesQuery(calls[k], query) ==> calls[k] in r
  {
    Filter(calls, (c: Candidate) => MatchesQuery(c, query))
  }

  /** The search keeps history order: searching a concatenation searches each part. */
  lemma SearchHistoryAppend(a: Store, b: Store, query: string)
    ensures SearchHistory(a + b, query) == SearchHistory(a, query) + SearchHistory(b, query)
  {
    FilterAppend(a, b, (c: Candidate) => MatchesQuery(c, query));
  }

  /** One record is kept exactly when it matches. */
  lemma SearchHistoryOne(c: Candidate, query: string)
    ensures SearchHistory([c], query) == if MatchesQuery(c, query) then [c] else []
  {
    assert [c][1..] == [];
  }

  /** The search ignores letter case: typing the query in lower case finds the same
      records, as long as that does not change what the raw phone test finds. */
  lemma SearchIgnoresCase(c: Candidate, query: string)
    requires Contains(c.phone, query) == Contains(c.phone, Lower(query))
    ensures MatchesQuery(c, Lower(query)) == MatchesQuery(c, query)
  {
    LowerIdempotent(query);
  }

  lemma ContainsEmpty(s: string)
    ensures Contains(s, "")
  {
  }

  /** An empty search shows the whole history, in order. */
  lemma EmptySearchKeepsAll(calls: Store)
    ensures SearchHistory(calls, "") == calls
  {
    forall k | 0 <= k < |calls| ensures MatchesQuery(calls[k], "") {
      ContainsEmpty(calls[k].phone);
    }
    FilterAll(calls, (c: Candidate) => MatchesQuery(c, ""));
  }
}

=== FILE: http.dfy ===
/** The shape every route handler returns: an HTTP status and a JSON body. */
module Http {

  datatype Response<B> = Response(status: int, body: B)

  /** A 2xx status. */
  predicate Success<B>(r: Response<B>) {
    200 <= r.status < 300
  }
}

=== FILE: leads.dfy ===
/** The leads view: the tag list, the search and tag filter, de-duplication by phone
    number, the selection, and the tags of a lead typed into the add dialog. */
module Leads {
  import opened Text
  import opened Candidates

  // ------------------------------------------------------------------ tags

  /** Every piece trimmed. */
  function TrimAll(parts: seq<string>): (r: seq<string>)
    ensures |r| == |parts| && forall k :: 0 <= k < |parts| ==> r[k] == Trim(parts[k])
  {
    seq(|parts|, k requires 0 <= k < |parts| => Trim(parts[k]))
  }

  /** The position where `x` first occurs in `s`. */
  function FirstAt(s: seq<string>, x: string): (k: nat)
    requires x in s
    ensures k < |s| && s[k] == x && forall j :: 0 <= j < k ==> s[j] != x
    decreases |s|
  {
    if s[0] == x then 0 else 1 + FirstAt(s[1..], x)
  }

  /** Appending keeps the first position of an element already present, and puts a new
      element at the end. */
  lemma FirstAtSnoc(p: seq<string>, x: string, y: string)
    requires y in p || y == x
    ensures y in p + [x]
    ensures y in p ==> FirstAt(p + [x], y) == FirstAt(p, y)
    ensures y !in p ==> FirstAt(p + [x], y) == |p|
  {
    var s := p + [x];
    assert forall j :: 0 <= j < |p| ==> s[j] == p[j];
    if y in p {
      var k := FirstAt(p, y);
      assert s[k] == y;
    } else {
      assert s[|p|] == y;
    }
  }

  /** The elements in order of first appearance, each once. */
  function Distinct(s: seq<string>): (r: seq<string>)
    ensures forall x :: x in r <==> x in s
    ensures forall i, j :: 0 <= i < j < |r| ==> r[i] != r[j]
    ensures |r| <= |s|
    decreases |s|
  {
    if |s| == 0 then []
    else
      var n := |s| - 1;
      var d := Distinct(s[..n]);
      assert forall x :: x in s <==> x in s[..n] || x == s[n] by {
        assert s == s[..n] + [s[n]];
      }
      if s[n] in d then d else d + [s[n]]
  }

  /** The distinct elements come in the order of their first appearance. */
  lemma {:induction false} DistinctOrder(s: seq<string>)
    ensures forall i, j :: 0 <= i < j < |Distinct(s)| ==> FirstAt(s, Distinct(s)[i]) < FirstAt(s, Distinct(s)[j])
    decreases |s|
  {
    if |s| > 0 {
      var n := |s| - 1;
      DistinctOrder(s[..n]);
      assert s == s[..n] + [s[n]];
      DistinctOrderStep(s[..n], s[n], Distinct(s[..n]));
    }
  }

  /** The order step of `Distinct`: the first positions of the elements found in the
      prefix do not move, and a new last element comes after all of them. */
  lemma DistinctOrderStep(p: seq<string>, x: string, d: seq<string>)
    requires forall y :: y in d <==> y in p
    requires forall i, j :: 0 <= i < j < |d| ==> FirstAt(p, d[i]) < FirstAt(p, d[j])
    ensures forall y :: y in p + [x] <==> y in p || y == x
    ensures forall i, j :: 0 <= i < j < |d| ==> FirstAt(p + [x], d[i]) < FirstAt(p + [x], d[j])
    ensures x !in d ==> x in p + [x] && forall i :: 0 <= i < |d| ==> FirstAt(p + [x], d[i]) < FirstAt(p + [x], x)
  {
    forall i | 0 <= i < |d| ensures d[i] in p + [x] && FirstAt(p + [x], d[i]) == FirstAt(p, d[i]) {
      FirstAtSnoc(p, x, d[i]);
    }
    if x !in d {
      FirstAtSnoc(p, x, x);
    }
  }

  /** An element already present changes nothing. */
  lemma DistinctSnocOld(s: seq<string>, x: string)
    requires x in s
    ensures Distinct(s + [x]) == Distinct(s)
  {
    assert (s + [x])[..|s|] == s;
  }

  /** A list without repeats is its own list of distinct elements. */
  lemma {:induction false} DistinctOfDistinct(s: seq<string>)
    requires forall i, j :: 0 <= i < j < |s| ==> s[i] != s[j]
    ensures Distinct(s) == s
    decreases |s|
  {
    if |s| > 0 {
      DistinctOfDistinct(s[..|s| - 1]);
      assert s[|s| - 1] !in s[..|s| - 1];
      assert s[..|s| - 1] + [s[|s| - 1]] == s;
    }
  }

  /** The trimmed comma-separated pieces of every non-empty position, in store order. */
  function Pieces(cs: Store): (r: seq<string>)
    ensures forall t :: t in r <==> exists k :: 0 <= k < |cs| && t in PositionPieces(cs[k])
  {
    FlatMapMembers(cs, PositionPieces);
    FlatMap(cs, PositionPieces)
  }

  /** The trimmed comma-separated pieces of one position; none for an empty position. */
  function PositionPieces(c: Candidate): seq<string> {
    if c.position != "" then TrimAll(Split(c.position, ',')) else []
  }

  /** The pieces keep store order: the pieces of a concatenation are the pieces of each
      part. */
  lemma PiecesAppend(a: Store, b: Store)
    ensures Pieces(a + b) == Pieces(a) + Pieces(b)
  {
    FlatMapAppend(a, b, PositionPieces);
  }

  /** One more lead adds its pieces at the end. */
  lemma PiecesSnoc(cs: Store, c: Candidate)
    ensures Pieces(cs + [c]) == Pieces(cs) + PositionPieces(c)
  {
    FlatMapAppend(cs, [c], PositionPieces);
    assert [c][1..] == [];
  }

  /** `allTags`: the distinct pieces, in order of first appearance. */
  function AllTags(cs: Store): (r: seq<string>)
    ensures forall t :: t in r <==> t in Pieces(cs)
    ensures forall i, j :: 0 <= i < j < |r| ==> r[i] != r[j]
    ensures forall i, j :: 0 <= i < j < |r| ==> FirstAt(Pieces(cs), r[i]) < FirstAt(Pieces(cs), r[j])
  {
    DistinctOrder(Pieces(cs));
    Distinct(Pieces(cs))
  }

  /** The tags of a new lead: the trimmed comma-separated pieces, empty ones dropped. */
  function NewLeadTags(text: string): (r: seq<string>)
    ensures forall k :: 0 <= k < |r| ==> r[k] != "" && ',' !in r[k] && r[k] in TrimAll(Split(text, ','))
    ensures var parts := Split(text, ',');
      forall k :: 0 <= k < |parts| && Trim(parts[k]) != "" ==> Trim(parts[k]) in r
  {
    var parts := Split(text, ',');
    var trimmed := TrimAll(parts);
    TrimmedHaveNoComma(parts);
    Filter(trimmed, (t: string) => t != "")
  }

  /** No trimmed piece of a split on ',' holds a comma. */
  lemma TrimmedHaveNoComma(parts: seq<string>)
    requires forall k :: 0 <= k < |parts| ==> ',' !in parts[k]
    ensures forall t :: t in TrimAll(parts) ==> ',' !in t
  {
    forall k | 0 <= k < |parts| ensures ',' !in Trim(parts[k]) {
      TrimInside(parts[k]);
    }
  }

  /** The tags of "a,b" for a first piece without a comma: the trimmed first piece when
      it is not blank, then the tags of the rest, in order. */
  lemma NewLeadTagsCons(a: string, b: string)
    requires ',' !in a
    ensures NewLeadTags(a + "," + b) == (if Trim(a) != "" then [Trim(a)] else []) + NewLeadTags(b)
  {
    assert a + "," + b == a + [','] + b;
    SplitAtSep(a, b, ',');
    var rest := Split(b, ',');
    assert TrimAll([a] + rest) == [Trim(a)] + TrimAll(rest);
    ConsParts(Trim(a), TrimAll(rest));
  }

  /** Plain tags written with ", " between them read back as the same tags. */
  lemma NewLeadTagsOfJoin(tags: seq<string>)
    requires |tags| >= 1 && forall k :: 0 <= k < |tags| ==> PlainTag(tags[k])
    ensures NewLeadTags(Join(tags, ", ")) == tags
  {
    TagsRoundTrip(tags);
    FilterAll(tags, (t: string) => t != "");
  }

  /** Trimming keeps a contiguous piece of the text, so it adds no character. */
  lemma TrimInside(s: string)
    ensures forall c :: c in Trim(s) ==> c in s
  {
    var t := TrimStart(s);
    assert forall c :: c in TrimEnd(t) ==> c in t;
    assert forall c :: c in t ==> c in s;
  }

  /** A tag that is its own trim and has no comma. */
  predicate PlainTag(t: string) {
    t != "" && ',' !in t && Trim(t) == t
  }

  /** Joining plain tags with ", " and splitting on ',' with trimming gives them back. */
  lemma {:induction false} TagsRoundTrip(tags: seq<string>)
    requires |tags| >= 1 && forall k :: 0 <= k < |tags| ==> PlainTag(tags[k])
    ensures TrimAll(Split(Join(tags, ", "), ',')) == tags
    decreases |tags|, 1
  {
    if |tags| == 1 {
      SplitNoSep(tags[0], ',');
    } else {
      TagsRoundTripStep(tags);
    }
  }

  lemma {:induction false} TagsRoundTripStep(tags: seq<string>)
    requires |tags| >= 2 && forall k :: 0 <= k < |tags| ==> PlainTag(tags[k])
    ensures TrimAll(Split(Join(tags, ", "), ',')) == tags
    decreases |tags|, 0
  {
    var rest := Join(tags[1..], ", ");
    TagsRoundTrip(tags[1..]);
    assert Join(tags, ", ") == tags[0] + ", " + rest;
    SplitAfterComma(tags[0], rest);
    RebuildTags(tags, Split(rest, ','));
  }

  lemma RebuildTags(tags: seq<string>, pieces: seq<string>)
    requires |tags| >= 2 && |pieces| >= 1
    requires TrimAll(pieces) == tags[1..] && Trim(tags[0]) == tags[0]
    ensures TrimAll([tags[0]] + [" " + pieces[0]] + pieces[1..]) == tags
  {
    var xs := [tags[0]] + [" " + pieces[0]] + pieces[1..];
    var lhs := TrimAll(xs);
    var trimmed := TrimAll(pieces);
    forall k | 0 <= k < |tags| ensures lhs[k] == tags[k] {
      TrimmedAt(tags[0], pieces, k);
      if k > 0 {
        assert tags[k] == tags[1..][k - 1] == trimmed[k - 1];
      }
    }
  }

  /** Trimming a piece of "a" followed by the pieces with a space before the first. */
  lemma TrimmedAt(a: string, pieces: seq<string>, k: int)
    requires |pieces| >= 1 && 0 <= k < |pieces| + 1
    ensures Trim(([a] + [" " + pieces[0]] + pieces[1..])[k]) == if k == 0 then Trim(a) else Trim(pieces[k - 1])
  {
    if k == 1 {
      TrimLeadingSpace(pieces[0]);
    } else if k >= 2 {
      assert ([a] + [" " + pieces[0]] + pieces[1..])[k] == pieces[k - 1];
    }
  }

  /** The pieces of "a, rest" split on ',': "a", then the pieces of rest with a space
      before the first. */
  lemma SplitAfterComma(a: string, rest: string)
    requires ',' !in a
    ensures Split(a + ", " + rest, ',') == [a] + [" " + Split(rest, ',')[0]] + Split(rest, ',')[1..]
  {
    assert a + ", " + rest == a + [','] + (" " + rest);
    SplitAtSep(a, " " + rest, ',');
    assert (" " + rest)[1..] == rest;
  }

  // ------------------------------------------------------------------ filter

  /** A lead is shown when its name or e-mail contains the search in any letter case, or
      its phone contains it as typed, and the tag is "all" or occurs in its position. */
  predicate Shown(c: Candidate, query: string, tag: string) {
    var q := Lower(query);
    (Contains(Lower(c.name), q) || Contains(Lower(c.email), q) || Contains(c.phone, query)) &&
    (tag == "all" || Contains(c.position, tag))
  }

  function FilterLeads(cs: Store, query: string, tag: string): (r: Store)
    ensures |r| <= |cs|
    ensures forall k :: 0 <= k < |r| ==> r[k] in cs && Shown(r[k], query, tag)
    ensures forall k :: 0 <= k < |cs| && Shown(cs[k], query, tag) ==> cs[k] in r
  {
    Filter(cs, (c: Candidate) => Shown(c, query, tag))
  }

  /** The search ignores letter case: typing it in lower case shows the same leads, as
      long as that does not change what the raw phone test finds. */
  lemma ShownIgnoresCase(c: Candidate, query: string, tag: string)
    requires Contains(c.phone, query) == Contains(c.phone, Lower(query))
    ensures Shown(c, Lower(query), tag) == Shown(c, query, tag)
  {
    LowerIdempotent(query);
  }

  /** The filter keeps store order: filtering a concatenation filters each part. */
  lemma FilterLeadsAppend(a: Store, b: Store, query: string, tag: string)
    ensures FilterLeads(a + b, query, tag) == FilterLeads(a, query, tag) + FilterLeads(b, query, tag)
  {
    FilterAppend(a, b, (c: Candidate) => Shown(c, query, tag));
  }

  /** One lead is kept exactly when it is shown. */
  lemma FilterLeadsOne(c: Candidate, query: string, tag: string)
    ensures FilterLeads([c], query, tag) == if Shown(c, query, tag) then [c] else []
  {
    assert [c][1..] == [];
  }

  /** With no search text and the tag "all" every lead is shown, in order. */
  lemma NoFilterShowsAll(cs: Store)
    ensures FilterLeads(cs, "", "all") == cs
  {
    forall k | 0 <= k < |cs| ensures Shown(cs[k], "", "all") {
      assert Contains(cs[k].phone, "");
    }
    FilterAll(cs, (c: Candidate) => Shown(c, "", "all"));
  }

  // ------------------------------------------------------------------ de-duplication

  function Phones(cs: Store): (r: seq<string>)
    ensures |r| == |cs| && forall k :: 0 <= k < |cs| ==> r[k] == cs[k].phone
  {
    seq(|cs|, k requires 0 <= k < |cs| => cs[k].phone)
  }

  /** `map.set(c.phone, c)` on a map kept as its list of values in insertion order. */
  function Insert(entries: Store, c: Candidate): (r: Store)
    ensures c in r
    ensures c.phone !in Phones(entries) ==> r == entries + [c]
    ensures c.phone in Phones(entries) ==> |r| == |entries| && Phones(r) == Phones(entries)
    ensures forall k :: 0 <= k < |entries| && entries[k].phone != c.phone ==> r[k] == entries[k]
  {
    var k := PhoneIndex(entries, c.phone);
    if k < |entries| then
      var r := entries[k := c];
      assert Phones(r) == Phones(entries) by {
        assert forall j :: 0 <= j < |r| ==> Phones(r)[j] == Phones(entries)[j];
      }
      r
    else entries + [c]
  }

  /** The first position holding the phone number, or the length when none does. */
  function PhoneIndex(entries: Store, phone: string): (k: nat)
    ensures k <= |entries|
    ensures k < |entries| ==> entries[k].phone == phone
    ensures k == |entries| ==> phone !in Phones(entries)
    decreases |entries|
  {
    if |entries| == 0 then 0
    else if entries[0].phone == phone then 0
    else
      var k := PhoneIndex(entries[1..], phone);
      assert Phones(entries) == [entries[0].phone] + Phones(entries[1..]);
      k + 1
  }

  /** The last lead with the phone number, if any. */
  function LastWith(cs: Store, phone: string): (r: Option<Candidate>)
    ensures r.Some? <==> phone in Phones(cs)
    decreases |cs|
  {
    if |cs| == 0 then None
    else if cs[|cs| - 1].phone == phone then Some(cs[|cs| - 1])
    else
      var r := LastWith(cs[..|cs| - 1], phone);
      assert Phones(cs) == Phones(cs[..|cs| - 1]) + [cs[|cs| - 1].phone];
      r
  }

  /** `Array.from(new Map(leads.map(c => [c.phone, c])).values())`: one lead per phone
      number, at the place the number first appears, holding the last lead with it. */
  function Dedupe(cs: Store): (r: Store)
    ensures Phones(r) == Distinct(Phones(cs))
    ensures forall k :: 0 <= k < |r| ==> LastWith(cs, r[k].phone) == Some(r[k])
    decreases |cs|
  {
    if |cs| == 0 then []
    else
      var d := Dedupe(cs[..|cs| - 1]);
      InsertStep(cs, d);
      Insert(d, cs[|cs| - 1])
  }

  /** One step of the map fold keeps the list of phones and the last-lead property. */
  lemma InsertStep(cs: Store, d: Store)
    requires |cs| > 0
    requires Phones(d) == Distinct(Phones(cs[..|cs| - 1]))
    requires forall k :: 0 <= k < |d| ==> LastWith(cs[..|cs| - 1], d[k].phone) == Some(d[k])
    ensures var r := Insert(d, cs[|cs| - 1]);
      Phones(r) == Distinct(Phones(cs)) &&
      forall k :: 0 <= k < |r| ==> LastWith(cs, r[k].phone) == Some(r[k])
  {
    var prefix := cs[..|cs| - 1];
    var c := cs[|cs| - 1];
    assert cs == prefix + [c];
    assert Phones(cs)[..|cs| - 1] == Phones(prefix);
    assert Phones(cs)[|cs| - 1] == c.phone;
    var i := PhoneIndex(d, c.phone);
    if i < |d| {
      InsertExisting(prefix, c, d, i);
    } else {
      InsertNew(prefix, c, d);
    }
  }

  lemma InsertExisting(prefix: Store, c: Candidate, d: Store, i: nat)
    requires Phones(d) == Distinct(Phones(prefix))
    requires forall k :: 0 <= k < |d| ==> LastWith(prefix, d[k].phone) == Some(d[k])
    requires i == PhoneIndex(d, c.phone) && i < |d|
    ensures Phones(Insert(d, c)) == Distinct(Phones(prefix + [c]))
    ensures forall k :: 0 <= k < |Insert(d, c)| ==> LastWith(prefix + [c], Insert(d, c)[k].phone) == Some(Insert(d, c)[k])
  {
    var cs := prefix + [c];
    var r := d[i := c];
    assert Insert(d, c) == r;
    assert Phones(cs)[..|cs| - 1] == Phones(prefix);
    assert Phones(cs)[|cs| - 1] == c.phone;
    assert c.phone in Distinct(Phones(prefix)) by { assert Phones(d)[i] == c.phone; }
    assert Phones(r) == Phones(d);
    forall k | 0 <= k < |r| ensures LastWith(cs, r[k].phone) == Some(r[k]) {
      assert cs[..|cs| - 1] == prefix;
      if k != i {
        assert Phones(d)[k] != Phones(d)[i];
      }
    }
  }

  lemma InsertNew(prefix: Store, c: Candidate, d: Store)
    requires Phones(d) == Distinct(Phones(prefix))
    requires forall k :: 0 <= k < |d| ==> LastWith(prefix, d[k].phone) == Some(d[k])
    requires PhoneIndex(d, c.phone) == |d|
    ensures Phones(Insert(d, c)) == Distinct(Phones(prefix + [c]))
    ensures forall k :: 0 <= k < |Insert(d, c)| ==> LastWith(prefix + [c], Insert(d, c)[k].phone) == Some(Insert(d, c)[k])
  {
    assert c.phone !in Phones(d);
    assert Insert(d, c) == d + [c];
    InsertNewPhones(prefix, c, d);
    InsertNewLast(prefix, c, d);
  }

  lemma InsertNewPhones(prefix: Store, c: Candidate, d: Store)
    requires Phones(d) == Distinct(Phones(prefix)) && c.phone !in Phones(d)
    ensures Phones(d + [c]) == Distinct(Phones(prefix + [c]))
  {
    DistinctSnocNew(Phones(prefix), c.phone);
    assert Phones(prefix + [c]) == Phones(prefix) + [c.phone];
    assert Phones(d + [c]) == Phones(d) + [c.phone];
  }

  lemma InsertNewLast(prefix: Store, c: Candidate, d: Store)
    requires forall k :: 0 <= k < |d| ==> LastWith(prefix, d[k].phone) == Some(d[k])
    requires c.phone !in Phones(d)
    ensures forall k :: 0 <= k < |d| + 1 ==> LastWith(prefix + [c], (d + [c])[k].phone) == Some((d + [c])[k])
  {
    var r := d + [c];
    forall k | 0 <= k < |r| ensures LastWith(prefix + [c], r[k].phone) == Some(r[k]) {
      LastWithSnoc(prefix, c, r[k].phone);
      if k < |d| {
        assert Phones(d)[k] == d[k].phone;
      }
    }
  }

  lemma DistinctSnocNew(s: seq<string>, x: string)
    requires x !in s
    ensures Distinct(s + [x]) == Distinct(s) + [x]
  {
    assert (s + [x])[..|s|] == s;
  }

  lemma LastWithSnoc(prefix: Store, c: Candidate, phone: string)
    ensures LastWith(prefix + [c], phone) == if c.phone == phone then Some(c) else LastWith(prefix, phone)
  {
    assert (prefix + [c])[..|prefix|] == prefix;
  }

  // ------------------------------------------------------------------ selection

  function Ids(cs: Store): set<int> {
    set k | 0 <= k < |cs| :: cs[k].id
  }

  /** The selection kept when the displayed leads change: only ids still displayed. */
  function Prune(selected: set<int>, display: Store): (r: set<int>)
    ensures r <= selected && r <= Ids(display)
    ensures forall id :: id in selected && id in Ids(display) ==> id in r
    ensures selected <= Ids(display) ==> r == selected
  {
    selected * Ids(display)
  }

  /** `handleSelectAll`. */
  function SelectAll(checked: bool, display: Store): (r: set<int>)
    ensures checked ==> forall k :: 0 <= k < |display| ==> display[k].id in r
    ensures checked ==> forall id :: id in r ==> exists k :: 0 <= k < |display| && display[k].id == id
    ensures !checked ==> r == {}
  {
    if checked then Ids(display) else {}
  }

  /** `handleSelectLead`: one id added or removed. The campaigns section's
      `handleSelectCampaign` is the same toggle on campaign ids. */
  function SelectLead(selected: set<int>, id: int, checked: bool): (r: set<int>)
    ensures id in r <==> checked
    ensures forall other :: other != id ==> (other in r <==> other in selected)
  {
    if checked then selected + {id} else selected - {id}
  }

  /** `isAllSelected`. */
  predicate IsAllSelected(display: Store, selected: set<int>) {
    |display| > 0 && |selected| == |display|
  }

  lemma {:induction false} IdsCount(cs: Store)
    ensures |Ids(cs)| <= |cs|
    ensures |Ids(cs)| == |cs| <==> UniqueIds(cs)
    decreases |cs|
  {
    if |cs| > 0 {
      IdsCount(cs[..|cs| - 1]);
      IdsSnoc(cs);
      UniqueSnoc(cs);
    }
  }

  lemma IdsSnoc(cs: Store)
    requires |cs| > 0
    ensures Ids(cs) == Ids(cs[..|cs| - 1]) + {cs[|cs| - 1].id}
  {
    var p := cs[..|cs| - 1];
    forall id | id in Ids(cs) ensures id in Ids(p) + {cs[|cs| - 1].id} {
      var k :| 0 <= k < |cs| && cs[k].id == id;
      if k < |cs| - 1 { assert p[k] == cs[k]; }
    }
    forall id | id in Ids(p) ensures id in Ids(cs) {
      var k :| 0 <= k < |p| && p[k].id == id;
      assert cs[k] == p[k];
    }
  }

  lemma UniqueSnoc(cs: Store)
    requires |cs| > 0
    ensures UniqueIds(cs) <==> UniqueIds(cs[..|cs| - 1]) && cs[|cs| - 1].id !in Ids(cs[..|cs| - 1])
  {
    var p := cs[..|cs| - 1];
    var last := cs[|cs| - 1];
    if last.id in Ids(p) {
      var k :| 0 <= k < |p| && p[k].id == last.id;
      assert cs[k].id == cs[|cs| - 1].id;
    }
    if UniqueIds(cs) {
      forall i, j | 0 <= i < j < |p| ensures p[i].id != p[j].id {
        assert p[i] == cs[i] && p[j] == cs[j];
      }
    }
    if UniqueIds(p) && last.id !in Ids(p) {
      forall i, j | 0 <= i < j < |cs| ensures cs[i].id != cs[j].id {
        assert p[i] == cs[i];
        if j < |cs| - 1 {
          assert p[j] == cs[j];
        }
      }
    }
  }

  /** Select-all marks the view as all selected exactly when it shows leads with distinct
      ids: two displayed leads sharing an id keep the box unticked. */
  lemma SelectAllTicksBox(display: Store)
    ensures IsAllSelected(display, SelectAll(true, display)) <==> |display| > 0 && UniqueIds(display)
  {
    IdsCount(display);
  }
}

=== FILE: parse_int.dfy ===
/** JavaScript's `parseInt(s)` without a radix: leading white space, an optional sign, an
    optional "0x"/"0X" prefix selecting base 16, then the longest run of digits of that base;
    `None` stands for `NaN`. */
module ParseInt {
  import opened Text

  /** The value of `c` as a digit of base 16 (`hex`) or base 10. */
  function DigitValue(c: char, hex: bool): (r: Option<nat>)
    ensures r.Some? ==> r.value < (if hex then 16 else 10)
    ensures !hex ==> (r.Some? <==> IsDigit(c))
  {
    if '0' <= c <= '9' then Some(c as int - '0' as int)
    else if hex && 'a' <= c <= 'f' then Some(c as int - 'a' as int + 10)
    else if hex && 'A' <= c <= 'F' then Some(c as int - 'A' as int + 10)
    else None
  }

  /** The longest prefix of `s` made of digits. */
  function DigitRun(s: string, hex: bool): (r: string)
    ensures r <= s
    ensures forall i :: 0 <= i < |r| ==> DigitValue(r[i], hex).Some?
    ensures |r| < |s| ==> DigitValue(s[|r|], hex).None?
    decreases |s|
  {
    if |s| == 0 || DigitValue(s[0], hex).None? then "" else [s[0]] + DigitRun(s[1..], hex)
  }

  /** The value of a run of digits, most significant first. */
  function RunValue(s: string, hex: bool): nat
    requires forall i :: 0 <= i < |s| ==> DigitValue(s[i], hex).Some?
    decreases |s|
  {
    if |s| == 0 then 0
    else RunValue(s[..|s| - 1], hex) * (if hex then 16 else 10) + DigitValue(s[|s| - 1], hex).value
  }

  /** An optional sign: its factor and the rest of the text. */
  function SplitSign(t: string): (r: (int, string))
    ensures r.0 == 1 || r.0 == -1
    ensures r.1 == t || (|t| > 0 && r.1 == t[1..])
  {
    if |t| > 0 && t[0] == '-' then (-1, t[1..])
    else if |t| > 0 && t[0] == '+' then (1, t[1..])
    else (1, t)
  }

  /** Text starting with "0x" or "0X" is read in base 16. */
  predicate HexPrefixed(u: string) {
    |u| >= 2 && u[0] == '0' && (u[1] == 'x' || u[1] == 'X')
  }

  /** The unsigned part: the digit run after an optional hex prefix, or `None`. */
  function ParseUnsigned(u: string): (r: Option<nat>)
    ensures r.None? <==> DigitRun(if HexPrefixed(u) then u[2..] else u, HexPrefixed(u)) == ""
  {
    var hex := HexPrefixed(u);
    var run := DigitRun(if hex then u[2..] else u, hex);
    if run == "" then None else Some(RunValue(run, hex))
  }

  function ParseInt(s: string): (r: Option<int>)
    ensures r.None? <==> ParseUnsigned(SplitSign(TrimStart(s)).1).None?
  {
    var (sign, u) := SplitSign(TrimStart(s));
    var v := ParseUnsigned(u);
    if v.None? then None else Some(sign * v.value)
  }

  /** On digit strings the run value is the decimal value. */
  lemma {:induction false} RunValueDecimal(s: string)
    requires |s| >= 1 && forall i :: 0 <= i < |s| ==> IsDigit(s[i])
    ensures RunValue(s, false) == ParseNat(s)
    decreases |s|
  {
    if |s| > 1 {
      RunValueDecimal(s[..|s| - 1]);
    }
    assert |s| == 1 ==> RunValue(s[..0], false) == 0;
  }

  /** A run over a string of digits is the whole string. */
  lemma {:induction false} DigitRunAll(s: string)
    requires forall i :: 0 <= i < |s| ==> IsDigit(s[i])
    ensures DigitRun(s, false) == s
    decreases |s|
  {
    if |s| > 0 {
      DigitRunAll(s[1..]);
    }
  }

  /** A decimal numeral reads as its value. */
  lemma ParseUnsignedDecimal(d: string)
    requires |d| >= 1 && forall i :: 0 <= i < |d| ==> IsDigit(d[i])
    ensures ParseUnsigned(d) == Some(ParseNat(d))
  {
    assert !HexPrefixed(d) by {
      if |d| >= 2 { assert IsDigit(d[1]); }
    }
    DigitRunAll(d);
    RunValueDecimal(d);
  }

  /** Text that does not start with white space is its own `trimStart`. */
  lemma TrimStartNoSpace(s: string)
    requires |s| > 0 && !IsSpace(s[0])
    ensures TrimStart(s) == s
  {
  }

  /** `parseInt(String(n))` is `n` for every integer. */
  lemma ParseIntToString(n: int)
    ensures ParseInt(IntToString(n)) == Some(n)
  {
    var m: nat := if n < 0 then -n else n;
    var d := NatToString(m);
    ParseUnsignedDecimal(d);
    ParseNatToString(m);
    if n < 0 {
      ParseNegative(d);
    } else {
      ParsePositive(d);
    }
  }

  lemma ParseNegative(d: string)
    requires |d| >= 1 && IsDigit(d[0])
    ensures ParseInt("-" + d) == (var v := ParseUnsigned(d); if v.None? then None else Some(-1 * v.value))
  {
    var s := "-" + d;
    TrimStartNoSpace(s);
    assert s[1..] == d;
    assert SplitSign(s) == (-1, d);
  }

  lemma ParsePositive(d: string)
    requires |d| >= 1 && IsDigit(d[0])
    ensures ParseInt(d) == (var v := ParseUnsigned(d); if v.None? then None else Some(v.value))
  {
    TrimStartNoSpace(d);
    assert SplitSign(d) == (1, d);
  }

  /** Trailing junk is ignored, "0x" switches to base 16, and text without leading digits
      is `NaN`. */
  lemma ParseIntExamples()
    ensures ParseUnsigned("12abc") == Some(12)
    ensures ParseUnsigned("0x1F") == Some(31)
    ensures ParseUnsigned("abc") == None
  {
    assert DigitRun("12abc", false) == "12" by {
      assert "12abc"[1..] == "2abc";
      assert "2abc"[1..] == "abc";
      assert DigitRun("abc", false) == "";
      assert DigitRun("2abc", false) == "2";
    }
    assert RunValue("12", false) == 12 by { assert "12"[..1] == "1"; assert "1"[..0] == ""; }
    assert "0x1F"[2..] == "1F";
    assert DigitRun("1F", true) == "1F" by { assert "1F"[1..] == "F"; assert "F"[1..] == ""; }
    assert RunValue("1F", true) == 31 by { assert "1F"[..1] == "1"; assert "1"[..0] == ""; }
  }
}

=== FILE: phone.dfy ===
/** `lib/phone-utils.ts`: normalising phone numbers towards E.164, validating them and
    formatting them for display, plus the looser normaliser the call import uses. */
module Phone {
  import opened Text

  /** The country code `formatPhoneNumber` uses when the caller gives none. */
  const DefaultCountryCode: string := "+91"

  /** `s.replace(/\D/g, '')`: the ASCII digits of `s`, in order. */
  function Digits(s: string): (r: string)
    ensures |r| <= |s|
    ensures forall i :: 0 <= i < |r| ==> IsDigit(r[i])
  {
    Filter(s, (c: char) => IsDigit(c))
  }

  /** Removing non-digits is compatible with concatenation. */
  lemma DigitsAppend(a: string, b: string)
    ensures Digits(a + b) == Digits(a) + Digits(b)
  {
    FilterAppend(a, b, (c: char) => IsDigit(c));
  }

  /** A string of digits is its own digit string. */
  lemma DigitsOfDigits(s: string)
    requires forall i :: 0 <= i < |s| ==> IsDigit(s[i])
    ensures Digits(s) == s
  {
    FilterAll(s, (c: char) => IsDigit(c));
  }

  predicate StartsWith(s: string, prefix: string) {
    prefix <= s
  }

  /** `formatPhoneNumber(phone, cc)`: "" stays ""; a '+'-prefixed input is kept as typed;
      otherwise the first matching rule on the digit string `d` decides. */
  function FormatPhoneNumber(phone: string, cc: string): (r: string)
    ensures phone == "" ==> r == ""
    ensures phone != "" && phone[0] == '+' ==> r == phone
    ensures phone != "" && phone[0] != '+' ==>
              var d := Digits(phone);
              (r == "+" + d && |d| == 12) ||
              (r == "+" + d && |d| == 11 && d[0] == '1') ||
              (r == cc + d && |d| == 10) ||
              (|d| == 11 && d[0] == '0' && r == cc + d[1..]) ||
              (r == cc + d && |d| != 10 && |d| != 12 && !(|d| == 11 && (d[0] == '0' || d[0] == '1')))
  {
    if phone == "" then ""
    else
      var d := Digits(phone);
      if phone[0] == '+' then phone
      else if StartsWith(d, "91") && |d| == 12 then "+" + d
      else if StartsWith(d, "0") && |d| == 11 then cc + d[1..]
      else if |d| == 10 then cc + d
      else if |d| == 11 && StartsWith(d, "1") then "+" + d
      else if |d| == 12 then "+" + d
      else cc + d
  }

  /** With a '+'-prefixed country code every non-empty input comes out '+'-prefixed. */
  lemma FormatPrefixed(phone: string, cc: string)
    requires phone != "" && cc != "" && cc[0] == '+'
    ensures var r := FormatPhoneNumber(phone, cc);
      r != "" && r[0] == '+'
  {
  }

  /** `formatPhoneNumber` with the default code is idempotent. */
  lemma FormatIdempotent(phone: string)
    ensures var r := FormatPhoneNumber(phone, DefaultCountryCode);
      FormatPhoneNumber(r, DefaultCountryCode) == r
  {
    if phone != "" {
      FormatPrefixed(phone, DefaultCountryCode);
    }
  }

  /** `/^\+[1-9]\d{1,14}$/`. */
  predicate MatchesE164(f: string) {
    3 <= |f| <= 16 && f[0] == '+' && '1' <= f[1] <= '9' &&
    forall i :: 2 <= i < |f| ==> IsDigit(f[i])
  }

  datatype Validation = Validation(isValid: bool, formatted: string, error: Option<string>)

  /** `validatePhoneNumber`: the formatted value is always returned; it is valid when it is
      in E.164 form and has 7 to 15 digits after the '+'. */
  function ValidatePhoneNumber(phone: string): (r: Validation)
    ensures r.formatted == FormatPhoneNumber(phone, DefaultCountryCode)
    ensures r.isValid <==> r.error.None?
    ensures r.isValid <==> (|r.formatted| >= 8 && |r.formatted| <= 16 && r.formatted[0] == '+' &&
                            '1' <= r.formatted[1] <= '9' &&
                            forall i :: 1 <= i < |r.formatted| ==> IsDigit(r.formatted[i]))
  {
    var f := FormatPhoneNumber(phone, DefaultCountryCode);
    if !MatchesE164(f) then
      Validation(false, f, Some(("Invalid phone " + "number format. " + "Must be in E.164 " + "format (e.g., " + "+91XXXXXXXXXX)")))
    else if |f[1..]| < 7 || |f[1..]| > 15 then
      Validation(false, f, Some(("Phone number too " + "short or too long")))
    else Validation(true, f, None)
  }

  /** Every Indian mobile number typed as ten digits validates as "+91" and the digits. */
  lemma TenDigitsValidate(phone: string)
    requires |phone| == 10 && forall i :: 0 <= i < 10 ==> IsDigit(phone[i])
    ensures ValidatePhoneNumber(phone).isValid
    ensures ValidatePhoneNumber(phone).formatted == "+91" + phone
  {
    DigitsOfDigits(phone);
    assert phone[0] != '+';
  }

  /** `formatPhoneForDisplay`: "+91" and ten more characters become "+91 DDDDD DDDDD",
      "+1" and ten more become "+1 (DDD) DDD-DDDD", anything else is the formatted value. */
  function FormatPhoneForDisplay(phone: string): (r: string)
    ensures var f := FormatPhoneNumber(phone, DefaultCountryCode);
      (StartsWith(f, "+91") && |f| == 13 ==> |r| == 15 && r[..4] == "+91 " && r[9] == ' ') &&
      (StartsWith(f, "+1") && |f| == 12 ==> |r| == 17 && r[..4] == "+1 (" && r[7] == ')' && r[12] == '-') &&
      (!(StartsWith(f, "+91") && |f| == 13) && !(StartsWith(f, "+1") && |f| == 12) ==> r == f)
  {
    var f := FormatPhoneNumber(phone, DefaultCountryCode);
    if StartsWith(f, "+91") && |f[3..]| == 10 then
      var d := f[3..];
      "+91 " + d[..5] + " " + d[5..]
    else if StartsWith(f, "+1") && |f[2..]| == 10 then
      var d := f[2..];
      "+1 (" + d[..3] + ") " + d[3..6] + "-" + d[6..]
    else f
  }

  /** A string without digits contributes nothing to a digit string. */
  lemma {:induction false} DigitsNone(s: string)
    requires forall i :: 0 <= i < |s| ==> !IsDigit(s[i])
    ensures Digits(s) == ""
    decreases |s|
  {
    if |s| > 0 {
      DigitsNone(s[1..]);
    }
  }

  /** Inserting separators without digits keeps the digit string. */
  lemma DigitsInsert(a: string, sep: string, b: string)
    requires forall i :: 0 <= i < |sep| ==> !IsDigit(sep[i])
    ensures Digits(a + sep + b) == Digits(a + b)
  {
    DigitsNone(sep);
    DigitsAppend(a + sep, b);
    DigitsAppend(a, sep);
    DigitsAppend(a, b);
  }

  /** Display formatting only inserts separators: the digits are those of the formatted
      number. */
  lemma DisplayKeepsDigits(phone: string)
    ensures Digits(FormatPhoneForDisplay(phone)) == Digits(FormatPhoneNumber(phone, DefaultCountryCode))
  {
    var f := FormatPhoneNumber(phone, DefaultCountryCode);
    if StartsWith(f, "+91") && |f[3..]| == 10 {
      DisplayKeepsDigitsIndia(f);
    } else if StartsWith(f, "+1") && |f[2..]| == 10 {
      DisplayKeepsDigitsNorthAmerica(f);
    }
  }

  lemma DisplayKeepsDigitsIndia(f: string)
    requires StartsWith(f, "+91") && |f| == 13
    ensures var d := f[3..]; Digits("+91 " + d[..5] + " " + d[5..]) == Digits(f)
  {
    var d := f[3..];
    var x := d[..5] + " " + d[5..];
    DigitsInsert(d[..5], " ", d[5..]);
    assert d[..5] + d[5..] == d;
    DigitsInsert("+91", " ", x);
    assert "+91 " + d[..5] + " " + d[5..] == "+91" + " " + x;
    DigitsAppend("+91", x);
    DigitsAppend("+91", d);
    assert f == "+91" + d;
  }

  /** Separators without digits between the parts of a number leave its digit string
      alone. */
  lemma DigitsOfParts(x: string, a: string, q: string, b: string, r: string, c: string)
    requires forall i :: 0 <= i < |q| ==> !IsDigit(q[i])
    requires forall i :: 0 <= i < |r| ==> !IsDigit(r[i])
    ensures Digits(x + a + q + b + r + c) == Digits(x + (a + b + c))
  {
    DigitsNone(q);
    DigitsNone(r);
    var xa := x + a;
    calc {
      Digits(xa + q + b + r + c);
      { DigitsAppend(xa + q + b + r, c); }
      Digits(xa + q + b + r) + Digits(c);
      { DigitsAppend(xa + q + b, r); }
      Digits(xa + q + b) + Digits(c);
      { DigitsAppend(xa + q, b); }
      Digits(xa + q) + Digits(b) + Digits(c);
      { DigitsAppend(xa, q); }
      Digits(xa) + Digits(b) + Digits(c);
      { DigitsAppend(x, a); }
      Digits(x) + Digits(a) + Digits(b) + Digits(c);
      { DigitsAppend(a, b); DigitsAppend(a + b, c); }
      Digits(x) + Digits(a + b + c);
      { DigitsAppend(x, a + b + c); }
      Digits(x + (a + b + c));
    }
  }

  lemma DisplayKeepsDigitsNorthAmerica(f: string)
    requires StartsWith(f, "+1") && |f| == 12
    ensures var d := f[2..]; Digits("+1 (" + d[..3] + ") " + d[3..6] + "-" + d[6..]) == Digits(f)
  {
    var d := f[2..];
    var a, b, c := d[..3], d[3..6], d[6..];
    assert a + b + c == d;
    DigitsOfParts("+1 (", a, ") ", b, "-", c);
    assert "+1 (" == "+1" + " (";
    DigitsInsert("+1", " (", d);
    assert f == "+1" + d;
  }

  /** The import normaliser `s.replace(/[^\d+]/g, '')`: digits and '+' signs only. */
  function NormalizeForMatch(s: string): (r: string)
    ensures |r| <= |s|
    ensures forall i :: 0 <= i < |r| ==> IsDigit(r[i]) || r[i] == '+'
    ensures forall i :: 0 <= i < |s| && (IsDigit(s[i]) || s[i] == '+') ==> s[i] in r
  {
    Filter(s, (c: char) => IsDigit(c) || c == '+')
  }

  /** Normalising twice is normalising once. */
  lemma NormalizeIdempotent(s: string)
    ensures NormalizeForMatch(NormalizeForMatch(s)) == NormalizeForMatch(s)
  {
    var n := NormalizeForMatch(s);
    FilterAll(n, (c: char) => IsDigit(c) || c == '+');
  }
}

=== FILE: script_cache.dfy ===
/** `ScriptCache`: the call configuration cached for five minutes, refreshed on demand, with
    a built-in default when nothing is stored. The clock reading and the outcome of the
    configuration lookup are inputs. */
module ScriptCache {
  import opened Text
  import opened Config

  /** Five minutes in milliseconds. */
  const CacheDuration: int := 5 * 60 * 1000

  /** The cached configuration and the clock reading at which it was fetched. */
  datatype Cache = Cache(cached: Option<CallConfig>, lastFetch: int)

  const Empty := Cache(None, 0)

  /** The outcome of `configApi.get()`: a configuration or nothing, or an exception. */
  datatype Lookup = Fetched(config: Option<CallConfig>) | LookupThrew

  /** The built-in configuration: hybrid calling, the five-question screening script, the
      "adam" voice at normal speed and pitch, 15-minute calls, two retries, 30 s apart. */
  function DefaultConfig(): (r: CallConfig)
    ensures r.callMethod == "hybrid" && r.id.None?
    ensures r.voice == VoiceSettings("elevenlabs", "adam", 1.0, 1.0)
    ensures r.call == CallSettings(15, 2, 30)
  {
    CallConfig(None, "hybrid",
      ("Hello! This is an " + "automated call " + "regarding your " + "job application. " + "Do you have a few " + "minutes to answer " + "some " + "questions?\n\n") +
      ("1. Can you tell " + "me about yourself " + "and your " + "background?\n") +
      ("2. What interests " + "you about this " + "position?\n") +
      ("3. What are your " + "key strengths and " + "skills?\n") +
      ("4. Do you have " + "any questions " + "about the role or " + "company?\n") +
      ("5. What is your " + "availability for " + "the next " + "steps?\n\n") +
      "Thank you for your time!",
      VoiceSettings("elevenlabs", "adam", 1.0, 1.0), CallSettings(15, 2, 30), None, None)
  }

  /** Whether the cache answers without a lookup at clock reading `now`. */
  predicate Fresh(c: Cache, now: int) {
    c.cached.Some? && now - c.lastFetch < CacheDuration
  }

  /** `getConfig`. */
  function GetConfig(c: Cache, now: int, lookup: Lookup): (r: (Cache, CallConfig))
    ensures Fresh(c, now) ==> r == (c, c.cached.value)
    ensures !Fresh(c, now) && lookup.Fetched? && lookup.config.Some? ==>
              r == (Cache(lookup.config, now), lookup.config.value)
    ensures !Fresh(c, now) && lookup.Fetched? && lookup.config.None? ==> r == (c, DefaultConfig())
    ensures !Fresh(c, now) && lookup.LookupThrew? ==> r == (c, GetOr(c.cached, DefaultConfig()))
    ensures r.0 == c || r.0.lastFetch == now
  {
    if Fresh(c, now) then (c, c.cached.value)
    else match lookup
      case Fetched(cfg) => if cfg.Some? then (Cache(cfg, now), cfg.value) else (c, DefaultConfig())
      case LookupThrew => (c, GetOr(c.cached, DefaultConfig()))
  }

  /** `refreshConfig`: forget the cache, then look up. */
  function Refresh(c: Cache, now: int, lookup: Lookup): (r: (Cache, CallConfig))
    ensures lookup == LookupThrew ==> r == (Empty, DefaultConfig())
  {
    GetConfig(Empty, now, lookup)
  }

  /** A refresh always consults the store: whatever was cached, a stored configuration is
      what it returns and caches. */
  lemma RefreshConsultsStore(c: Cache, now: int, cfg: CallConfig)
    ensures Refresh(c, now, Fetched(Some(cfg))) == (Cache(Some(cfg), now), cfg)
  {
    assert !Fresh(Empty, now);
    var r := GetConfig(Empty, now, Fetched(Some(cfg)));
    assert r == (Cache(Some(cfg), now), cfg);
  }

  /** Within five minutes of a fetch, the answer does not depend on the store at all. */
  lemma FreshIgnoresStore(cfg: CallConfig, fetchedAt: int, now: int, a: Lookup, b: Lookup)
    requires fetchedAt <= now < fetchedAt + CacheDuration
    ensures GetConfig(Cache(Some(cfg), fetchedAt), now, a) == GetConfig(Cache(Some(cfg), fetchedAt), now, b)
    ensures GetConfig(Cache(Some(cfg), fetchedAt), now, a).1 == cfg
  {
  }

  /** After the five minutes a failing lookup still serves the stale copy; only when
      nothing was ever cached does it fall back to the default. */
  lemma StaleServedOnFailure(cfg: CallConfig, fetchedAt: int, now: int)
    requires now >= fetchedAt + CacheDuration
    ensures GetConfig(Cache(Some(cfg), fetchedAt), now, LookupThrew).1 == cfg
    ensures GetConfig(Empty, now, LookupThrew).1 == DefaultConfig()
  {
  }

  /** A clock that moves backwards keeps the cache fresh: the age is negative. */
  lemma BackwardsClockStaysFresh(cfg: CallConfig, fetchedAt: int, now: int, lookup: Lookup)
    requires now < fetchedAt
    ensures GetConfig(Cache(Some(cfg), fetchedAt), now, lookup).1 == cfg
  {
  }
}

=== FILE: settings.dfy ===
/** The `/api/settings` route: per-user settings objects kept in memory, behind a session
    check. Setting values are of an arbitrary type `V`. */
module Settings {
  import opened Text
  import opened Http

  type UserSettings<V> = map<string, V>

  datatype SettingsBody<V> =
    | Loaded(settings: UserSettings<V>)
    | Saved(message: string)
    | Unauthorized(error: string)
    | Failed(error: string)

  /** The request body: unreadable JSON, or a settings object. */
  datatype SettingsRequest<V> = Unreadable | Object(settings: UserSettings<V>)

  /** `GET`: the caller's settings, `{}` when none are stored or a database is configured. */
  function Get<V>(store: map<string, UserSettings<V>>, sessionEmail: Option<string>, dbConfigured: bool): (r: Response<SettingsBody<V>>)
    ensures !Truthy(sessionEmail) <==> r.status == 401
    ensures Truthy(sessionEmail) ==> r.status == 200 && r.body.Loaded?
    ensures Truthy(sessionEmail) && !dbConfigured && sessionEmail.value in store ==> r.body == Loaded(store[sessionEmail.value])
    ensures Truthy(sessionEmail) && (dbConfigured || sessionEmail.value !in store) ==> r.body == Loaded(map[])
  {
    if !Truthy(sessionEmail) then Response(401, Unauthorized("Unauthorized"))
    else if !dbConfigured then
      Response(200, Loaded(if sessionEmail.value in store then store[sessionEmail.value] else map[]))
    else Response(200, Loaded(map[]))
  }

  /** `POST`: shallow-merges the body over the caller's settings, body keys winning; an
      unreadable body is a 500 that stores nothing. */
  function Post<V>(store: map<string, UserSettings<V>>, sessionEmail: Option<string>, req: SettingsRequest<V>, dbConfigured: bool): (r: (map<string, UserSettings<V>>, Response<SettingsBody<V>>))
    ensures !Truthy(sessionEmail) ==> r.0 == store && r.1.status == 401
    ensures dbConfigured ==> r.0 == store
    ensures Truthy(sessionEmail) && req.Unreadable? ==> r == (store, Response(500, Failed("Failed to save settings")))
    ensures Truthy(sessionEmail) && req.Object? ==> r.1.status == 200
    ensures Truthy(sessionEmail) && req.Object? && !dbConfigured ==>
              var e := sessionEmail.value;
              var body := req.settings;
              e in r.0 &&
              (forall k :: k in body ==> k in r.0[e] && r.0[e][k] == body[k]) &&
              (forall k :: e in store && k in store[e] && k !in body ==> k in r.0[e] && r.0[e][k] == store[e][k]) &&
              (forall k :: k in r.0[e] ==> k in body || (e in store && k in store[e])) &&
              (forall u :: u != e ==> (u in r.0 <==> u in store) && (u in store ==> r.0[u] == store[u]))
  {
    if !Truthy(sessionEmail) then (store, Response(401, Unauthorized("Unauthorized")))
    else match req
      case Unreadable => (store, Response(500, Failed("Failed to save settings")))
      case Object(body) =>
        if !dbConfigured then
          var e := sessionEmail.value;
          var prior := if e in store then store[e] else map[];
          (store[e := prior + body], Response(200, Saved("Settings saved successfully")))
        else (store, Response(200, Saved("Settings saved successfully")))
  }

  /** What is saved is what is read back, for every key the body carried. */
  lemma PostThenGet<V>(store: map<string, UserSettings<V>>, email: string, body: UserSettings<V>)
    requires email != ""
    ensures var s := Post(store, Some(email), Object(body), false).0;
      var g := Get(s, Some(email), false);
      g.body.Loaded? && forall k :: k in body ==> k in g.body.settings && g.body.settings[k] == body[k]
  {
  }
}

=== FILE: stats.dfy ===
/** The dashboard's summary figures: completed calls, success rate, and total and average
    call duration. `Math.round` is computed exactly on rationals (halves round up). */
module Stats {
  import opened Text
  import opened Candidates
  import History

  /** A history record that counts as a completed call. */
  predicate IsCompleted(c: Candidate) {
    c.status == "completed" || c.successEvaluation == Some("pass")
  }

  /** `completedCalls`: the history records that are completed or passed. */
  function CompletedCalls(history: Store): (r: nat)
    ensures r <= |history|
    ensures r == 0 <==> forall k :: 0 <= k < |history| ==> !IsCompleted(history[k])
    ensures r == |history| <==> forall k :: 0 <= k < |history| ==> IsCompleted(history[k])
    ensures r == |Filter(history, (c: Candidate) => IsCompleted(c))|
    decreases |history|
  {
    if |history| == 0 then 0
    else
      var rest := CompletedCalls(history[1..]);
      assert forall k :: 1 <= k < |history| ==> history[k] == history[1..][k - 1];
      (if IsCompleted(history[0]) then 1 else 0) + rest
  }

  /** The count of a history split in two is the sum of the counts of its parts. */
  lemma CompletedCallsAppend(a: Store, b: Store)
    ensures CompletedCalls(a + b) == CompletedCalls(a) + CompletedCalls(b)
  {
    FilterAppend(a, b, (c: Candidate) => IsCompleted(c));
  }

  /** `Math.round(a / b)` for a positive `b`: the integer nearest to a / b, halves up. */
  function RoundDiv(a: int, b: int): (r: int)
    requires b > 0
    ensures 2 * r * b - b <= 2 * a < 2 * r * b + b
  {
    var q := (2 * a + b) / (2 * b);
    var m := (2 * a + b) % (2 * b);
    assert 2 * a + b == 2 * b * q + m && 0 <= m < 2 * b;
    assert 2 * q * b == 2 * b * q;
    q
  }

  /** The nearest-integer property pins the rounded value down. */
  lemma RoundBounds(a: int, b: int, lo: int, hi: int)
    requires b > 0 && lo * b <= a <= hi * b
    ensures lo <= RoundDiv(a, b) <= hi
  {
    var r := RoundDiv(a, b);
    assert (2 * lo - 2 * r - 1) * b < 0;
    NegativeFactor(2 * lo - 2 * r - 1, b);
    assert (2 * r - 2 * hi - 1) * b <= 0;
    NonPositiveFactor(2 * r - 2 * hi - 1, b);
  }

  lemma NegativeFactor(x: int, b: int)
    requires b > 0 && x * b < 0
    ensures x < 0
  {
  }

  lemma NonPositiveFactor(x: int, b: int)
    requires b > 0 && x * b <= 0
    ensures x <= 0
  {
  }

  /** `successRate`: the completed share of the history in whole percent, 0 without calls. */
  function SuccessRate(history: Store): (r: int)
    ensures |history| == 0 ==> r == 0
    ensures |history| > 0 ==>
              (2 * r * |history| - |history| <= 200 * CompletedCalls(history) < 2 * r * |history| + |history|)
    ensures 0 <= r <= 100
    ensures |history| > 0 && CompletedCalls(history) == |history| ==> r == 100
    ensures CompletedCalls(history) == 0 ==> r == 0
  {
    if |history| == 0 then 0
    else
      var c := CompletedCalls(history);
      var t := |history|;
      var r := RoundDiv(100 * c, t);
      RoundBounds(100 * c, t, 0, 100);
      assert c == t ==> r == 100 by { if c == t { RoundBounds(100 * c, t, 100, 100); } }
      assert c == 0 ==> r == 0 by { if c == 0 { RoundBounds(100 * c, t, 0, 0); } }
      r
  }

  /** `call.call_duration || 0`. */
  function DurationOf(c: Candidate): int {
    if c.callDuration.Some? then c.callDuration.value else 0
  }

  /** `totalDuration`: the durations summed, a missing one as 0. */
  function TotalDuration(history: Store): (r: int)
    ensures (forall k :: 0 <= k < |history| ==> DurationOf(history[k]) >= 0) ==> r >= 0
    ensures |history| == 1 ==> r == DurationOf(history[0])
    decreases |history|
  {
    if |history| == 0 then 0 else DurationOf(history[0]) + TotalDuration(history[1..])
  }

  /** The total over two lists is the sum of their totals. */
  lemma {:induction false} TotalDurationAppend(a: Store, b: Store)
    ensures TotalDuration(a + b) == TotalDuration(a) + TotalDuration(b)
    decreases |a|
  {
    if |a| > 0 {
      assert (a + b)[1..] == a[1..] + b;
      TotalDurationAppend(a[1..], b);
    } else {
      assert a + b == b;
    }
  }

  /** With every duration between `lo` and `hi`, the total lies between n·lo and n·hi. */
  lemma {:induction false} TotalDurationBounds(history: Store, lo: int, hi: int)
    requires forall k :: 0 <= k < |history| ==> lo <= DurationOf(history[k]) <= hi
    ensures |history| * lo <= TotalDuration(history) <= |history| * hi
    decreases |history|
  {
    if |history| > 0 {
      var rest := history[1..];
      assert forall k :: 0 <= k < |rest| ==> rest[k] == history[k + 1];
      TotalDurationBounds(rest, lo, hi);
      var n := |rest|;
      assert |history| * lo == n * lo + lo && |history| * hi == n * hi + hi by {
        assert |history| == n + 1;
      }
      assert TotalDuration(history) == DurationOf(history[0]) + TotalDuration(rest);
    }
  }

  /** `avgDuration`: the total over the number of calls, rounded; 0 without calls. */
  function AverageDuration(history: Store): (r: int)
    ensures |history| == 0 ==> r == 0
    ensures |history| > 0 ==>
              (2 * r * |history| - |history| <= 2 * TotalDuration(history) < 2 * r * |history| + |history|)
  {
    if |history| == 0 then 0 else RoundDiv(TotalDuration(history), |history|)
  }

  /** The average of durations that all lie between `lo` and `hi` lies between them too. */
  lemma AverageWithinRange(history: Store, lo: int, hi: int)
    requires |history| > 0
    requires forall k :: 0 <= k < |history| ==> lo <= DurationOf(history[k]) <= hi
    ensures lo <= AverageDuration(history) <= hi
  {
    TotalDurationBounds(history, lo, hi);
    assert lo * |history| == |history| * lo && hi * |history| == |history| * hi;
    RoundBounds(TotalDuration(history), |history|, lo, hi);
  }

  /** The total is always shown as minutes and seconds, "0m 0s" for no time at all. */
  function TotalDurationText(history: Store): (r: string)
    ensures TotalDuration(history) > 0 ==> r == History.FormatDuration(Some(TotalDuration(history)))
    ensures TotalDuration(history) == 0 ==> r == "0m 0s"
  {
    History.MinSec(TotalDuration(history))
  }
}

=== FILE: text.dfy ===
/** JavaScript value and string semantics the application relies on: optional values,
    truthiness and `||` defaults, `includes`, `trim`, `split`, `join`, `substring`,
    ASCII case mapping and number printing. Strings are sequences of Unicode scalar
    values, so lengths, `substring` and indexing count characters where JavaScript
    counts UTF-16 code units; case mapping covers ASCII letters only. */
module Text {

  datatype Option<+T> = None | Some(value: T)

  /** `o ?? d`: the value when present (even a falsy one), otherwise the default. */
  function GetOr<T>(o: Option<T>, d: T): T {
    match o
    case Some(v) => v
    case None => d
  }

  /** JavaScript truthiness of an optional string: present and not "". */
  predicate Truthy(o: Option<string>) {
    o.Some? && o.value != ""
  }

  /** `o || d` where the default is a plain string. */
  function OrElse(o: Option<string>, d: string): string {
    if Truthy(o) then o.value else d
  }

  /** `a || b` where both sides are optional strings. */
  function OrOpt(a: Option<string>, b: Option<string>): Option<string> {
    if Truthy(a) then a else b
  }

  /** `s.includes(sub)`. */
  predicate Contains(s: string, sub: string)
    decreases |s|
  {
    sub <= s || (|s| > 0 && Contains(s[1..], sub))
  }

  lemma {:induction false} ContainsAt(s: string, sub: string, i: nat)
    requires i + |sub| <= |s| && s[i..i + |sub|] == sub
    ensures Contains(s, sub)
    decreases i
  {
    if i > 0 {
      assert s[1..][i - 1..i - 1 + |sub|] == s[i..i + |sub|];
      ContainsAt(s[1..], sub, i - 1);
    }
  }

  /** `s.substring(0, n)`. */
  function Take(s: string, n: nat): (r: string)
    ensures |r| <= n && r <= s
    ensures |s| <= n ==> r == s
  {
    if |s| <= n then s else s[..n]
  }

  // ---------------------------------------------------------------- case mapping

  function UpperChar(c: char): char {
    if 'a' <= c <= 'z' then (c as int - 32) as char else c
  }

  function LowerChar(c: char): char {
    if 'A' <= c <= 'Z' then (c as int + 32) as char else c
  }

  /** Lower-casing twice is lower-casing once. */
  lemma LowerIdempotent(s: string)
    ensures Lower(Lower(s)) == Lower(s)
  {
    assert forall i :: 0 <= i < |s| ==> Lower(Lower(s))[i] == Lower(s)[i];
  }

  /** `s.toUpperCase()` on ASCII letters. */
  function Upper(s: string): (r: string)
    ensures |r| == |s|
    ensures forall i :: 0 <= i < |s| ==> r[i] == UpperChar(s[i])
  {
    seq(|s|, i requires 0 <= i < |s| => UpperChar(s[i]))
  }

  /** `s.toLowerCase()` on ASCII letters. */
  function Lower(s: string): (r: string)
    ensures |r| == |s|
    ensures forall i :: 0 <= i < |s| ==> r[i] == LowerChar(s[i])
  {
    seq(|s|, i requires 0 <= i < |s| => LowerChar(s[i]))
  }

  /** `s.charAt(0).toUpperCase() + s.slice(1)`. */
  function Capitalize(s: string): string {
    if |s| == 0 then "" else [UpperChar(s[0])] + s[1..]
  }

  /** A sequence is its first `n` elements followed by the rest. */
  lemma TakeDrop<T>(s: seq<T>, n: nat)
    requires n <= |s|
    ensures s == s[..n] + s[n..]
  {
  }

  // ------------------------------------------------------------------ whitespace

  /** The characters JavaScript's `\s` and `trim` treat as white space or line ends. */
  predicate IsSpace(c: char) {
    || c == ' ' || c == '\t' || c == '\n' || c == '\r' || c == '\U{000B}' || c == '\U{000C}'
    || c == '\U{00A0}' || c == '\U{1680}' || ('\U{2000}' <= c <= '\U{200A}')
    || c == '\U{2028}' || c == '\U{2029}' || c == '\U{202F}' || c == '\U{205F}'
    || c == '\U{3000}' || c == '\U{FEFF}'
  }

  function TrimStart(s: string): (r: string)
    ensures |r| <= |s| && r == s[|s| - |r|..]
    ensures |r| > 0 ==> !IsSpace(r[0])
    ensures forall i :: 0 <= i < |s| - |r| ==> IsSpace(s[i])
    decreases |s|
  {
    if |s| > 0 && IsSpace(s[0]) then
      var r := TrimStart(s[1..]);
      assert forall i :: 1 <= i < |s| - |r| ==> s[i] == s[1..][i - 1];
      r
    else s
  }

  function TrimEnd(s: string): (r: string)
    ensures |r| <= |s| && r == s[..|r|]
    ensures |r| > 0 ==> !IsSpace(r[|r| - 1])
    ensures forall i :: |r| <= i < |s| ==> IsSpace(s[i])
    decreases |s|
  {
    if |s| > 0 && IsSpace(s[|s| - 1]) then TrimEnd(s[..|s| - 1]) else s
  }

  /** `s.trim()`. */
  function Trim(s: string): string {
    TrimEnd(TrimStart(s))
  }

  /** Trimming a trimmed string changes nothing. */
  lemma TrimIdempotent(s: string)
    ensures Trim(Trim(s)) == Trim(s)
  {
    var u := TrimStart(s);
    var t := TrimEnd(u);
    if |t| > 0 {
      assert t[0] == u[0];
    }
  }

  /** A leading space does not survive `trim`. */
  lemma TrimLeadingSpace(s: string)
    ensures Trim(" " + s) == Trim(s)
  {
    assert (" " + s)[1..] == s;
  }

  /** A string that neither starts nor ends with white space is its own trim. */
  lemma TrimUnpadded(s: string)
    requires |s| > 0 && !IsSpace(s[0]) && !IsSpace(s[|s| - 1])
    ensures Trim(s) == s
  {
    assert TrimStart(s) == s;
  }

  predicate Blank(s: string) {
    forall i :: 0 <= i < |s| ==> IsSpace(s[i])
  }

  /** `!s.trim()` holds exactly when every character of `s` is white space. */
  lemma TrimEmptyIffBlank(s: string)
    ensures Trim(s) == "" <==> Blank(s)
  {
    var t := TrimStart(s);
    if Trim(s) == "" {
      assert |t| == 0;
    } else {
      var r := Trim(s);
      assert !IsSpace(r[0]);
      assert r[0] == s[|s| - |t|];
    }
  }

  // ---------------------------------------------------------------- split / join

  /** `s.split(sep)` for a one-character separator. */
  function Split(s: string, sep: char): (r: seq<string>)
    ensures |r| >= 1
    ensures forall k :: 0 <= k < |r| ==> sep !in r[k]
    decreases |s|
  {
    if |s| == 0 then [""]
    else
      var rest := Split(s[1..], sep);
      if s[0] == sep then [""] + rest else [[s[0]] + rest[0]] + rest[1..]
  }

  /** `parts.join(sep)`. */
  function Join(parts: seq<string>, sep: string): string
    decreases |parts|
  {
    if |parts| == 0 then ""
    else if |parts| == 1 then parts[0]
    else parts[0] + sep + Join(parts[1..], sep)
  }

  /** Splitting on a character and joining with it again gives back the string. */
  lemma {:induction false} JoinSplit(s: string, sep: char)
    ensures Join(Split(s, sep), [sep]) == s
    decreases |s|
  {
    if |s| > 0 {
      var rest := Split(s[1..], sep);
      JoinSplit(s[1..], sep);
      if s[0] != sep && |rest| > 1 {
        assert Join(rest, [sep]) == rest[0] + [sep] + Join(rest[1..], [sep]);
      }
    }
  }

  /** A string without the separator splits into itself. */
  lemma {:induction false} SplitNoSep(a: string, sep: char)
    requires sep !in a
    ensures Split(a, sep) == [a]
    decreases |a|
  {
    if |a| > 0 {
      SplitNoSep(a[1..], sep);
      assert [a[0]] + a[1..] == a;
    }
  }

  /** Splitting at the first separator: the piece before it, then the pieces after it. */
  lemma {:induction false} SplitAtSep(a: string, b: string, sep: char)
    requires sep !in a
    ensures Split(a + [sep] + b, sep) == [a] + Split(b, sep)
    decreases |a|
  {
    var s := a + [sep] + b;
    if |a| == 0 {
      assert s[1..] == b;
    } else {
      assert s[1..] == a[1..] + [sep] + b;
      SplitAtSep(a[1..], b, sep);
      assert [a[0]] + a[1..] == a;
    }
  }

  /** Joining pieces that do not contain the separator and splitting again gives them back. */
  lemma {:induction false} SplitJoin(parts: seq<string>, sep: char)
    requires |parts| >= 1
    requires forall k :: 0 <= k < |parts| ==> sep !in parts[k]
    ensures Split(Join(parts, [sep]), sep) == parts
    decreases |parts|
  {
    if |parts| == 1 {
      SplitNoSep(parts[0], sep);
    } else {
      SplitJoin(parts[1..], sep);
      SplitAtSep(parts[0], Join(parts[1..], [sep]), sep);
      assert parts == [parts[0]] + parts[1..];
    }
  }

  /** A non-empty run of characters none of which is white space. */
  predicate IsWord(w: string) {
    |w| > 0 && forall j :: 0 <= j < |w| ==> !IsSpace(w[j])
  }

  /** The maximal runs of non-space characters: `s.split(/\s+/).filter(Boolean)`. */
  function Words(s: string): (r: seq<string>)
    ensures forall k :: 0 <= k < |r| ==> |r[k]| > 0 && IsWord(r[k])
    decreases |s|
  {
    var t := TrimStart(s);
    if |t| == 0 then []
    else
      var w := TakeWord(t);
      assert IsWord(w) && |w| <= |t| <= |s|;
      var after := t[|w|..];
      assert |after| < |s|;
      var rest := Words(after);
      WordsPrepend(w, rest);
      [w] + rest
  }

  lemma WordsPrepend(w: string, rest: seq<string>)
    requires IsWord(w)
    requires forall k :: 0 <= k < |rest| ==> |rest[k]| > 0 && IsWord(rest[k])
    ensures forall k :: 0 <= k < |rest| + 1 ==> |([w] + rest)[k]| > 0 && IsWord(([w] + rest)[k])
  {
    forall k | 0 <= k < |rest| + 1
      ensures |([w] + rest)[k]| > 0 && IsWord(([w] + rest)[k])
    {
      if k > 0 {
        assert ([w] + rest)[k] == rest[k - 1];
      }
    }
  }

  /** The longest prefix of `s` without white space. */
  function TakeWord(s: string): (r: string)
    ensures r <= s
    ensures forall j :: 0 <= j < |r| ==> !IsSpace(r[j])
    ensures |r| < |s| ==> IsSpace(s[|r|])
    ensures |s| > 0 && !IsSpace(s[0]) ==> |r| >= 1
    decreases |s|
  {
    if |s| == 0 || IsSpace(s[0]) then "" else [s[0]] + TakeWord(s[1..])
  }

  // -------------------------------------------------------------- digits/numbers

  predicate IsDigit(c: char) {
    '0' <= c <= '9'
  }

  function DigitChar(d: nat): (c: char)
    requires d < 10
    ensures IsDigit(c) && c as int - '0' as int == d
  {
    ((d + '0' as int) as char)
  }

  /** Decimal text of a natural number, most significant digit first. */
  function NatToString(n: nat): (r: string)
    ensures |r| >= 1
    ensures forall i :: 0 <= i < |r| ==> IsDigit(r[i])
    decreases n
  {
    if n < 10 then [DigitChar(n)] else NatToString(n / 10) + [DigitChar(n % 10)]
  }

  /** `String(i)` for an integer. */
  function IntToString(i: int): string {
    if i < 0 then "-" + NatToString(-i) else NatToString(i)
  }

  /** The value of a non-empty string of decimal digits. */
  function ParseNat(s: string): nat
    requires |s| >= 1 && forall i :: 0 <= i < |s| ==> IsDigit(s[i])
    decreases |s|
  {
    assert IsDigit(s[|s| - 1]);
    var last := s[|s| - 1] as int - '0' as int;
    if |s| == 1 then last else ParseNat(s[..|s| - 1]) * 10 + last
  }

  /** Printing a number in decimal and reading it back gives the number. */
  lemma {:induction false} ParseNatToString(n: nat)
    ensures ParseNat(NatToString(n)) == n
    decreases n
  {
    if n >= 10 {
      var s := NatToString(n);
      assert s[..|s| - 1] == NatToString(n / 10);
      ParseNatToString(n / 10);
    }
  }

  // ----------------------------------------------------------------- sequences

  /** `s.filter(f)`. */
  function Filter<T>(s: seq<T>, f: T -> bool): (r: seq<T>)
    ensures |r| <= |s|
    ensures forall i :: 0 <= i < |r| ==> r[i] in s && f(r[i])
    ensures forall i :: 0 <= i < |s| && f(s[i]) ==> s[i] in r
    decreases |s|
  {
    if |s| == 0 then []
    else if f(s[0]) then [s[0]] + Filter(s[1..], f)
    else Filter(s[1..], f)
  }

  /** The head and tail of a sequence built by prepending. */
  lemma ConsParts<T>(x: T, ws: seq<T>)
    ensures ([x] + ws)[0] == x && ([x] + ws)[1..] == ws
  {
  }

  /** Filtering keeps store order: it distributes over concatenation. */
  lemma {:induction false} FilterAppend<T>(a: seq<T>, b: seq<T>, f: T -> bool)
    ensures Filter(a + b, f) == Filter(a, f) + Filter(b, f)
    decreases |a|
  {
    if |a| > 0 {
      assert (a + b)[0] == a[0];
      assert (a + b)[1..] == a[1..] + b;
      FilterAppend(a[1..], b, f);
      if f(a[0]) {
        assert Filter(a + b, f) == [a[0]] + Filter(a[1..] + b, f);
        assert Filter(a, f) == [a[0]] + Filter(a[1..], f);
      } else {
        assert Filter(a + b, f) == Filter(a[1..] + b, f);
      }
    } else {
      assert a + b == b;
    }
  }

  /** Filtering with a predicate every element meets changes nothing. */
  lemma {:induction false} FilterAll<T>(s: seq<T>, f: T -> bool)
    requires forall i :: 0 <= i < |s| ==> f(s[i])
    ensures Filter(s, f) == s
    decreases |s|
  {
    if |s| > 0 {
      FilterAll(s[1..], f);
    }
  }

  /** `s.flatMap(f)`: the sequences of the elements, one after another. */
  function FlatMap<T, U>(s: seq<T>, f: T -> seq<U>): seq<U>
    decreases |s|
  {
    if |s| == 0 then [] else f(s[0]) + FlatMap(s[1..], f)
  }

  /** Flat-mapping distributes over concatenation. */
  lemma {:induction false} FlatMapAppend<T, U>(a: seq<T>, b: seq<T>, f: T -> seq<U>)
    ensures FlatMap(a + b, f) == FlatMap(a, f) + FlatMap(b, f)
    decreases |a|
  {
    if |a| == 0 {
      assert a + b == b;
    } else {
      ConsParts(a[0], a[1..] + b);
      assert a + b == [a[0]] + (a[1..] + b);
      FlatMapAppend(a[1..], b, f);
    }
  }

  /** An element of the flat map comes from some element's sequence, and every element of
      every element's sequence is in it. */
  lemma {:induction false} FlatMapMembers<T, U>(s: seq<T>, f: T -> seq<U>)
    ensures forall x :: x in FlatMap(s, f) <==> exists k :: 0 <= k < |s| && x in f(s[k])
    decreases |s|
  {
    if |s| > 0 {
      FlatMapMembers(s[1..], f);
      assert forall k :: 0 <= k < |s| - 1 ==> s[1..][k] == s[k + 1];
      forall x | x in f(s[0]) || exists k :: 0 <= k < |s| - 1 && x in f(s[1..][k])
        ensures exists k :: 0 <= k < |s| && x in f(s[k])
      {
        if x !in f(s[0]) {
          var k :| 0 <= k < |s| - 1 && x in f(s[1..][k]);
          assert x in f(s[k + 1]);
        }
      }
      forall x | exists k :: 0 <= k < |s| && x in f(s[k])
        ensures x in f(s[0]) || exists k :: 0 <= k < |s| - 1 && x in f(s[1..][k])
      {
        var k :| 0 <= k < |s| && x in f(s[k]);
        if k > 0 {
          assert x in f(s[1..][k - 1]);
        }
      }
    }
  }

  /** Number of elements meeting `f`. */
  function Count<T>(s: seq<T>, f: T -> bool): (r: nat)
    ensures r <= |s|
    decreases |s|
  {
    if |s| == 0 then 0 else (if f(s[0]) then 1 else 0) + Count(s[1..], f)
  }

  /** Counting the elements meeting `f` is measuring the filtered sequence. */
  lemma {:induction false} CountFilter<T>(s: seq<T>, f: T -> bool)
    ensures Count(s, f) == |Filter(s, f)|
    decreases |s|
  {
    if |s| > 0 {
      CountFilter(s[1..], f);
    }
  }

  /** Counting distributes over concatenation. */
  lemma CountAppend<T>(a: seq<T>, b: seq<T>, f: T -> bool)
    ensures Count(a + b, f) == Count(a, f) + Count(b, f)
  {
    CountFilter(a + b, f);
    CountFilter(a, f);
    CountFilter(b, f);
    FilterAppend(a, b, f);
  }

  /** `s.find(f)`: the first element meeting `f`. */
  function Find<T>(s: seq<T>, f: T -> bool): (r: Option<T>)
    ensures r.Some? <==> exists i :: 0 <= i < |s| && f(s[i])
    ensures r.Some? ==> exists i :: 0 <= i < |s| && s[i] == r.value && f(s[i]) && forall j :: 0 <= j < i ==> !f(s[j])
    decreases |s|
  {
    if |s| == 0 then None
    else if f(s[0]) then Some(s[0])
    else
      var r := Find(s[1..], f);
      assert r.Some? ==> exists i :: 1 <= i < |s| && s[i] == r.value && f(s[i]) && forall j :: 0 <= j < i ==> !f(s[j]) by {
        if r.Some? {
          var i :| 0 <= i < |s[1..]| && s[1..][i] == r.value && f(s[1..][i]) && forall j :: 0 <= j < i ==> !f(s[1..][j]);
          assert s[i + 1] == r.value;
          forall j | 0 <= j < i + 1 ensures !f(s[j]) {
            if j > 0 { assert s[j] == s[1..][j - 1]; }
          }
        }
      }
      r
  }

  /** `find` looks at the head first, then the rest. */
  lemma FindCons<T>(x: T, rest: seq<T>, f: T -> bool)
    ensures Find([x] + rest, f) == if f(x) then Some(x) else Find(rest, f)
  {
    assert ([x] + rest)[0] == x && ([x] + rest)[1..] == rest;
  }
}

=== FILE: users.dfy ===
/** `usersApi` on the in-memory path, the `/api/auth/register` route, and the next-auth
    callbacks `authorize`, `redirect`, `jwt` and `session`. The password hash (SHA-256 in
    hex) and URL origin parsing are passed in as functions. */
module Users {
  import opened Text
  import opened Http
  import Credits

  datatype User = User(id: Option<int>, email: string, passwordHash: string, name: string,
                       createdAt: Option<string>, updatedAt: Option<string>)

  /** The part of an email before the first '@': `email.split("@")[0]`. */
  function LocalPart(email: string): (r: string)
    ensures r <= email && '@' !in r
    ensures |r| < |email| ==> email[|r|] == '@'
  {
    var r := Split(email, '@')[0];
    SplitFirst(email, '@');
    r
  }

  /** The first piece of a split is the prefix before the first separator. */
  lemma {:induction false} SplitFirst(s: string, sep: char)
    ensures Split(s, sep)[0] <= s
    ensures |Split(s, sep)[0]| < |s| ==> s[|Split(s, sep)[0]|] == sep
    decreases |s|
  {
    if |s| > 0 && s[0] != sep {
      SplitFirst(s[1..], sep);
    }
  }

  /** `getByEmail`: the first user with exactly that email. */
  function GetByEmail(users: seq<User>, email: string): (r: Option<User>)
    ensures r.None? <==> forall j :: 0 <= j < |users| ==> users[j].email != email
    ensures r.Some? ==> r.value.email == email && r.value in users
  {
    Find(users, (u: User) => u.email == email)
  }

  /** `create`: appends with id = length + 1 and both timestamps = now. */
  function Create(users: seq<User>, email: string, passwordHash: string, name: string, now: string): (r: (seq<User>, User))
    ensures r.0 == users + [r.1]
    ensures r.1 == User(Some(|users| + 1), email, passwordHash, name, Some(now), Some(now))
  {
    var u := User(Some(|users| + 1), email, passwordHash, name, Some(now), Some(now));
    (users + [u], u)
  }

  /** `verifyPassword`: the user with that email, if the hash of the password is the stored
      one. */
  function VerifyPassword(users: seq<User>, email: string, password: string, hash: string -> string): (r: Option<User>)
    ensures r.Some? <==> GetByEmail(users, email).Some? && hash(password) == GetByEmail(users, email).value.passwordHash
    ensures r.Some? ==> r.value.email == email
  {
    var u := GetByEmail(users, email);
    if u.Some? && hash(password) == u.value.passwordHash then u else None
  }

  // ------------------------------------------------------------------ registration

  datatype RegisterBody =
    | Registered(id: Option<int>, email: string, name: string, message: string)
    | Rejected(error: string)

  /** A request whose body cannot be read carries the thrown error's message, if any. */
  datatype RegisterRequest =
    | Unparseable(message: Option<string>)
    | Registration(email: Option<string>, password: Option<string>, name: Option<string>)

  /** The application state registration touches. */
  datatype Accounts = Accounts(users: seq<User>, credits: Credits.Ledgers)

  /** `POST /api/auth/register`: 400 without email or password, 409 for a known email,
      otherwise the user is created (name defaulting to the email's local part) and the
      credit balance initialised; a failure there does not fail the registration. */
  function Register(a: Accounts, req: RegisterRequest, hash: string -> string, b: Credits.Backend, now: string): (r: (Accounts, Response<RegisterBody>))
    ensures req.Unparseable? && Truthy(req.message) ==> r == (a, Response(500, Rejected(req.message.value)))
    ensures req.Unparseable? && !Truthy(req.message) ==> r == (a, Response(500, Rejected("Registration failed")))
    ensures req.Registration? && (!Truthy(req.email) || !Truthy(req.password)) ==>
              r == (a, Response(400, Rejected(("Email and " + "password are " + "required"))))
    ensures req.Registration? && Truthy(req.email) && Truthy(req.password) && GetByEmail(a.users, req.email.value).Some? ==>
              r == (a, Response(409, Rejected(("User with this " + "email already " + "exists"))))
    ensures req.Registration? && Truthy(req.email) && Truthy(req.password) && GetByEmail(a.users, req.email.value).None? ==>
              r.1.status == 200 && |r.0.users| == |a.users| + 1 && r.0.users[..|a.users|] == a.users &&
              var u := r.0.users[|a.users|];
              u.email == req.email.value && u.passwordHash == hash(req.password.value) &&
              u.name == OrElse(req.name, LocalPart(req.email.value)) &&
              GetByEmail(r.0.users, req.email.value) == Some(u) &&
              (r.0.credits, Credits.Granted(Credits.GetOrInit(a.credits, u.email, b).1.credits)) ==
                Credits.GetOrInit(a.credits, u.email, b)
    ensures r.1.status in {200, 400, 409, 500}
  {
    match req
    case Unparseable(message) => (a, Response(500, Rejected(OrElse(message, "Registration failed"))))
    case Registration(email, password, name) =>
      if !Truthy(email) || !Truthy(password) then (a, Response(400, Rejected(("Email and " + "password are " + "required"))))
      else if GetByEmail(a.users, email.value).Some? then (a, Response(409, Rejected(("User with this " + "email already " + "exists"))))
      else
        var (us, u) := Create(a.users, email.value, hash(password.value), OrElse(name, LocalPart(email.value)), now);
        FindAppend(a.users, u);
        var (ledgers, _) := Credits.GetOrInit(a.credits, email.value, b);
        (Accounts(us, ledgers), Response(200, Registered(u.id, u.email, u.name, "User registered successfully")))
  }

  /** A user appended behind users with other emails is the one found for its email. */
  lemma FindAppend(users: seq<User>, u: User)
    requires forall j :: 0 <= j < |users| ==> users[j].email != u.email
    ensures GetByEmail(users + [u], u.email) == Some(u)
  {
    var s := users + [u];
    var r := GetByEmail(s, u.email);
    assert s[|users|].email == u.email;
    var i :| 0 <= i < |s| && s[i] == r.value && s[i].email == u.email && forall j :: 0 <= j < i ==> !(s[j].email == u.email);
    assert i == |users|;
  }

  /** Registering twice with one email: the second attempt is refused with 409. */
  lemma RegisterTwiceConflicts(a: Accounts, email: string, p1: string, p2: string, hash: string -> string, b: Credits.Backend, now: string)
    requires email != "" && p1 != "" && p2 != ""
    requires GetByEmail(a.users, email).None?
    ensures var r1 := Register(a, Registration(Some(email), Some(p1), None), hash, b, now);
      var r2 := Register(r1.0, Registration(Some(email), Some(p2), None), hash, b, now);
      r1.1.status == 200 && r2.1.status == 409 && r2.0 == r1.0
  {
  }

  // ------------------------------------------------------------------ next-auth callbacks

  /** What `authorize` returns for a signed-in user. */
  datatype SessionUser = SessionUser(id: string, name: string, email: string)

  /** `authorize`: the email is trimmed; empty credentials give null; a wrong password gives
      null; otherwise id = the user id as text (or the email) and name = the user's name (or
      the email's local part). */
  function Authorize(users: seq<User>, email: Option<string>, password: Option<string>, hash: string -> string): (r: Option<SessionUser>)
    ensures Trim(GetOr(email, "")) == "" || GetOr(password, "") == "" ==> r.None?
    ensures r.Some? <==> Trim(GetOr(email, "")) != "" && GetOr(password, "") != "" &&
                          VerifyPassword(users, Trim(GetOr(email, "")), GetOr(password, ""), hash).Some?
    ensures r.Some? ==> var u := GetByEmail(users, Trim(GetOr(email, ""))).value;
              r.value.email == u.email && r.value.email == Trim(GetOr(email, "")) &&
              r.value.name == (if u.name != "" then u.name else LocalPart(u.email)) &&
              r.value.id == (if u.id.Some? then IntToString(u.id.value) else u.email)
  {
    var e := Trim(GetOr(email, ""));
    var p := GetOr(password, "");
    if e == "" || p == "" then None
    else
      var u := VerifyPassword(users, e, p, hash);
      if u.None? then None
      else
        Some(SessionUser(if u.value.id.Some? then IntToString(u.value.id.value) else e,
                         if u.value.name != "" then u.value.name else LocalPart(e),
                         u.value.email))
  }

  /** A freshly registered user can sign in with the same email and password, and gets the
      id the store assigned. */
  lemma RegisterThenAuthorize(a: Accounts, email: string, password: string, hash: string -> string, b: Credits.Backend, now: string)
    requires email != "" && password != "" && Trim(email) == email
    requires GetByEmail(a.users, email).None?
    ensures var r := Register(a, Registration(Some(email), Some(password), None), hash, b, now);
      var s := Authorize(r.0.users, Some(email), Some(password), hash);
      s.Some? && s.value.email == email && s.value.id == IntToString(|a.users| + 1)
  {
  }

  /** `redirect`: a path is made absolute; an absolute url on the same origin is kept; any
      other input, including one `origin` cannot parse (`None`), goes to the dashboard. */
  function Redirect(url: string, baseUrl: string, origin: string -> Option<string>): (r: string)
    ensures |url| > 0 && url[0] == '/' ==> r == baseUrl + url
    ensures !(|url| > 0 && url[0] == '/') && origin(url) == Some(baseUrl) ==> r == url
    ensures !(|url| > 0 && url[0] == '/') && origin(url) != Some(baseUrl) ==> r == baseUrl + "/dashboard"
    ensures baseUrl <= r || origin(r) == Some(baseUrl)
  {
    if |url| > 0 && url[0] == '/' then baseUrl + url
    else if origin(url) == Some(baseUrl) then url
    else baseUrl + "/dashboard"
  }

  /** The JWT fields the application reads. */
  datatype Token = Token(email: Option<string>, name: Option<string>)

  /** `jwt`: copies email and name when a user signed in, otherwise keeps the token. */
  function Jwt(token: Token, user: Option<SessionUser>): (r: Token)
    ensures user.None? ==> r == token
    ensures user.Some? ==> r.email == Some(user.value.email) && r.name == Some(user.value.name)
  {
    if user.Some? then Token(Some(user.value.email), Some(user.value.name)) else token
  }

  /** The session user the client sees. */
  datatype SessionInfo = SessionInfo(email: Option<string>, name: Option<string>)

  /** `session`: copies email and name from the token. */
  function Session(session: SessionInfo, token: Option<Token>): (r: SessionInfo)
    ensures token.None? ==> r == session
    ensures token.Some? ==> r.email == token.value.email && r.name == token.value.name
  {
    if token.Some? then SessionInfo(token.value.email, token.value.name) else session
  }

  /** After sign-in the session carries the signed-in user's email and name. */
  lemma SignInReachesSession(token: Token, u: SessionUser, s: SessionInfo)
    ensures Session(s, Some(Jwt(token, Some(u)))) == SessionInfo(Some(u.email), Some(u.name))
  {
  }
}

=== FILE: webhook.dfy ===
/** The provider's webhook: an optional shared-secret check on the `Authorization` header,
    then the event is dispatched by type. Call start and end events and two of the
    assistant's function calls (`take_notes`, `collect_candidate_info`) write to the
    candidates table; every other event leaves it alone. */
module Webhook {
  import opened Text
  import opened Http
  import opened Candidates

  // ------------------------------------------------------------------ authorization

  /** `header.replace(/^Bearer\s+/i, "")`: a leading "Bearer" in any letter case followed by
      at least one white-space character is removed with all of that white space. */
  function ExtractToken(header: string): (r: string)
    ensures |r| <= |header| && r == header[|header| - |r|..]
    ensures r != header ==> |header| > 6 && Lower(header[..6]) == "bearer" && IsSpace(header[6])
  {
    if |header| > 6 && Lower(header[..6]) == "bearer" && IsSpace(header[6]) then TrimStart(header[6..])
    else header
  }

  /** Whether the request passes the secret check: with no secret configured every request
      does; otherwise the extracted token must be non-empty and equal to the secret. */
  predicate Authorized(secret: Option<string>, header: Option<string>) {
    !Truthy(secret) || (var t := ExtractToken(OrElse(header, "")); t != "" && t == secret.value)
  }

  /** With a secret configured, a request without an authorisation header is refused;
      with none configured, every request passes. */
  lemma NoHeaderRefused(secret: Option<string>, header: Option<string>)
    ensures Truthy(secret) ==> !Authorized(secret, None)
    ensures !Truthy(secret) ==> Authorized(secret, header)
  {
    var t := ExtractToken("");
    assert |t| == 0;
  }

  /** The usual header, "Bearer " and the secret, is accepted, unless the secret itself
      starts with white space (which the prefix pattern swallows). */
  lemma BearerSecretAccepted(secret: string)
    requires secret != "" && !IsSpace(secret[0])
    ensures Authorized(Some(secret), Some("Bearer " + secret))
  {
    var h := "Bearer " + secret;
    assert h[..6] == "Bearer";
    LowerBearer();
    var rest := h[6..];
    assert rest == " " + secret;
    assert rest[1..] == secret;
    assert TrimStart(rest) == TrimStart(secret);
    assert TrimStart(secret) == secret;
  }

  /** A secret with leading white space can never be presented after "Bearer ". */
  lemma LeadingSpaceSecretRejected(secret: string)
    requires |secret| > 0 && IsSpace(secret[0])
    ensures !Authorized(Some(secret), Some("Bearer " + secret))
  {
    var h := "Bearer " + secret;
    assert h[..6] == "Bearer";
    LowerBearer();
    var t := ExtractToken(h);
    assert |t| == 0 || !IsSpace(t[0]);
  }

  lemma LowerBearer()
    ensures Lower("Bearer") == "bearer"
  {
    var l := Lower("Bearer");
    assert l[0] == 'b' && l[1] == 'e' && l[2] == 'a' && l[3] == 'r' && l[4] == 'e' && l[5] == 'r';
  }

  // ------------------------------------------------------------------ events

  /** The parameters of a function call; `additionalInfo` is the JSON text of a truthy
      `additional_info` value. */
  datatype Parameters = Parameters(
    question: Option<string>,
    response: Option<string>,
    keyPoints: Option<seq<string>>,
    candidateName: Option<string>,
    email: Option<string>,
    position: Option<string>,
    phone: Option<string>,
    additionalInfo: Option<string>)

  datatype FunctionCall = FunctionCall(name: Option<string>, parameters: Option<Parameters>)

  /** A webhook event; `metadataPhone` is `metadata.phoneNumber` and `customerNumber` is
      `customer.number`. */
  datatype Event = Event(
    kind: Option<string>,
    callId: Option<string>,
    summary: Option<string>,
    transcript: Option<string>,
    metadataPhone: Option<string>,
    customerNumber: Option<string>,
    functionCall: Option<FunctionCall>)

  /** The request body: not JSON, or JSON that may be `null`. */
  datatype WebhookBody = Unparseable | Parsed(event: Option<Event>)

  datatype Ack = Ack(ok: bool, error: Option<string>)

  /** Which candidate selects of one request fail: the lookup by call id, and the lookup
      of a calling row by phone. The handlers read only `data`, so a failed select is
      taken as one that found no row. */
  datatype SelectFaults = SelectFaults(byCallId: bool, byPhone: bool)

  const NoFaults := SelectFaults(false, false)

  /** The first row that carries this call id (`.eq('vapi_call_id', id).limit(1)`). */
  function RowByCallId(table: Store, callId: string): (r: Option<Candidate>)
    ensures r.Some? ==> r.value in table && r.value.vapiCallId == Some(callId)
    ensures r.None? <==> forall j :: 0 <= j < |table| ==> table[j].vapiCallId != Some(callId)
  {
    Find(table, (c: Candidate) => c.vapiCallId == Some(callId))
  }

  // ------------------------------------------------------------------ call started

  /** `handleCallStarted`: the row with this call id becomes "calling" with start time now;
      `updated_at` is not touched. */
  function CallStarted(table: Store, e: Event, dbConfigured: bool, faults: SelectFaults, now: string): (r: Store)
    ensures |r| == |table|
    ensures !dbConfigured || !Truthy(e.callId) || faults.byCallId || RowByCallId(table, e.callId.value).None? ==> r == table
    ensures dbConfigured && Truthy(e.callId) && !faults.byCallId && RowByCallId(table, e.callId.value).Some? ==>
              var id := RowByCallId(table, e.callId.value).value.id;
              forall j :: 0 <= j < |table| ==>
                (table[j].id == id ==> r[j].status == "calling" && r[j].callStartTime == Some(now) && r[j].updatedAt == table[j].updatedAt) &&
                (table[j].id != id ==> r[j] == table[j])
  {
    if !dbConfigured || !Truthy(e.callId) || faults.byCallId then table
    else
      var row := RowByCallId(table, e.callId.value);
      if row.None? then table
      else DbWrite(table, row.value.id, NoChange.(status := Some("calling"), callStartTime := Some(Some(now))))
  }

  // ------------------------------------------------------------------ call ended

  /** The fields written for an ended call. */
  function EndedPatch(e: Event, now: string): (r: Patch)
    ensures r.status == Some("completed") && r.callEndTime == Some(Some(now)) && r.callTime == Some(Some(now))
    ensures r.callResult.Some? && r.callResult.value.Some? && r.callResult.value.value != ""
    ensures r.vapiCallId.None? && r.name.None? && r.phone.None?
    ensures !Truthy(e.transcript) ==> Json(r).callNotes.None?
    ensures Truthy(e.transcript) ==> r.callNotes == Some(Some(Take(e.transcript.value, 500)))
  {
    NoChange.(status := Some("completed"),
              callEndTime := Some(Some(now)),
              callResult := Some(Some(OrElse(e.summary, "Completed"))),
              callNotes := Some(if Truthy(e.transcript) then Some(Take(e.transcript.value, 500)) else None),
              callTime := Some(Some(now)))
  }

  /** The phone an ended call is matched by when no row carries its id. */
  function EventPhone(e: Event): Option<string> {
    OrOpt(e.metadataPhone, e.customerNumber)
  }

  /** The first "calling" row whose stored phone is exactly this text. */
  function CallingRowByPhone(table: Store, phone: string): (r: Option<Candidate>)
    ensures r.Some? ==> r.value in table && r.value.phone == phone && r.value.status == "calling"
    ensures r.None? <==> forall j :: 0 <= j < |table| ==> !(table[j].phone == phone && table[j].status == "calling")
  {
    Find(table, (c: Candidate) => c.phone == phone && c.status == "calling")
  }

  /** The phone fallback compares raw text: a row stored without the separators the event
      writes into its number is not found, although the import's normalised comparison
      matches the two. */
  lemma FormattedPhoneMissesRow(c: Candidate, a: string, b: string, sep: char)
    requires c.phone == a + b
    ensures CallingRowByPhone([c], a + [sep] + b).None?
  {
    assert |a + [sep] + b| != |c.phone|;
  }

  /** The phone fallback of `handleCallEnded`: the first calling row with the event's
      phone is completed and given the call id. */
  function EndByPhone(table: Store, e: Event, byPhoneFails: bool, now: string): (r: Store)
    ensures |r| == |table|
    ensures byPhoneFails || !Truthy(EventPhone(e)) || CallingRowByPhone(table, EventPhone(e).value).None? ==> r == table
    ensures !byPhoneFails && Truthy(EventPhone(e)) && CallingRowByPhone(table, EventPhone(e).value).Some? ==>
              r == DbWrite(table, CallingRowByPhone(table, EventPhone(e).value).value.id,
                           EndedPatch(e, now).(vapiCallId := Some(e.callId)))
  {
    var phone := EventPhone(e);
    if byPhoneFails || !Truthy(phone) then table
    else
      var byPhone := CallingRowByPhone(table, phone.value);
      if byPhone.None? then table
      else DbWrite(table, byPhone.value.id, EndedPatch(e, now).(vapiCallId := Some(e.callId)))
  }

  /** `handleCallEnded`: the row with this call id is completed; failing that, including
      when the select by call id fails, the phone fallback runs. */
  function CallEnded(table: Store, e: Event, dbConfigured: bool, faults: SelectFaults, now: string): (r: Store)
    ensures |r| == |table|
    ensures !dbConfigured || !Truthy(e.callId) ==> r == table
    ensures dbConfigured && Truthy(e.callId) && !faults.byCallId && RowByCallId(table, e.callId.value).Some? ==>
              r == DbWrite(table, RowByCallId(table, e.callId.value).value.id, EndedPatch(e, now))
    ensures dbConfigured && Truthy(e.callId) && (faults.byCallId || RowByCallId(table, e.callId.value).None?) ==>
              r == EndByPhone(table, e, faults.byPhone, now)
    ensures dbConfigured && Truthy(e.callId) && (faults.byCallId || RowByCallId(table, e.callId.value).None?) ==>
              (faults.byPhone || !Truthy(EventPhone(e)) || CallingRowByPhone(table, EventPhone(e).value).None? ==> r == table)
    ensures dbConfigured && Truthy(e.callId) && (faults.byCallId || RowByCallId(table, e.callId.value).None?) &&
            !faults.byPhone && Truthy(EventPhone(e)) && CallingRowByPhone(table, EventPhone(e).value).Some? ==>
              r == DbWrite(table, CallingRowByPhone(table, EventPhone(e).value).value.id,
                           EndedPatch(e, now).(vapiCallId := Some(e.callId)))
  {
    if !dbConfigured || !Truthy(e.callId) then table
    else
      var row := if faults.byCallId then None else RowByCallId(table, e.callId.value);
      if row.Some? then DbWrite(table, row.value.id, EndedPatch(e, now))
      else EndByPhone(table, e, faults.byPhone, now)
  }

  /** A failed select by call id is read as "no row": the phone fallback then completes a
      calling row with the event's phone even though another row holds the call id. */
  lemma FailedIdSelectUsesPhone(table: Store, e: Event, now: string)
    requires Truthy(e.callId) && RowByCallId(table, e.callId.value).Some?
    requires Truthy(EventPhone(e)) && CallingRowByPhone(table, EventPhone(e).value).Some?
    ensures var c := CallingRowByPhone(table, EventPhone(e).value).value;
      CallEnded(table, e, true, SelectFaults(true, false), now) ==
        DbWrite(table, c.id, EndedPatch(e, now).(vapiCallId := Some(e.callId)))
  {
  }

  /** A completed row: status "completed", end and call time now, and a result. */
  lemma CallEndedCompletes(table: Store, e: Event, now: string, j: int)
    requires Truthy(e.callId) && 0 <= j < |table|
    requires RowByCallId(table, e.callId.value).Some? && table[j].id == RowByCallId(table, e.callId.value).value.id
    ensures var r := CallEnded(table, e, true, NoFaults, now)[j];
      r.status == "completed" && r.callEndTime == Some(now) && r.callTime == Some(now) &&
      r.callResult == Some(OrElse(e.summary, "Completed")) &&
      r.callNotes == (if Truthy(e.transcript) then Some(Take(e.transcript.value, 500)) else table[j].callNotes)
  {
  }

  /** The phone fallback hands the call id to the row it completes, so that later events
      for the same call find the row by id. */
  lemma CallEndedByPhoneRecordsId(table: Store, e: Event, now: string)
    requires Truthy(e.callId) && RowByCallId(table, e.callId.value).None?
    requires Truthy(EventPhone(e)) && CallingRowByPhone(table, EventPhone(e).value).Some?
    ensures RowByCallId(CallEnded(table, e, true, NoFaults, now), e.callId.value).Some?
  {
    var c := CallingRowByPhone(table, EventPhone(e).value).value;
    var j :| 0 <= j < |table| && table[j] == c;
    var r := CallEnded(table, e, true, NoFaults, now);
    assert r[j].vapiCallId == e.callId;
  }

  /** A repeated call-ended event for a row found by id changes nothing more. */
  lemma CallEndedTwice(table: Store, e: Event, now: string)
    requires Truthy(e.callId) && RowByCallId(table, e.callId.value).Some?
    ensures CallEnded(CallEnded(table, e, true, NoFaults, now), e, true, NoFaults, now) == CallEnded(table, e, true, NoFaults, now)
  {
    var id := RowByCallId(table, e.callId.value).value.id;
    var once := CallEnded(table, e, true, NoFaults, now);
    assert forall j :: 0 <= j < |table| ==> once[j].vapiCallId == table[j].vapiCallId && once[j].id == table[j].id;
    var i := RowIndex(table, e.callId.value);
    RowAtFirstMatch(once, e.callId.value, i);
    DbWriteTwice(table, id, EndedPatch(e, now));
  }

  /** `Find` returns the element at the first index that meets the test. */
  lemma FindFirst<T>(s: seq<T>, f: T -> bool, i: int)
    requires 0 <= i < |s| && f(s[i]) && forall k :: 0 <= k < i ==> !f(s[k])
    ensures Find(s, f) == Some(s[i])
  {
    var w :| 0 <= w < |s| && s[w] == Find(s, f).value && f(s[w]) && forall j :: 0 <= j < w ==> !f(s[j]);
    assert w == i;
  }

  /** Events are not ordered: a late call-started event puts a completed row back to
      "calling". */
  lemma StartAfterEndReopens(table: Store, e: Event, now: string, j: int)
    requires Truthy(e.callId) && 0 <= j < |table|
    requires RowByCallId(table, e.callId.value) == Some(table[j])
    ensures var ended := CallEnded(table, e, true, NoFaults, now);
      ended[j].status == "completed" && CallStarted(ended, e, true, NoFaults, now)[j].status == "calling"
  {
    var ended := CallEnded(table, e, true, NoFaults, now);
    var i := RowIndex(table, e.callId.value);
    assert forall k :: 0 <= k < |table| ==> ended[k].vapiCallId == table[k].vapiCallId && ended[k].id == table[k].id;
    RowAtFirstMatch(ended, e.callId.value, i);
  }

  // ------------------------------------------------------------------ function calls

  /** `${value}` of an optional string: absent values print as "undefined". */
  function Show(o: Option<string>): string {
    if o.Some? then o.value else "undefined"
  }

  /** The note `take_notes` appends. */
  function NoteText(p: Parameters): (r: string)
    ensures "Q: " <= r
  {
    "Q: " + Show(p.question) + "\nA: " + Show(p.response) +
    (if p.keyPoints.Some? then "\nKey Points: " + Join(p.keyPoints.value, ", ") else "")
  }

  /** The notes after appending `note`: separated by a blank line when there are notes. */
  function AppendNote(existing: Option<string>, note: string): (r: string)
    ensures Truthy(existing) ==> r == existing.value + "\n\n" + note
    ensures !Truthy(existing) ==> r == note
  {
    var prior := OrElse(existing, "");
    if prior != "" then prior + "\n\n" + note else note
  }

  /** `handleTakeNotes`: the note is appended to the notes of the row with the call id. */
  function TakeNotes(table: Store, p: Parameters, callId: Option<string>, dbConfigured: bool, faults: SelectFaults, now: string): (r: Store)
    ensures |r| == |table|
    ensures !dbConfigured || !Truthy(callId) || faults.byCallId || RowByCallId(table, callId.value).None? ==> r == table
    ensures dbConfigured && Truthy(callId) && !faults.byCallId && RowByCallId(table, callId.value).Some? ==>
              var row := RowByCallId(table, callId.value).value;
              forall j :: 0 <= j < |table| ==>
                (table[j].id == row.id ==>
                   r[j] == table[j].(callNotes := Some(AppendNote(row.callNotes, NoteText(p))), updatedAt := Some(now))) &&
                (table[j].id != row.id ==> r[j] == table[j])
  {
    if !dbConfigured || !Truthy(callId) || faults.byCallId then table
    else
      var row := RowByCallId(table, callId.value);
      if row.None? then table
      else
        var notes := AppendNote(row.value.callNotes, NoteText(p));
        NoteWriteApplied(notes, now);
        DbWrite(table, row.value.id, NoteWrite(notes, now))
  }

  /** The note write sets the notes and `updated_at` and nothing else. */
  lemma NoteWriteApplied(notes: string, now: string)
    ensures forall c: Candidate :: Apply(c, Json(NoteWrite(notes, now))) == c.(callNotes := Some(notes), updatedAt := Some(now))
  {
  }

  /** One `take_notes` on a table with unique ids: the found row gets the note appended,
      keeps its call id and stays the row found by it. */
  lemma TakeNotesRow(table: Store, p: Parameters, callId: string, now: string, j: int)
    requires callId != "" && UniqueIds(table) && 0 <= j < |table|
    requires RowByCallId(table, callId) == Some(table[j])
    ensures var once := TakeNotes(table, p, Some(callId), true, NoFaults, now);
      once[j] == table[j].(callNotes := Some(AppendNote(table[j].callNotes, NoteText(p))), updatedAt := Some(now)) &&
      (forall k :: 0 <= k < |table| && k != j ==> once[k] == table[k]) &&
      UniqueIds(once) && RowByCallId(once, callId) == Some(once[j])
  {
    var once := TakeNotes(table, p, Some(callId), true, NoFaults, now);
    var i := RowIndex(table, callId);
    assert i == j by {
      assert table[i].id == table[j].id;
    }
    forall k | 0 <= k < |table| && k != j
      ensures once[k] == table[k]
    {
      assert table[k].id != table[j].id by {
        if k < j { assert table[k].id != table[j].id; } else { assert table[j].id != table[k].id; }
      }
    }
    RowAtFirstMatch(once, callId, j);
  }

  /** The position of the row `RowByCallId` finds: the first with this call id. */
  lemma RowIndex(table: Store, callId: string) returns (i: int)
    requires RowByCallId(table, callId).Some?
    ensures 0 <= i < |table| && table[i] == RowByCallId(table, callId).value
    ensures forall k :: 0 <= k < i ==> table[k].vapiCallId != Some(callId)
  {
    i :| 0 <= i < |table| && table[i] == RowByCallId(table, callId).value &&
         table[i].vapiCallId == Some(callId) && forall k :: 0 <= k < i ==> table[k].vapiCallId != Some(callId);
  }

  /** The first row with this call id is the one `RowByCallId` finds. */
  lemma RowAtFirstMatch(table: Store, callId: string, j: int)
    requires 0 <= j < |table| && table[j].vapiCallId == Some(callId)
    requires forall k :: 0 <= k < j ==> table[k].vapiCallId != Some(callId)
    ensures RowByCallId(table, callId) == Some(table[j])
  {
    FindFirst(table, (c: Candidate) => c.vapiCallId == Some(callId), j);
  }

  /** The body `take_notes` writes. */
  function NoteWrite(notes: string, now: string): Patch {
    NoChange.(callNotes := Some(Some(notes)), updatedAt := Some(Some(now)))
  }

  /** Nothing deduplicates notes: a repeated `take_notes` appends the note again. */
  lemma TakeNotesTwice(table: Store, p: Parameters, callId: string, now: string, j: int)
    requires callId != "" && UniqueIds(table) && 0 <= j < |table|
    requires RowByCallId(table, callId) == Some(table[j])
    ensures var n := NoteText(p);
      TakeNotes(TakeNotes(table, p, Some(callId), true, NoFaults, now), p, Some(callId), true, NoFaults, now)[j].callNotes ==
      Some(AppendNote(table[j].callNotes, n) + "\n\n" + n)
  {
    var once := TakeNotes(table, p, Some(callId), true, NoFaults, now);
    TakeNotesRow(table, p, callId, now, j);
    TakeNotesRow(once, p, callId, now, j);
    var twice := TakeNotes(once, p, Some(callId), true, NoFaults, now);
    var n := NoteText(p);
    var first := AppendNote(table[j].callNotes, n);
    assert |n| >= 3;
    assert first != "";
    assert once[j].callNotes == Some(first);
    assert twice[j].callNotes == Some(AppendNote(Some(first), n));
  }

  /** An authorised `take_notes` request, end to end: it answers 200, appends the note to
      the row holding the call id and stamps it, and leaves every other row as it was. */
  lemma PostTakeNotesReachesRow(table: Store, secret: Option<string>, header: Option<string>, e: Event,
                                now: string, j: int)
    requires Authorized(secret, header)
    requires e.kind == Some("function-call") && e.functionCall.Some?
    requires e.functionCall.value.name == Some("take_notes") && e.functionCall.value.parameters.Some?
    requires Truthy(e.callId) && UniqueIds(table) && 0 <= j < |table|
    requires RowByCallId(table, e.callId.value) == Some(table[j])
    ensures var r := Post(table, secret, header, Parsed(Some(e)), true, NoFaults, now);
      var p := e.functionCall.value.parameters.value;
      r.1 == Response(200, Ack(true, None)) &&
      r.0[j] == table[j].(callNotes := Some(AppendNote(table[j].callNotes, NoteText(p))), updatedAt := Some(now)) &&
      forall k :: 0 <= k < |table| && k != j ==> r.0[k] == table[k]
  {
    var p := e.functionCall.value.parameters.value;
    assert Post(table, secret, header, Parsed(Some(e)), true, NoFaults, now).0 == TakeNotes(table, p, e.callId, true, NoFaults, now);
    TakeNotesRow(table, p, e.callId.value, now, j);
  }

  /** The fields `collect_candidate_info` writes: truthy values only, plus the additional
      information appended to the notes. */
  function InfoPatch(existingNotes: Option<string>, p: Parameters, now: string): (r: Patch)
    ensures r.updatedAt == Some(Some(now))
    ensures Truthy(p.candidateName) <==> r.name.Some?
    ensures Truthy(p.email) <==> r.email.Some?
    ensures Truthy(p.phone) <==> r.phone.Some?
    ensures Truthy(p.position) <==> r.position.Some?
    ensures p.additionalInfo.Some? <==> r.callNotes.Some?
    ensures r.status.None? && r.vapiCallId.None?
    ensures forall c: Candidate :: InfoApplied(c, existingNotes, p, now, Apply(c, Json(r)))
  {
    NoChange.(updatedAt := Some(Some(now)),
              name := if Truthy(p.candidateName) then p.candidateName else None,
              email := if Truthy(p.email) then p.email else None,
              position := if Truthy(p.position) then p.position else None,
              phone := if Truthy(p.phone) then p.phone else None,
              callNotes := if p.additionalInfo.Some? then
                             Some(Some(AppendNote(existingNotes, "Additional Info:\n" + p.additionalInfo.value)))
                           else None)
  }

  /** Row `after` is row `before` with the collected details: each truthy value replaces
      the stored one, the additional information is appended to `notes`, `updated_at` is
      now, and nothing else changes. */
  predicate InfoApplied(before: Candidate, notes: Option<string>, p: Parameters, now: string, after: Candidate) {
    after.name == (if Truthy(p.candidateName) then p.candidateName.value else before.name) &&
    after.email == (if Truthy(p.email) then p.email.value else before.email) &&
    after.phone == (if Truthy(p.phone) then p.phone.value else before.phone) &&
    after.position == (if Truthy(p.position) then p.position.value else before.position) &&
    after.callNotes == (if p.additionalInfo.Some? then Some(AppendNote(notes, "Additional Info:\n" + p.additionalInfo.value))
                        else before.callNotes) &&
    after.updatedAt == Some(now) &&
    after == before.(name := after.name, email := after.email, phone := after.phone, position := after.position,
                     callNotes := after.callNotes, updatedAt := after.updatedAt)
  }

  /** `handleCollectCandidateInfo`. */
  function CollectInfo(table: Store, p: Parameters, callId: Option<string>, dbConfigured: bool, faults: SelectFaults, now: string): (r: Store)
    ensures |r| == |table|
    ensures !dbConfigured || !Truthy(callId) || faults.byCallId || RowByCallId(table, callId.value).None? ==> r == table
    ensures dbConfigured && Truthy(callId) && !faults.byCallId && RowByCallId(table, callId.value).Some? ==>
              var row := RowByCallId(table, callId.value).value;
              forall j :: 0 <= j < |table| ==>
                (table[j].id == row.id ==> InfoApplied(table[j], row.callNotes, p, now, r[j])) &&
                (table[j].id != row.id ==> r[j] == table[j])
  {
    if !dbConfigured || !Truthy(callId) || faults.byCallId then table
    else
      var row := RowByCallId(table, callId.value);
      if row.None? then table
      else DbWrite(table, row.value.id, InfoPatch(row.value.callNotes, p, now))
  }

  /** Empty values never clear stored details: an empty email leaves the email as it was,
      and the call's status and id are never touched. */
  lemma CollectInfoKeepsOnEmpty(table: Store, p: Parameters, callId: string, now: string, j: int)
    requires callId != "" && 0 <= j < |table| && !Truthy(p.email) && !Truthy(p.candidateName)
    ensures var r := CollectInfo(table, p, Some(callId), true, NoFaults, now)[j];
      r.email == table[j].email && r.name == table[j].name &&
      r.status == table[j].status && r.vapiCallId == table[j].vapiCallId
  {
  }

  // ------------------------------------------------------------------ dispatch

  /** What one event does to the candidates table. */
  function Handle(table: Store, e: Event, dbConfigured: bool, faults: SelectFaults, now: string): (r: Store)
    ensures |r| == |table|
    ensures e.kind != Some("call-started") && e.kind != Some("call-ended") && e.kind != Some("function-call") ==> r == table
    ensures e.kind == Some("call-started") ==> r == CallStarted(table, e, dbConfigured, faults, now)
    ensures e.kind == Some("call-ended") ==> r == CallEnded(table, e, dbConfigured, faults, now)
    ensures e.kind == Some("function-call") && e.functionCall.Some? && e.functionCall.value.parameters.Some? ==>
              var f := e.functionCall.value;
              (f.name == Some("take_notes") ==> r == TakeNotes(table, f.parameters.value, e.callId, dbConfigured, faults, now)) &&
              (f.name == Some("collect_candidate_info") ==> r == CollectInfo(table, f.parameters.value, e.callId, dbConfigured, faults, now)) &&
              (f.name != Some("take_notes") && f.name != Some("collect_candidate_info") ==> r == table)
    ensures e.kind == Some("function-call") && (e.functionCall.None? || e.functionCall.value.parameters.None?) ==> r == table
  {
    if e.kind == Some("call-started") then CallStarted(table, e, dbConfigured, faults, now)
    else if e.kind == Some("call-ended") then CallEnded(table, e, dbConfigured, faults, now)
    else if e.kind == Some("function-call") && e.functionCall.Some? && e.functionCall.value.parameters.Some? then
      var f := e.functionCall.value;
      if f.name == Some("take_notes") then TakeNotes(table, f.parameters.value, e.callId, dbConfigured, faults, now)
      else if f.name == Some("collect_candidate_info") then CollectInfo(table, f.parameters.value, e.callId, dbConfigured, faults, now)
      else table
    else table
  }

  /** `POST /api/vapi-webhook`. */
  function Post(table: Store, secret: Option<string>, header: Option<string>, body: WebhookBody,
                dbConfigured: bool, faults: SelectFaults, now: string): (r: (Store, Response<Ack>))
    ensures !Authorized(secret, header) ==> r == (table, Response(401, Ack(false, Some("Unauthorized"))))
    ensures Authorized(secret, header) && body.Unparseable? ==> r == (table, Response(400, Ack(false, Some("Invalid JSON"))))
    ensures Authorized(secret, header) && body.Parsed? ==> r.1 == Response(200, Ack(true, None))
    ensures Authorized(secret, header) && body.Parsed? && body.event.Some? ==> r.0 == Handle(table, body.event.value, dbConfigured, faults, now)
    ensures Authorized(secret, header) && body.Parsed? && body.event.None? ==> r.0 == table
    ensures r.1.status != 200 ==> r.0 == table
    ensures |r.0| == |table|
  {
    if !Authorized(secret, header) then (table, Response(401, Ack(false, Some("Unauthorized"))))
    else match body
      case Unparseable => (table, Response(400, Ack(false, Some("Invalid JSON"))))
      case Parsed(e) =>
        (if e.Some? then Handle(table, e.value, dbConfigured, faults, now) else table, Response(200, Ack(true, None)))
  }
}
